=== FILE: README.md ===
# Sliding-tile tree solver (AtCoder Heuristic Contest 011), modelled in Dafny

The program solves the AHC011 puzzle. An N x N board holds tiles, each a
hexadecimal digit whose four bits say which sides carry a line: 1 left,
2 up, 4 right, 8 down. Digit `0` is the blank. A move slides a neighbouring
tile into the blank and is written `D`, `R`, `U` or `L`, after the direction
in which the blank travels. At most T moves are allowed. The aim is to make
the largest tree: a connected set of tiles whose lines form no cycle.

Every solver variant draws the board at three times its size. Each tile
becomes a 3x3 block of walls `#` and roads `.`, with the tile's centre and
its open sides as roads. On this big board:

- the *tree size* from a tile is one plus the number of other tile centres a
  breadth-first walk over roads reaches;
- a depth-first walk reports a *loop* when it meets a marked cell that is not
  the cell it came from.

The repository holds four solvers over these shared pieces:

| source | solver | Dafny module |
|---|---|---|
| `src/bin/a.rs` | chokudai search: several passes of a width-1 beam over per-depth priority queues; states ordered by an evaluation score | `Chokudai` |
| `src/bin/a_20220531_1264ms_beam_search.rs` | one beam search of width 100, ordered by tree size | `BeamSearch` |
| `src/bin/a_20220531_2894ms_hill_climbing.rs` | hill climbing over epochs (see below) | `HillClimbing` |
| `src/bin/a_20220531_18ms.rs` | one greedy run over all four directions; no loop check | `Greedy` |

In the hill-climbing solver, a turn tries the moves that do not undo the last
one, in random order. It keeps the first move that grows the tree, or the
last candidate if none does. A tree with a loop counts as zero.

Each solver file carries its own copy of the shared pieces, and the copies
agree with `src/bin/a.rs`:

- the tile table: `src/bin/a_20220531_1264ms_beam_search.rs:32-52`,
  `src/bin/a_20220531_2894ms_hill_climbing.rs:29-49`,
  `src/bin/a_20220531_18ms.rs:29-49`;
- the breadth-first count: `src/bin/a_20220531_1264ms_beam_search.rs:55-86`,
  `src/bin/a_20220531_2894ms_hill_climbing.rs:52-83`,
  `src/bin/a_20220531_18ms.rs:52-83`;
- the depth-first loop test: `src/bin/a_20220531_2894ms_hill_climbing.rs:86-110`;
- the legal moves: `src/bin/a_20220531_1264ms_beam_search.rs:117-140`.

So the model defines each shared piece once, and the table below cites the
`a.rs` copy:

- `Grid`: cells, directions, boards;
- `Tiles`: the 3x3 expansion;
- `TreeSize`: the breadth-first count;
- `LoopDfs`: the depth-first loop test;
- `Blocks`: the block copy that slides a tile;
- `Moves`: move letters, legal moves, replaying a move string;
- `Build`: the big board and initial blank;
- `Heap`: pop-max queues;
- `Record`: the best-so-far record and the fold of offers into it;
- `Climb`: one hill-climbing or greedy turn;
- `MatSwap`: the unused matrix swap helper.

Randomness, the evaluation score and the standard priority queue's tie
order become parameters or abstract keys.

Several promises hold for every solver:

- Replaying the recorded move string from the start position is always
  possible.
- The replay ends at a board on which the tree, measured the way the solver
  measured it, has the recorded size.
- Each solver also returns a ghost log of what it offered to the record, in
  order. The record is what `Record.Best` makes of that log from the empty
  record. By `Record.BestIsMax`, this is the first entry of the largest
  size, or the empty record when no entry is above zero.
- For the two search solvers the log is proved equal to an independent
  reference run, written as ghost functions. The reference queues pop the
  first-pushed state among equal keys, one order the standard heap's
  documented contract allows (see "## Left out"):
  - beam search: `BeamSearch.EpochTops`, repeated once per epoch. Each
    round drains the 100 best states of the beam (`Heap.Drain`), takes
    their children state by state, and lists the best of those children;
  - chokudai search: `Chokudai.Search`. Pass after pass and depth after
    depth, the best state of each queue is popped and each child, in the
    shuffled order, joins the next depth's queue. The log is every child
    produced, and only the loop-free ones are offered. Lemmas on the
    reference (`Chokudai.SearchKeeps`, `Chokudai.SearchSeesStart`) show
    that every child is consistent and that every child of the start is
    among them.
- For hill climbing and greedy the log is every kept move string with its
  size. Which candidate a turn keeps is stated turn by turn.

For the hill-climbing and greedy solvers the two replay promises need the input to
hold a `0`. Only then is the blank block all walls, so that putting a
rejected tile back restores the board.

## Model

| member | source | states |
|---|---|---|
| Tiles.Expand | src/bin/a.rs:32-52 | exactly the sixteen hex digits have a pattern; `0` is all walls; for any other digit the centre is a road, the corners are walls, and each side cell is a road exactly when the digit's bit for that side is set |
| TreeSize.ComputeTreeSizeByBfs | src/bin/a.rs:55-86 | the breadth-first count equals one plus the number of tile centres other than the start that a walk over road cells reaches from the start, and is at least one |
| TreeSize.VisitNeighbours | src/bin/a.rs:64-83 | after scanning the four neighbours of a popped cell, every road neighbour is marked; newly marked cells are queued and reachable; the count grows by exactly the new centres |
| TreeSize.VisitOne | src/bin/a.rs:66-82 | an in-bounds road neighbour ends up marked; an unmarked one is queued, marked and reachable, and the count tracks its centre; anything else changes nothing |
| TreeSize.BfsStep | src/bin/a.rs:61-84 | one iteration of the queue loop keeps "marked cells are reachable, dequeued ones have all road neighbours marked, count = 1 + marked centres" and decreases the unmarked cells or the queue |
| TreeSize.ReachWithinClosed | src/bin/a.rs:61-84 | a marked set closed under road neighbours contains every cell reachable from the start, so the final count misses nothing |
| TreeSize.WalledCentreIsolated | src/bin/a.rs:34 | from the centre of an all-wall block nothing else is reachable and the tree size is one |
| LoopDfs.Dfs | src/bin/a.rs:89-113 | one call marks the current cell and only adds non-wall cells to the marks |
| LoopDfs.DfsVerdict | src/bin/a.rs:89-113 | the call answers `true` exactly when some examined neighbour is already marked when the start frame reaches it, counting the marks left by the walks into earlier directions; an examined neighbour marked before the call forces `true`; `true` means some examined neighbour is marked at the end; `false` means every examined neighbour was unmarked at entry and is marked at exit |
| LoopDfs.ScanExact | src/bin/a.rs:98-112 | from any direction on, the neighbour scan answers `true` exactly when a later examined neighbour is marked at the moment the scan reaches it |
| LoopDfs.MarksAt | src/bin/a.rs:98-112 | the marks held when the scan reaches a direction include the marks it started with and the current cell |
| LoopDfs.LoopThroughStartIsFound | src/bin/a.rs:89-113 | on a road ring round one wall, a walk from a ring cell does report a loop: the walk round the ring marks the second neighbour of the start before the start frame examines it |
| LoopDfs.ScanSeesMarked | src/bin/a.rs:98-107 | the neighbour scan reports a loop once it reaches a direction whose non-wall, non-parent neighbour is marked |
| LoopDfs.ScanFalseMarksAll | src/bin/a.rs:98-112 | a scan that reports no loop has marked every examined neighbour |
| LoopDfs.ScanTrueHasWitness | src/bin/a.rs:98-107 | a scan that reports a loop has a marked examined neighbour |
| LoopDfs.IsolatedStartHasNoLoop | src/bin/a.rs:89-113 | a start cell walled on all four sides has no loop |
| LoopDfs.LoopAwayFromStartIsMissed | src/bin/a.rs:110 | on the 3x3 board `.##` / `...` / `...`, the road cycle through (1,0), (1,1), (2,1), (2,0) lies one step from the start (0,0) and is not reported, because the recursive call's answer is discarded |
| Moves.Letter | src/bin/a.rs:204-210 | each direction 0..3 maps to one of the letters D, R, U, L |
| Moves.DirOf | src/bin/a.rs:121-127 | reading a letter back gives a direction exactly for D, R, U, L, and that direction's letter is the one read |
| Moves.LetterRoundTrip | src/bin/a.rs:204-210 | reading back the letter of a direction gives the direction |
| Moves.Reverse | src/bin/a.rs:121-126 | the reversal of a direction is a different direction that steps back to the start |
| Moves.ReverseReturns | src/bin/a.rs:121-126 | stepping in a direction and then in its reversal returns to the same cell, and reversal is an involution |
| Moves.ActionCandidates | src/bin/a.rs:119-130 | the candidates are increasing and are exactly the directions whose reversal is not the last letter; no last letter, or a last letter that is not a move, gives all four |
| Moves.KeepInside | src/bin/a.rs:132-138 | the filter keeps exactly the candidates whose step from the blank stays on the N x N board |
| Moves.KeepInsideIncreasing | src/bin/a.rs:132-138 | filtering keeps the candidates' increasing order |
| Moves.LegalActions | src/bin/a.rs:117-140 | the legal moves are increasing and are exactly the in-bounds directions that do not undo the last letter |
| Moves.LegalActionsNonEmpty | src/bin/a.rs:117-140 | on a board of size at least two, every blank position has a legal move |
| Moves.Move | src/bin/a.rs:175-185 | a move exists exactly when the target is on the board, and the blank moves there |
| Moves.Replay | src/bin/a.rs:174-211 | a replayable string keeps the board 3N x 3N and the blank on the board; its last letter is a move whose previous blank is on the board |
| Moves.ReplayAppend | src/bin/a.rs:174-211 | replaying a string extended by one legal move slides that tile into the previous blank |
| Moves.AppendCandidate | src/bin/a_20220531_2894ms_hill_climbing.rs:173-179 | appending a candidate that does not undo the last letter keeps the string free of immediate reversals |
| Moves.AppendLegal | src/bin/a.rs:117-140 | appending a legal move keeps the string free of immediate reversals |
| Blocks.MoveBlock | src/bin/a.rs:178-185 | the nine-step copy loop leaves the blank's block equal to the moved tile's old block, the moved block all walls, and every other cell unchanged |
| Blocks.Slid | src/bin/a.rs:178-185 | a slide keeps the board square and keeps a wall-and-road board wall-and-road |
| Blocks.SlidBlocks | src/bin/a.rs:178-185 | after a slide the blank's block holds the tile's old contents, the tile's old block is walls, and nothing else changes |
| Blocks.SlidFromSteps | src/bin/a.rs:178-185 | after all nine copy steps, the board is the slide |
| Blocks.CopyStep | src/bin/a.rs:181-183 | one copy step advances the description of the board by exactly one offset |
| Blocks.SlideUndo | src/bin/a_20220531_2894ms_hill_climbing.rs:243-249 | when the blank's block is all walls, sliding back undoes a slide exactly |
| Blocks.UndoNeedsWalledBlank | src/bin/a_20220531_2894ms_hill_climbing.rs:243-249 | for every board and every two different tiles, when the blank's block is not all walls, sliding the tile in and back does not restore the board: sliding back leaves that block all walls |
| MatSwap.VecSwap | src/bin/a_20220531_18ms.rs:88 | swapping two entries exchanges them and keeps the rest |
| MatSwap.SwapRemove | src/bin/a_20220531_18ms.rs:92 | swap-remove returns the removed entry, moves the last entry into its place, and keeps the others |
| MatSwap.MatSwapSwapRemove | src/bin/a_20220531_18ms.rs:86-96 | the two cells exchange contents, every other cell and every row length are unchanged, in both the same-row and different-row paths |
| MatSwap.SwapTwiceRestores | src/bin/a_20220531_18ms.rs:86-96 | swapping the same two cells twice restores the matrix |
| MatSwap.SwapSymmetric | src/bin/a_20220531_18ms.rs:86-96 | the order of the two cells does not matter |
| Build.BigBoard | src/bin/a.rs:245-259 | the big board is 3N x 3N, walls and roads only, and each block is its tile's expansion |
| Build.LastZeroInRow | src/bin/a.rs:248-251 | the scan of a row finds the last `0` before the given column, or proves there is none |
| Build.LastZero | src/bin/a.rs:246-251 | the blank is the last `0` in row-major order, or there is no `0` |
| Build.BuildPosition | src/bin/a.rs:243-259 | a start position exists exactly when every tile is a hex digit; its board is the expansion; its blank is the row-major last `0`, or (0, 0) when there is none |
| Build.BlankIsWalled | src/bin/a.rs:243-259 | when the input holds a `0`, the start blank's block is all walls and its tree size is one |
| Heap.MaxIndex | src/bin/a.rs:162-166 | the chosen index holds a maximal key |
| Heap.Pop | src/bin/a.rs:324 | popping returns an element of greatest key and the rest of the queue, with nothing lost or added |
| Heap.Push | src/bin/a.rs:350 | pushing adds exactly the element |
| Heap.PopMembers | src/bin/a.rs:324 | the popped element and the remaining ones all come from the queue |
| Heap.PopPushBack | src/bin/a_20220531_1264ms_beam_search.rs:251-264 | popping the best and pushing it back leaves the same multiset of states |
| Heap.Drain | src/bin/a_20220531_1264ms_beam_search.rs:237-241 | draining k pops gives min(k, queue size) elements and leaves the others |
| Heap.DrainPerm | src/bin/a_20220531_1264ms_beam_search.rs:237-241 | the drained elements and the rest together are exactly the queue, as a multiset |
| Heap.DrainOrdered | src/bin/a_20220531_1264ms_beam_search.rs:237-241 | the drained elements come out in non-increasing key order, and none left behind has a larger key than any drained one |
| Heap.DrainStep | src/bin/a_20220531_1264ms_beam_search.rs:237-241 | one more pop from a non-empty rest appends the popped element and leaves the rest of the pop |
| Heap.DrainStops | src/bin/a_20220531_1264ms_beam_search.rs:238-239 | once the queue is empty, further pops change nothing, as at the loop's `break` |
| Chokudai.MaxTreeSize | src/bin/a.rs:186-196 | the result is the largest tree size over all tile centres, attained at one of them, and at least one; it is the row-by-row scan `MaxUpTo` |
| Chokudai.RowMax | src/bin/a.rs:189-194 | one row of the scan raises the running maximum to cover every centre of the row, and only to a value attained there |
| Chokudai.MaxUpToBounds | src/bin/a.rs:187-196 | the scan of the first rows is at least every count of those rows, and is zero or attained at one of them |
| Chokudai.RowMaxUpToBounds | src/bin/a.rs:189-194 | the scan of part of a row is at least the running maximum and every count seen, and is the running maximum or one of those counts |
| Chokudai.MaxUpToIsMax | src/bin/a.rs:186-196 | the scan of all rows is the largest count over every centre |
| Chokudai.Advance | src/bin/a.rs:174-225 | the blank moves one step and the tiles slide; the new blank block is walls and every other cell is unchanged; the letter is appended and the turn counted; the tree size is the board maximum; the loop flag is the depth-first test from the old blank's centre; the score is the evaluation of these |
| Chokudai.AdvanceKid | src/bin/a.rs:330-331 | advancing a state by a legal move gives exactly the child the reference names for that move |
| Chokudai.BeamNumber | src/bin/a.rs:282-289 | a pass count exists exactly for N in 6..10 and lies between 30 and 200 |
| Chokudai.BeamDepth | src/bin/a.rs:292-299 | a depth exists exactly for N in 6..10, at most T and at least 7T/10 |
| Chokudai.UpdateBest | src/bin/a.rs:333-336 | the record grows only to the tree size and string of a child whose loop flag is clear, and takes every such child that beats it; it is the record fold of the child's offer, where a looping child offers nothing |
| Chokudai.ChildConsistent | src/bin/a.rs:329-331 | a child produced from a consistent state replays from the start and is consistent one depth deeper |
| Chokudai.ChildIsConsistent | src/bin/a.rs:329-331 | the reference child of a consistent state by a legal move is consistent one depth deeper |
| Chokudai.BestAfterUpdate | src/bin/a.rs:333-336 | after the update the record still replays to a board with the recorded largest tree and no reported loop at the last moved tile, and stays within the depth |
| Chokudai.BeamAfterPop | src/bin/a.rs:324 | a popped state is consistent at its depth and the queues stay consistent |
| Chokudai.KidsAreChildren | src/bin/a.rs:326-331 | the children made by a list of legal moves carry, one by one, the parent's moves followed by that move's letter |
| Chokudai.RecordStep | src/bin/a.rs:333-336 | the record after one more child is the record before it, updated by that child |
| Chokudai.RecordConcat | src/bin/a.rs:315-354 | the record after two runs of children is the record after the first, with the loop-free children of the second offered to it |
| Chokudai.Enqueue | src/bin/a.rs:350 | pushing a child onto the next depth's queue appends it there and changes no other queue |
| Chokudai.ExpandState | src/bin/a.rs:329-351 | expanding a state in a given order of legal moves appends exactly its children, in that order, to the next depth's queue, changes no other queue, and leaves the record that offering the loop-free children in order leaves |
| Chokudai.ExpandBest | src/bin/a.rs:324-351 | the state popped is the best of the depth's queue by score, the rest of that queue stays, the next depth's queue grows by exactly one child per move of a shuffle of its legal moves, in that order, and the record takes in the loop-free ones; the step is the reference `Expansion` |
| Chokudai.BeamGrows | src/bin/a.rs:350 | children consistent one depth below keep every queue consistent |
| Chokudai.ExpansionKeeps | src/bin/a.rs:324-351 | a reference expansion keeps every queue consistent, and its children are consistent one depth below the popped state |
| Chokudai.SeenAppend | src/bin/a.rs:329-351 | children consistent at a depth between one and the beam depth extend the list of seen children |
| Chokudai.ExpandDepth | src/bin/a.rs:317-352 | the steps at one depth of a pass run until `beam_width` steps are done or the queue is empty; the queues, the children and the shuffle count are the reference `Widths`, and the record takes in the loop-free children |
| Chokudai.RunDepths | src/bin/a.rs:316-353 | a pass runs the steps of each depth below the beam depth in turn; the queues, children and shuffle count are the reference `Depths`, and the record takes in the loop-free children |
| Chokudai.RunPasses | src/bin/a.rs:315-354 | the passes run in turn; the children they produce are the reference `Passes`, and the record takes in the loop-free ones |
| Chokudai.WidthsKeep | src/bin/a.rs:317-352 | the reference steps at one depth keep every queue consistent and produce only children consistent at their depths |
| Chokudai.DepthsKeep | src/bin/a.rs:316-353 | a reference pass keeps every queue consistent and produces only children consistent at their depths |
| Chokudai.PassesKeep | src/bin/a.rs:315-354 | the reference passes produce only children consistent at their depths |
| Chokudai.RecordOk | src/bin/a.rs:333-336 | the record folded over the loop-free children of any run of consistent children is empty with size zero or a replayable string, within the beam depth, of a board with that largest tree and no reported loop |
| Chokudai.QueuesOk | src/bin/a.rs:306-313 | the starting queues, the start state at depth zero followed by `beam_depth` empty queues, are consistent |
| Chokudai.SearchKeeps | src/bin/a.rs:277-354 | every child of the reference search is consistent at its depth |
| Chokudai.SearchSeesStart | src/bin/a.rs:315-331 | the first step of the reference search expands the start state, so a child by every legal move of the start is among the children it produces |
| Chokudai.ChokudaiSearch | src/bin/a.rs:277-354 | the record is empty exactly when its size is zero; otherwise it replays from the start, within the beam depth, to a board whose largest tree has the recorded size and on which the loop test from the last moved tile reports nothing; `seen` is the reference search `Search`, every child produced pass by pass and depth by depth, and the record is the fold of its loop-free children into the empty record |
| Chokudai.StateOfMoves | src/bin/a.rs:174-225 | two consistent states at the same depth, one or more, with the same move string are the same state (at depth zero the tree size, loop flag and score are not fixed) |
| Chokudai.LoopFreeConcat | src/bin/a.rs:333 | the loop-free offers of two runs of children are those of the first followed by those of the second |
| BeamSearch.GetLegalActions | src/bin/a_20220531_1264ms_beam_search.rs:117-140 | the legal moves are increasing and are exactly the in-bounds directions that do not undo the last letter |
| BeamSearch.Advance | src/bin/a_20220531_1264ms_beam_search.rs:143-164 | the blank moves and the tiles slide, every other cell is unchanged, and the letter is appended; the tree size is counted from the old blank's centre, where the moved tile now sits; the result is the child of the state by that move |
| BeamSearch.PopFrom | src/bin/a_20220531_1264ms_beam_search.rs:241 | a state popped from a consistent beam is consistent |
| BeamSearch.PushAt | src/bin/a_20220531_1264ms_beam_search.rs:247 | pushing a consistent state keeps the beam consistent |
| BeamSearch.RecordOfState | src/bin/a_20220531_1264ms_beam_search.rs:257-260 | any consistent state of depth 1..T is a valid record |
| BeamSearch.ChildConsistent | src/bin/a_20220531_1264ms_beam_search.rs:244-247 | a child of a consistent state is consistent one depth deeper |
| BeamSearch.PushChild | src/bin/a_20220531_1264ms_beam_search.rs:245-247 | the pushed element is exactly the child by the action; the next beam stays consistent and grows by one |
| BeamSearch.Expand | src/bin/a_20220531_1264ms_beam_search.rs:243-248 | the earlier contents of the next beam stay in front, and what follows them is exactly one child per legal action, in the order of the legal actions; on a board of size two or more there is at least one |
| BeamSearch.ExpandStep | src/bin/a_20220531_1264ms_beam_search.rs:244-247 | pushing the child by the next legal action extends the children pushed so far by exactly that child |
| BeamSearch.StateOfMoves | src/bin/a_20220531_1264ms_beam_search.rs:143-164 | two consistent states at the same depth with the same move string are the same state |
| BeamSearch.ChildOfMoves | src/bin/a_20220531_1264ms_beam_search.rs:244-247 | a consistent state one move deeper with a child's move string is that child |
| BeamSearch.KidsAreChildren | src/bin/a_20220531_1264ms_beam_search.rs:243-248 | consistent states, one per legal action in order, named by the actions' move strings, are exactly the state's children |
| BeamSearch.ExpansionAppend | src/bin/a_20220531_1264ms_beam_search.rs:237-249 | expanding one more popped state appends its children to the next beam |
| BeamSearch.Round | src/bin/a_20220531_1264ms_beam_search.rs:235-250 | the popped states are the 100 best of the beam by tree size, or all of them when there are fewer, taken best first (`Heap.Drain`); the next beam is exactly their children, state by state in pop order and, for each, in the order of its legal actions, and it is consistent and non-empty |
| BeamSearch.TakeBest | src/bin/a_20220531_1264ms_beam_search.rs:251-264 | the popped state is the best of the beam and consistent; the record becomes exactly the offer of its string and size to the old record; the loop stops exactly when its tree spans N*N-1 tiles; otherwise the state is pushed back and the beam is unchanged as a multiset |
| BeamSearch.Start | src/bin/a_20220531_1264ms_beam_search.rs:225-229 | the start state is the start position with the count from the blank's centre and no moves, and is consistent at depth zero |
| BeamSearch.InitialBeam | src/bin/a_20220531_1264ms_beam_search.rs:225-232 | the first beam is the start state alone |
| BeamSearch.EpochTopsShape | src/bin/a_20220531_1264ms_beam_search.rs:234-265 | the reference epoch lists at most one state per remaining round, and only its last entry can span N*N-1 tiles |
| BeamSearch.OnlyLastFullCons | src/bin/a_20220531_1264ms_beam_search.rs:261-263 | a top that does not span N*N-1 tiles can be put in front of a list whose only full entry is the last |
| BeamSearch.EpochAdvance | src/bin/a_20220531_1264ms_beam_search.rs:234-265 | a round that follows the reference epoch appends the epoch's next entry, and either ends it, when that entry spans N*N-1 tiles, or leaves the beam from which the rest of the epoch follows |
| BeamSearch.EpochEnd | src/bin/a_20220531_1264ms_beam_search.rs:234 | after the last round nothing of the reference epoch remains |
| BeamSearch.EpochRound | src/bin/a_20220531_1264ms_beam_search.rs:235-264 | a round's beam is the reference next beam of the current one, its best state is appended to `tops` and offered to the record, and the search continues from that beam with the best state pushed back unless its tree spans N*N-1 tiles |
| BeamSearch.OnCourseRound | src/bin/a_20220531_1264ms_beam_search.rs:235-264 | a round keeps the tops so far, followed by the reference epoch from the beam it leaves, equal to the whole reference epoch; when it stops, the tops are the whole reference epoch |
| BeamSearch.TopsStep | src/bin/a_20220531_1264ms_beam_search.rs:251-264 | the best state of the next round, consistent at that depth, extends the list of tops, and only a top spanning N*N-1 tiles can end it |
| BeamSearch.SearchEpoch | src/bin/a_20220531_1264ms_beam_search.rs:225-265 | at most T rounds run; `tops` is the reference epoch `EpochTops` from the start state, each entry a good record with as many moves as its round number; the record is the fold of `tops` into the record carried in; fewer than T rounds run exactly when the last top spans N*N-1 tiles |
| BeamSearch.TopsAllGood | src/bin/a_20220531_1264ms_beam_search.rs:206-265 | the tops of one more epoch keep every listed string a good record of at most T moves |
| BeamSearch.BeamSearch | src/bin/a_20220531_1264ms_beam_search.rs:202-265 | the record is empty exactly when its size is zero; otherwise it replays from the start, fits in T moves, and its size is the tree counted from the centre of the tile moved last; `tops` is the reference epoch repeated once per epoch, the record is its fold into the empty record, and with T at least one it is never empty |
| Climb.Evaluate | src/bin/a_20220531_2894ms_hill_climbing.rs:205-211 | with the loop check, a loop scores zero and otherwise the tree size (at least one) |
| Climb.Trial | src/bin/a_20220531_2894ms_hill_climbing.rs:188-211 | the trial slides the candidate tile into the blank and scores from the blank's centre |
| Climb.Undo | src/bin/a_20220531_2894ms_hill_climbing.rs:243-249 | putting the tile back is the reverse slide, which restores the board when the blank was walled |
| Climb.Turn | src/bin/a_20220531_2894ms_hill_climbing.rs:182-251 | a turn keeps the first in-bounds candidate that grows the tree or is the last one; if none is kept the size is unchanged, the last candidate was off the board, and (blank walled) the board is restored; every candidate before the kept one was off the board or did not grow the tree |
| Climb.RejectedStep | src/bin/a_20220531_2894ms_hill_climbing.rs:242-250 | a rejected or skipped candidate extends the run of rejected candidates |
| Climb.KeptSlideWalled | src/bin/a_20220531_2894ms_hill_climbing.rs:195-197 | after a kept move, the new blank's block is all walls |
| Climb.KeptSlideIsMove | src/bin/a_20220531_2894ms_hill_climbing.rs:212-239 | a kept move extends the replayable string by the move's letter, and the previous blank is the old blank |
| Climb.LastByValue | src/bin/a_20220531_2894ms_hill_climbing.rs:212 | for distinct candidates, "this candidate equals the last" and "this is the last index" agree |
| Climb.WalkedAfterKeep | src/bin/a_20220531_2894ms_hill_climbing.rs:212-239 | a kept move keeps the string replayable to the current board with the current size |
| Record.Offer | src/bin/a_20220531_2894ms_hill_climbing.rs:233-236 | the record's size becomes the larger of the two, and its string is the old one or the offered one with its size; on a tie the old record stays |
| Record.BestConcat | src/bin/a_20220531_2894ms_hill_climbing.rs:144-263 | offering two runs of candidates one after the other leaves the record that offering the second run to the first run's record leaves |
| Record.BestIsMax | src/bin/a_20220531_2894ms_hill_climbing.rs:233-236 | the folded record is at least the initial one and every candidate's size; it is the initial record when no candidate is strictly larger, and otherwise the first candidate of the largest size |
| Record.PrefixesStep | src/bin/a_20220531_2894ms_hill_climbing.rs:212-239 | appending a move to a walk and its string to the log keeps every log entry the matching prefix of the walk |
| Climb.RecordAfterKeep | src/bin/a_20220531_2894ms_hill_climbing.rs:233-236 | offering a replayable string with its size keeps the record valid |
| HillClimbing.Epochs | src/bin/a_20220531_2894ms_hill_climbing.rs:135-142 | an epoch count exists exactly for N in 6..10 and lies between 100 and 500 |
| HillClimbing.EpochsDecrease | src/bin/a_20220531_2894ms_hill_climbing.rs:135-142 | larger boards get strictly fewer epochs |
| HillClimbing.ShuffledCandidates | src/bin/a_20220531_2894ms_hill_climbing.rs:173-181 | a shuffle of the candidates holds only directions that do not undo the last move |
| HillClimbing.ClimbTurn | src/bin/a_20220531_2894ms_hill_climbing.rs:168-251 | a kept candidate is appended as the last letter, grew the tree or was the last candidate, and is offered to the record; with none kept the walk, its score and the record are unchanged and the last candidate was off the board; every candidate before the kept one was off the board or did not grow the tree (blank walled) |
| HillClimbing.KeepTurn | src/bin/a_20220531_2894ms_hill_climbing.rs:212-239 | keeping a move extends the epoch state, scores the new walk with the kept size, and offering it keeps the record valid |
| HillClimbing.EpochAfterKeep | src/bin/a_20220531_2894ms_hill_climbing.rs:212-239 | a kept move extends the epoch state |
| HillClimbing.ClimbEpoch | src/bin/a_20220531_2894ms_hill_climbing.rs:144-253 | an epoch's walk has at most T moves, never undoes the previous move, and replays from the start when the blank is walled; its log holds the walk's prefixes with their sizes, each scored when the blank is walled; the record is the fold of the log into the incoming record |
| HillClimbing.LoggedStep | src/bin/a_20220531_2894ms_hill_climbing.rs:233-236 | a scored entry of one to T moves extends a log of scored entries |
| HillClimbing.LoggedConcat | src/bin/a_20220531_2894ms_hill_climbing.rs:144-263 | two logs of scored entries, one after the other, form a log of scored entries |
| HillClimbing.HillClimb | src/bin/a_20220531_2894ms_hill_climbing.rs:129-263 | the record has at most T moves, never undoes a move, is empty exactly when its size is zero, and when the input holds a `0` replays to a board on which the last moved tile has no reported loop and a tree of the recorded size; the record is the fold into the empty record of the log of every kept string of every epoch, each entry one to T moves long and, when the input holds a `0`, scored |
| Greedy.ShuffledDirections | src/bin/a_20220531_18ms.rs:130-132 | a shuffle of the four directions lists each exactly once |
| Greedy.GreedyTurn | src/bin/a_20220531_18ms.rs:126-188 | a kept direction is appended, grew the tree or was the fourth candidate, and is offered to the record; with none kept the walk, its score and the record are unchanged and the fourth candidate was off the board; every candidate before the kept one was off the board or did not grow the tree (blank walled) |
| Greedy.RunAfterKeep | src/bin/a_20220531_18ms.rs:160-177 | a kept move extends the run state |
| Greedy.Solve | src/bin/a_20220531_18ms.rs:98-197 | the record has at most T moves, is empty exactly when its size is zero, and when the input holds a `0` replays to a board whose tree from the last previous blank has the recorded size; the record is the fold into the empty record of the log of the walk's prefixes with their sizes, each scored when the input holds a `0` |
| Greedy.LoggedTurn | src/bin/a_20220531_18ms.rs:126-188 | one turn extends the log by its kept string, if any, keeping the record the fold of the log |
| Greedy.AllScoredStep | src/bin/a_20220531_18ms.rs:169-172 | a scored entry extends a log of scored entries |

## Left out

- The score formula `compute_score` and the printed answer are output only. Reading the input is I/O. Time limits are not modelled.
- The chokudai evaluation score (floating-point, rounded) is an abstract parameter `scoreOf(tree size, loop flag, turn)`. The model keeps the score's inputs but not the arithmetic.
- The random shuffles (`rand::thread_rng`) are a caller-supplied oracle. The only requirement on it is that each result is a permutation of its input.
- BeamSearch.Round, BeamSearch.SearchEpoch, BeamSearch.BeamSearch, Chokudai.ExpandBest, Chokudai.ChokudaiSearch: the tie order of `BinaryHeap` is unspecified in the standard library. `Heap.Pop` takes, among the elements of greatest key, the one pushed first. The reference runs (`Heap.Drain`, `BeamSearch.EpochTops`, `Chokudai.Expansion`, `Chokudai.Search`) are built on that choice, so they describe one allowed pop order. On equal tree sizes or scores the program's heap may take another element of the same key, and then its run differs from the reference run. The facts proved for any run of consistent states (`Chokudai.RecordOk`, `BeamSearch.TopsStep`, `Record.BestIsMax`) do not depend on the tie order.
- The move budget `t` is read as `f64` in the beam-search, hill-climbing and greedy solvers (`src/bin/a_20220531_1264ms_beam_search.rs:173`, `src/bin/a_20220531_2894ms_hill_climbing.rs:118`, `src/bin/a_20220531_18ms.rs:98`) and truncated by `as usize` or `as i32` in the loop bounds (`src/bin/a_20220531_1264ms_beam_search.rs:234`, `src/bin/a_20220531_2894ms_hill_climbing.rs:168`, `src/bin/a_20220531_18ms.rs:125`). The model takes `t: nat`. The puzzle's T is a whole number, so the truncation changes nothing.
- Machine integer widths are not modelled. `usize` underflow (`n-1` for N = 0, `n*n - 1`) and the `as i32` casts are unbounded integers here. The `unreachable!()` panics become `None` results, for a non-hex tile or an N outside 6..10.
- Chokudai.ChokudaiSearch, HillClimbing.HillClimb: require N in 6..10, because any other N reaches `unreachable!()` in the source.
- BeamSearch.BeamSearch: requires N >= 2. On a 1 x 1 board the next beam is empty and `pop().unwrap()` panics.
- The depth-first loop test is not a general cycle detector. At `src/bin/a.rs:110` the result of the recursive call is discarded, so only the start cell's direct neighbours can report a loop. The model keeps that behaviour (`LoopDfs.LoopAwayFromStartIsMissed`).
- Climb.Turn, HillClimbing.ClimbEpoch, Greedy.Solve: the board after a rejected candidate is described only when the blank's block is all walls. This is always the case when the input holds a `0`. Otherwise putting the tile back is not an undo (`Blocks.UndoNeedsWalledBlank`), and the contracts then say nothing about the board.
- HillClimbing.ClimbEpoch, HillClimbing.HillClimb, Greedy.Solve: which candidate a turn keeps is stated per turn (`HillClimbing.ClimbTurn`, `Greedy.GreedyTurn`). The epoch and run contracts describe the walk through its log of scored prefixes, not as a function of the shuffle oracle's answers.
- HillClimbing.HillClimb, Greedy.Solve: the replay promise is stated only when the input holds a `0`, for the reason above.
- The commented-out code in the sources is not modelled, including the alternative tree-size measurement in `a.rs` and the swap call in `a_20220531_18ms.rs`. `mat_swap_swap_remove` itself is modelled.

=== FILE: beamsearch.dfy ===
/** The beam-search solver: each round expands up to `beam_width` of the
    best states (by tree size) of the current beam by all their legal
    moves, the children form the next beam, and the best child is
    recorded when its tree is larger than any before. The search stops
    early once a tree spans every tile but the blank. */
module BeamSearch {
  import opened Grid
  import opened Blocks
  import opened TreeSize
  import opened Moves
  import opened Heap
  import opened Record

  /** A search state of this solver; the queue key is the tree size. */
  datatype GameState = GameState(n: nat, bigBoard: Board, empty: Cell, treeSize: int, operationList: seq<char>)

  /** The ordering compares tree sizes only. */
  function TreeKey(s: GameState): int {
    s.treeSize
  }

  predicate WellFormed(s: GameState) {
    IsGrid(s.bigBoard, 3 * s.n) && InBounds(s.n, s.empty)
  }

  /** The legal moves of the state. */
  function GetLegalActions(s: GameState): (r: seq<nat>)
    ensures Increasing(r)
    ensures forall d :: d in r <==> d < 4 && InBounds(s.n, Step(s.empty, d)) && LastLetter(s.operationList) != Some(Letter(Reverse(d)))
  {
    LegalActions(s.operationList, s.empty, s.n)
  }

  /** The child of `s` by `action`: the tile beyond the blank slides in,
      the tree is counted from the centre of the old blank, and the letter
      is appended. */
  ghost function Child(s: GameState, action: nat): GameState
    requires WellFormed(s) && action < 4 && InBounds(s.n, Step(s.empty, action))
  {
    var board := Slid(s.bigBoard, s.n, s.empty, Step(s.empty, action));
    GameState(s.n, board, Step(s.empty, action), TreeSizeFrom(board, 3 * s.n, Centre(s.empty)),
              s.operationList + [Letter(action)])
  }

  /** `kids` are the children of `s` by `actions`, in order, as named by
      their move strings; for consistent states the move string fixes the
      whole state (`StateOfMoves`). */
  predicate ChildrenOf(s: GameState, actions: seq<nat>, kids: seq<GameState>) {
    |kids| == |actions| &&
    forall k :: 0 <= k < |actions| ==>
      actions[k] < 4 && kids[k].operationList == s.operationList + [Letter(actions[k])]
  }

  /** One more child extends the list of children by its action. */
  lemma ChildrenStep(s: GameState, actions: seq<nat>, a: nat, kids: seq<GameState>, c: GameState)
    requires a < |actions| && ChildrenOf(s, actions[..a], kids)
    requires actions[a] < 4 && c.operationList == s.operationList + [Letter(actions[a])]
    ensures ChildrenOf(s, actions[..a + 1], kids + [c])
  {
    assert forall k :: 0 <= k < a ==> actions[..a + 1][k] == actions[..a][k];
  }

  lemma AppendSplit<T>(a: seq<T>, b: seq<T>)
    ensures (a + b)[..|a|] == a && (a + b)[|a|..] == b && |a + b| >= |a|
  {
  }

  /** One move: the slide, then the traversal count from the old blank's
      centre (the tile that just slid in), then the blank and the letter. */
  method Advance(s: GameState, action: nat) returns (r: GameState)
    requires WellFormed(s) && action < 4 && InBounds(s.n, Step(s.empty, action))
    ensures WellFormed(r) && r.n == s.n
    ensures Move(Position(s.bigBoard, s.empty), s.n, action) == Some(Position(r.bigBoard, r.empty))
    ensures AllWall(r.bigBoard, r.empty)
    ensures forall c :: InBounds(3 * s.n, c) && !InBlock(s.empty, c) && !InBlock(r.empty, c) ==>
      Get(r.bigBoard, 3 * s.n, c) == Get(s.bigBoard, 3 * s.n, c)
    ensures r.operationList == s.operationList + [Letter(action)]
    ensures PrevEmpty(r.empty, r.operationList) == s.empty
    ensures r.treeSize == TreeSizeFrom(r.bigBoard, 3 * r.n, Centre(s.empty)) && r.treeSize >= 1
    ensures r == Child(s, action)
  {
    var n := s.n;
    var next := Step(s.empty, action);
    var board := MoveBlock(s.bigBoard, n, s.empty, next);
    var size := ComputeTreeSizeByBfs(Centre(s.empty), n, board);
    LetterRoundTrip(action);
    ReverseReturns(s.empty, action);
    r := GameState(n, board, next, size, s.operationList + [Letter(action)]);
  }

  /** States expanded per round. */
  const BeamWidth: nat := 100

  /** Rebuilds of the board from the input. */
  const Epoch: nat := 1

  /** `s` is reached from `p0` by the legal moves it lists, `d` of them,
      and its tree size is the count from the centre of the tile moved
      last (from the blank when nothing has moved). */
  ghost predicate Consistent(p0: Position, n: nat, s: GameState, d: nat)
    requires IsGrid(p0.board, 3 * n) && InBounds(n, p0.empty)
  {
    && s.n == n && WellFormed(s)
    && |s.operationList| == d
    && Replay(p0, n, s.operationList) == Some(Position(s.bigBoard, s.empty))
    && NoImmediateReverse(s.operationList)
    && s.treeSize >= 1
    && (d == 0 ==> s.treeSize == TreeSizeFrom(s.bigBoard, 3 * n, Centre(s.empty)))
    && (d >= 1 ==>
      && DirOf(s.operationList[d - 1]) < 4
      && s.treeSize == TreeSizeFrom(s.bigBoard, 3 * n, Centre(PrevEmpty(s.empty, s.operationList))))
  }

  /** Every state of the beam is consistent at depth `d`. */
  ghost predicate AllAt(p0: Position, n: nat, beam: seq<GameState>, d: nat)
    requires IsGrid(p0.board, 3 * n) && InBounds(n, p0.empty)
  {
    forall k :: 0 <= k < |beam| ==> Consistent(p0, n, beam[k], d)
  }

  /** A good record: legal moves from `p0` reaching a position whose last
      moved tile has a tree of `size` tiles. */
  ghost predicate GoodRecord(p0: Position, n: nat, ops: seq<char>, size: int)
    requires IsGrid(p0.board, 3 * n) && InBounds(n, p0.empty)
  {
    && ops != [] && DirOf(ops[|ops| - 1]) < 4
    && NoImmediateReverse(ops)
    && Replay(p0, n, ops).Some?
    && var q := Replay(p0, n, ops).value;
      size == TreeSizeFrom(q.board, 3 * n, Centre(PrevEmpty(q.empty, ops))) && size >= 1
  }

  ghost predicate BestOk(p0: Position, n: nat, ops: seq<char>, size: int, t: nat)
    requires IsGrid(p0.board, 3 * n) && InBounds(n, p0.empty)
  {
    && size >= 0 && (ops == [] <==> size == 0)
    && (ops != [] ==> GoodRecord(p0, n, ops, size) && |ops| <= t)
  }

  lemma PopFrom(p0: Position, n: nat, beam: seq<GameState>, d: nat)
    requires IsGrid(p0.board, 3 * n) && InBounds(n, p0.empty)
    requires AllAt(p0, n, beam, d) && beam != []
    ensures Consistent(p0, n, Pop(beam, TreeKey).0, d)
    ensures AllAt(p0, n, Pop(beam, TreeKey).1, d)
  {
    var (top, rest) := Pop(beam, TreeKey);
    PopMembers(beam, TreeKey);
    var i :| 0 <= i < |beam| && beam[i] == top;
    forall k | 0 <= k < |rest|
      ensures Consistent(p0, n, rest[k], d)
    {
      assert rest[k] in rest;
      var j :| 0 <= j < |beam| && beam[j] == rest[k];
    }
  }

  lemma PushAt(p0: Position, n: nat, beam: seq<GameState>, d: nat, s: GameState)
    requires IsGrid(p0.board, 3 * n) && InBounds(n, p0.empty)
    requires AllAt(p0, n, beam, d) && Consistent(p0, n, s, d)
    ensures AllAt(p0, n, Push(beam, s), d)
  {
    var r := Push(beam, s);
    forall k | 0 <= k < |r|
      ensures Consistent(p0, n, r[k], d)
    {
      if k < |beam| {
        assert r[k] == beam[k];
      }
    }
  }

  /** A state one or more moves deep is a good record of its tree size. */
  lemma RecordOfState(p0: Position, n: nat, s: GameState, d: nat, t: nat)
    requires IsGrid(p0.board, 3 * n) && InBounds(n, p0.empty)
    requires Consistent(p0, n, s, d) && 1 <= d <= t
    ensures BestOk(p0, n, s.operationList, s.treeSize, t)
  {
  }

  /** A consistent state is fixed by its move string: the replay gives the
      board and the blank, and the tree size is the count from the tile
      moved last. */
  lemma StateOfMoves(p0: Position, n: nat, a: GameState, b: GameState, d: nat)
    requires IsGrid(p0.board, 3 * n) && InBounds(n, p0.empty)
    requires Consistent(p0, n, a, d) && Consistent(p0, n, b, d)
    requires a.operationList == b.operationList
    ensures a == b
  {
  }

  lemma ChildConsistent(p0: Position, n: nat, s: GameState, d: nat, action: nat, r: GameState)
    requires IsGrid(p0.board, 3 * n) && InBounds(n, p0.empty)
    requires Consistent(p0, n, s, d)
    requires action in GetLegalActions(s)
    requires WellFormed(r) && r.n == s.n
    requires Move(Position(s.bigBoard, s.empty), s.n, action) == Some(Position(r.bigBoard, r.empty))
    requires r.operationList == s.operationList + [Letter(action)]
    requires PrevEmpty(r.empty, r.operationList) == s.empty
    requires r.treeSize == TreeSizeFrom(r.bigBoard, 3 * r.n, Centre(s.empty)) && r.treeSize >= 1
    ensures Consistent(p0, n, r, d + 1)
  {
    ReplayAppend(p0, n, s.operationList, Position(s.bigBoard, s.empty), action);
    AppendLegal(s.operationList, s.empty, n, action);
    LetterRoundTrip(action);
  }

  /** The child of `s` by one legal action, pushed onto `next0`. */
  method PushChild(p0: Position, n: nat, s: GameState, d: nat, action: nat, next0: seq<GameState>) returns (next: seq<GameState>)
    requires IsGrid(p0.board, 3 * n) && InBounds(n, p0.empty)
    requires Consistent(p0, n, s, d) && AllAt(p0, n, next0, d + 1)
    requires action in GetLegalActions(s)
    ensures AllAt(p0, n, next, d + 1)
    ensures |next| == |next0| + 1
    ensures next == Push(next0, Child(s, action))
    ensures Consistent(p0, n, Child(s, action), d + 1)
  {
    var child := Advance(s, action);
    ChildConsistent(p0, n, s, d, action, child);
    PushAt(p0, n, next0, d + 1, child);
    next := Push(next0, child);
  }

  /** A consistent state appended to consistent states. */
  lemma AllAtAppend(p0: Position, n: nat, beam: seq<GameState>, s: GameState, d: nat)
    requires IsGrid(p0.board, 3 * n) && InBounds(n, p0.empty)
    requires AllAt(p0, n, beam, d) && Consistent(p0, n, s, d)
    ensures AllAt(p0, n, beam + [s], d)
  {
    forall k | 0 <= k < |beam| + 1
      ensures Consistent(p0, n, (beam + [s])[k], d)
    {
      if k < |beam| {
        assert (beam + [s])[k] == beam[k];
      }
    }
  }

  /** The step of the expansion loop: the child by the `a`-th legal action
      is pushed, extending the children pushed so far. */
  method ExpandStep(p0: Position, n: nat, s: GameState, d: nat, legal: seq<nat>, a: nat,
                    next0: seq<GameState>, ghost kids: seq<GameState>, next: seq<GameState>)
    returns (next': seq<GameState>, ghost kids': seq<GameState>)
    requires IsGrid(p0.board, 3 * n) && InBounds(n, p0.empty)
    requires Consistent(p0, n, s, d) && AllAt(p0, n, next, d + 1)
    requires legal == GetLegalActions(s) && a < |legal|
    requires next == next0 + kids && ChildrenOf(s, legal[..a], kids) && AllAt(p0, n, kids, d + 1)
    ensures AllAt(p0, n, next', d + 1)
    ensures next' == next0 + kids' && ChildrenOf(s, legal[..a + 1], kids') && AllAt(p0, n, kids', d + 1)
  {
    assert legal[a] in legal;
    ghost var c := Child(s, legal[a]);
    ChildrenStep(s, legal, a, kids, c);
    kids' := kids + [c];
    next' := PushChild(p0, n, s, d, legal[a], next);
    PushAppend(next0, kids, c);
    AllAtAppend(p0, n, kids, c, d + 1);
  }

  /** One expansion: all legal children of `s` are pushed onto `next0`, in
      the order of the legal actions. On a board of side two or more there
      is at least one. */
  method Expand(p0: Position, n: nat, s: GameState, d: nat, next0: seq<GameState>) returns (next: seq<GameState>)
    requires IsGrid(p0.board, 3 * n) && InBounds(n, p0.empty) && n >= 2
    requires Consistent(p0, n, s, d) && AllAt(p0, n, next0, d + 1)
    ensures AllAt(p0, n, next, d + 1)
    ensures |next| > |next0|
    ensures |next| >= |next0| && next[..|next0|] == next0
    ensures ChildrenOf(s, GetLegalActions(s), next[|next0|..])
    ensures next == next0 + Children(s)
  {
    var legal := GetLegalActions(s);
    LegalActionsNonEmpty(s.operationList, s.empty, n);
    next := next0;
    ghost var kids: seq<GameState> := [];
    for a := 0 to |legal|
      invariant AllAt(p0, n, next, d + 1)
      invariant next == next0 + kids && ChildrenOf(s, legal[..a], kids) && AllAt(p0, n, kids, d + 1)
    {
      next, kids := ExpandStep(p0, n, s, d, legal, a, next0, kids, next);
    }
    assert legal[..|legal|] == legal;
    AppendSplit(next0, kids);
    KidsAreChildren(p0, n, s, d, kids);
  }

  /** The children of `s`, one per legal action, in the order of the legal
      actions; none for a malformed state. */
  ghost function Children(s: GameState): (r: seq<GameState>)
    ensures WellFormed(s) ==> |r| == |GetLegalActions(s)|
  {
    if !WellFormed(s) then []
    else
      var legal := GetLegalActions(s);
      seq(|legal|, i requires 0 <= i < |legal| => assert legal[i] in legal; Child(s, legal[i]))
  }

  /** The next beam made from the popped states: the children of each, in
      the order the states were popped. */
  ghost function Expansion(popped: seq<GameState>): seq<GameState>
    decreases |popped|
  {
    if popped == [] then [] else Expansion(popped[..|popped| - 1]) + Children(popped[|popped| - 1])
  }

  /** A consistent state one move deeper, named by the move string of a
      child, is that child. */
  lemma ChildOfMoves(p0: Position, n: nat, s: GameState, d: nat, action: nat, c: GameState)
    requires IsGrid(p0.board, 3 * n) && InBounds(n, p0.empty)
    requires Consistent(p0, n, s, d) && action in GetLegalActions(s)
    requires Consistent(p0, n, c, d + 1) && c.operationList == s.operationList + [Letter(action)]
    ensures c == Child(s, action)
  {
    ReplayAppend(p0, n, s.operationList, Position(s.bigBoard, s.empty), action);
    LetterRoundTrip(action);
    ReverseReturns(s.empty, action);
  }

  /** Consistent states named as the children of `s` by its legal actions
      are exactly its children. */
  lemma KidsAreChildren(p0: Position, n: nat, s: GameState, d: nat, kids: seq<GameState>)
    requires IsGrid(p0.board, 3 * n) && InBounds(n, p0.empty)
    requires Consistent(p0, n, s, d) && AllAt(p0, n, kids, d + 1)
    requires ChildrenOf(s, GetLegalActions(s), kids)
    ensures kids == Children(s)
  {
    var legal := GetLegalActions(s);
    var cs := Children(s);
    forall i | 0 <= i < |kids|
      ensures kids[i] == cs[i]
    {
      assert legal[i] in legal;
      ChildOfMoves(p0, n, s, d, legal[i], kids[i]);
    }
  }

  /** Expanding one more popped state appends its children. */
  lemma ExpansionAppend(popped: seq<GameState>, s: GameState)
    ensures Expansion(popped + [s]) == Expansion(popped) + Children(s)
  {
    assert (popped + [s])[..|popped|] == popped;
  }

  /** One round: the `BeamWidth` best states of the current beam, or all
      of them when there are fewer, are popped best first (`Drain`), and
      the next beam is exactly their children, state by state in pop
      order and, for each, in the order of its legal actions. */
  method Round(p0: Position, n: nat, current0: seq<GameState>, d: nat)
    returns (next: seq<GameState>, expanded: nat, ghost popped: seq<GameState>)
    requires IsGrid(p0.board, 3 * n) && InBounds(n, p0.empty) && n >= 2
    requires AllAt(p0, n, current0, d) && current0 != []
    ensures AllAt(p0, n, next, d + 1) && next != []
    ensures 1 <= expanded <= BeamWidth
    ensures expanded == |Drain(current0, TreeKey, BeamWidth).0|
    ensures next == NextBeam(current0)
  {
    var current := current0;
    next := [];
    expanded := 0;
    popped := [];
    for bw := 0 to BeamWidth
      invariant AllAt(p0, n, current, d) && AllAt(p0, n, next, d + 1)
      invariant popped == Drain(current0, TreeKey, bw).0 && current == Drain(current0, TreeKey, bw).1
      invariant next == Expansion(popped) && expanded == |popped|
      invariant bw > 0 ==> next != [] && expanded >= 1
    {
      if current == [] {
        DrainStops(current0, TreeKey, bw, BeamWidth);
        break;
      }
      PopFrom(p0, n, current, d);
      DrainStep(current0, TreeKey, bw);
      var (s, rest) := Pop(current, TreeKey);
      next := Expand(p0, n, s, d, next);
      ExpansionAppend(popped, s);
      popped := popped + [s];
      current := rest;
      expanded := expanded + 1;
    }
    assert next == Expansion(Drain(current0, TreeKey, BeamWidth).0);
  }

  /** The end of a round: the best state of the new beam is popped,
      offered to the record (which takes it only when it is strictly
      larger), and, unless its tree spans `n * n - 1` tiles, pushed back,
      which leaves the beam's contents as they were. */
  method TakeBest(p0: Position, n: nat, t: nat, next: seq<GameState>, d: nat, bestOps0: seq<char>, bestSize0: int)
    returns (current: seq<GameState>, bestOps: seq<char>, bestSize: int, stop: bool)
    requires IsGrid(p0.board, 3 * n) && InBounds(n, p0.empty)
    requires AllAt(p0, n, next, d) && next != [] && 1 <= d <= t
    requires BestOk(p0, n, bestOps0, bestSize0, t)
    ensures BestOk(p0, n, bestOps, bestSize, t)
    ensures bestSize >= bestSize0
    ensures bestSize > bestSize0 ==> exists k :: 0 <= k < |next| && next[k].treeSize == bestSize && next[k].operationList == bestOps
    ensures stop ==> bestSize >= n * n - 1
    ensures !stop ==> AllAt(p0, n, current, d) && multiset(current) == multiset(next) && current != []
    ensures Consistent(p0, n, Pop(next, TreeKey).0, d)
    ensures (bestOps, bestSize) ==
      Offer(bestOps0, bestSize0, Pop(next, TreeKey).0.operationList, Pop(next, TreeKey).0.treeSize)
    ensures stop <==> Pop(next, TreeKey).0.treeSize == n * n - 1
    ensures !stop ==> current == Push(Pop(next, TreeKey).1, Pop(next, TreeKey).0)
  {
    bestOps, bestSize := bestOps0, bestSize0;
    PopFrom(p0, n, next, d);
    PopMembers(next, TreeKey);
    var (best, rest) := Pop(next, TreeKey);
    if bestSize < best.treeSize {
      RecordOfState(p0, n, best, d, t);
      bestSize, bestOps := best.treeSize, best.operationList;
    }
    current := next;
    stop := best.treeSize == n * n - 1;
    if !stop {
      PopPushBack(next, TreeKey);
      PushAt(p0, n, rest, d, best);
      current := Push(rest, best);
    }
  }

  /** The start state: the start position, no moves, and the tree size
      from the blank's centre. */
  ghost function Start(p0: Position, n: nat): (r: GameState)
    requires IsGrid(p0.board, 3 * n) && InBounds(n, p0.empty)
    ensures Consistent(p0, n, r, 0)
  {
    GameState(n, p0.board, p0.empty, TreeSizeFrom(p0.board, 3 * n, Centre(p0.empty)), [])
  }

  /** The beam after a round from `current`: the children of its
      `BeamWidth` best states. */
  ghost function NextBeam(current: seq<GameState>): seq<GameState> {
    Expansion(Drain(current, TreeKey, BeamWidth).0)
  }

  /** The reference epoch of `t` rounds, from round `rounds` on with the
      beam `current`: a round expands the `BeamWidth` best states, lists
      the best of their children, and ends the epoch when that one spans
      `n * n - 1` tiles or when there are no children; otherwise the
      children, best one included, are the next round's beam. */
  ghost function EpochTops(n: nat, t: nat, current: seq<GameState>, rounds: nat): seq<(seq<char>, int)>
    decreases t - rounds
  {
    if rounds >= t then []
    else
      var next := NextBeam(current);
      if next == [] then []
      else
        var top := Pop(next, TreeKey).0;
        [(top.operationList, top.treeSize)]
          + (if top.treeSize == n * n - 1 then [] else EpochTops(n, t, Push(Pop(next, TreeKey).1, top), rounds + 1))
  }

  /** Only the last entry of `r` can span `n * n - 1` tiles. */
  predicate OnlyLastFull(n: nat, r: seq<(seq<char>, int)>)
  {
    forall k :: 0 <= k < |r| - 1 ==> r[k].1 != n * n - 1
  }

  /** The reference epoch lists one state per round at most, and only
      its last entry can span `n * n - 1` tiles. */
  lemma {:induction false} EpochTopsShape(n: nat, t: nat, current: seq<GameState>, rounds: nat)
    requires rounds <= t
    ensures |EpochTops(n, t, current, rounds)| <= t - rounds
    ensures OnlyLastFull(n, EpochTops(n, t, current, rounds))
    decreases t - rounds
  {
    var r := EpochTops(n, t, current, rounds);
    if rounds == t {
      assert r == [];
    } else {
      var next := NextBeam(current);
      if next == [] {
        assert r == [];
      } else {
        var top := Pop(next, TreeKey).0;
        var e := (top.operationList, top.treeSize);
        if top.treeSize == n * n - 1 {
          assert r == [e] + [];
        } else {
          var current' := Push(Pop(next, TreeKey).1, top);
          var rest := EpochTops(n, t, current', rounds + 1);
          EpochTopsShape(n, t, current', rounds + 1);
          assert r == [e] + rest;
          OnlyLastFullCons(n, e, rest);
        }
      }
    }
  }

  lemma OnlyLastFullCons(n: nat, e: (seq<char>, int), rest: seq<(seq<char>, int)>)
    requires e.1 != n * n - 1 && OnlyLastFull(n, rest)
    ensures OnlyLastFull(n, [e] + rest)
  {
    var r := [e] + rest;
    forall k | 0 <= k < |r| - 1
      ensures r[k].1 != n * n - 1
    {
      if k > 0 {
        assert r[k] == rest[k - 1];
      }
    }
  }

  /** After the last round the reference epoch lists nothing more. */
  lemma EpochEnd(n: nat, t: nat, tops: seq<(seq<char>, int)>, current: seq<GameState>, rounds: nat,
                 reference: seq<(seq<char>, int)>)
    requires rounds >= t && tops + EpochTops(n, t, current, rounds) == reference
    ensures tops == reference
  {
    assert EpochTops(n, t, current, rounds) == [];
    assert tops + [] == tops;
  }

  /** A round of the search follows the reference epoch: its best state
      is the next entry, and either the epoch ends there or the rest
      follows from the beam it leaves. */
  lemma EpochAdvance(n: nat, t: nat, reference: seq<(seq<char>, int)>, tops: seq<(seq<char>, int)>,
                     current: seq<GameState>, rounds: nat, next: seq<GameState>, stop: bool,
                     current': seq<GameState>)
    requires rounds < t && tops + EpochTops(n, t, current, rounds) == reference
    requires next == NextBeam(current) && next != []
    requires stop <==> Pop(next, TreeKey).0.treeSize == n * n - 1
    requires !stop ==> current' == Push(Pop(next, TreeKey).1, Pop(next, TreeKey).0)
    ensures var top := Pop(next, TreeKey).0;
      var tops' := tops + [(top.operationList, top.treeSize)];
      && (stop ==> tops' == reference)
      && (!stop ==> tops' + EpochTops(n, t, current', rounds + 1) == reference)
  {
    var top := Pop(next, TreeKey).0;
    var e := (top.operationList, top.treeSize);
    if stop {
      assert EpochTops(n, t, current, rounds) == [e] + [];
      AppendAssoc(tops, [e], []);
    } else {
      assert EpochTops(n, t, current, rounds) == [e] + EpochTops(n, t, current', rounds + 1);
      AppendAssoc(tops, [e], EpochTops(n, t, current', rounds + 1));
    }
  }

  lemma AppendEmpty<T>(b: seq<T>)
    ensures [] + b == b
  {
  }

  /** The first beam: the start position with the count from the blank's
      centre and no moves. */
  method InitialBeam(p0: Position, n: nat) returns (current: seq<GameState>)
    requires IsGrid(p0.board, 3 * n) && InBounds(n, p0.empty)
    ensures AllAt(p0, n, current, 0) && |current| == 1
    ensures current[0].bigBoard == p0.board && current[0].empty == p0.empty && current[0].operationList == []
    ensures current == [Start(p0, n)]
  {
    var size := ComputeTreeSizeByBfs(Centre(p0.empty), n, p0.board);
    var init := GameState(n, p0.board, p0.empty, size, []);
    assert Consistent(p0, n, init, 0);
    current := [init];
  }

  /** The best states of the rounds so far: the one of round `k` has
      `k + 1` moves and is a good record, and none of them spans
      `n * n - 1` tiles except possibly the one at `full`. */
  ghost predicate Tops(p0: Position, n: nat, tops: seq<(seq<char>, int)>, full: int)
    requires IsGrid(p0.board, 3 * n) && InBounds(n, p0.empty)
  {
    forall k :: 0 <= k < |tops| ==>
      && |tops[k].0| == k + 1 && GoodRecord(p0, n, tops[k].0, tops[k].1)
      && (k != full ==> tops[k].1 != n * n - 1)
  }

  /** The best state of the next round extends the list of tops. */
  lemma TopsStep(p0: Position, n: nat, t: nat, tops: seq<(seq<char>, int)>, top: GameState)
    requires IsGrid(p0.board, 3 * n) && InBounds(n, p0.empty)
    requires Tops(p0, n, tops, |tops|) && Consistent(p0, n, top, |tops| + 1) && |tops| + 1 <= t
    ensures Tops(p0, n, tops + [(top.operationList, top.treeSize)], |tops|)
    ensures top.treeSize != n * n - 1 ==> Tops(p0, n, tops + [(top.operationList, top.treeSize)], |tops| + 1)
  {
    RecordOfState(p0, n, top, |tops| + 1, t);
  }

  /** One round of an epoch and the record update after it: the round's
      beam is `NextBeam` of the current one, its best state is listed in
      `tops`, and the search goes on from the rest of that beam with the
      best state pushed back, unless the best state spans `n * n - 1`
      tiles. */
  method EpochRound(p0: Position, n: nat, t: nat, rounds: nat, current0: seq<GameState>,
                    bestOps0: seq<char>, bestSize0: int, ghost init: (seq<char>, int),
                    ghost tops0: seq<(seq<char>, int)>)
    returns (current: seq<GameState>, bestOps: seq<char>, bestSize: int, stop: bool,
             ghost next: seq<GameState>, ghost tops: seq<(seq<char>, int)>)
    requires IsGrid(p0.board, 3 * n) && InBounds(n, p0.empty) && n >= 2
    requires rounds < t && AllAt(p0, n, current0, rounds) && current0 != []
    requires BestOk(p0, n, bestOps0, bestSize0, t)
    requires (bestOps0, bestSize0) == Best(init, tops0)
    requires |tops0| == rounds && Tops(p0, n, tops0, rounds)
    ensures BestOk(p0, n, bestOps, bestSize, t) && bestSize >= bestSize0
    ensures (bestOps, bestSize) == Best(init, tops)
    ensures |tops| == rounds + 1 && Tops(p0, n, tops, rounds)
    ensures stop ==> bestSize >= n * n - 1 && tops[rounds].1 == n * n - 1
    ensures !stop ==> AllAt(p0, n, current, rounds + 1) && current != [] && Tops(p0, n, tops, rounds + 1)
    ensures next == NextBeam(current0) && next != []
    ensures tops == tops0 + [(Pop(next, TreeKey).0.operationList, Pop(next, TreeKey).0.treeSize)]
    ensures stop <==> Pop(next, TreeKey).0.treeSize == n * n - 1
    ensures !stop ==> current == Push(Pop(next, TreeKey).1, Pop(next, TreeKey).0)
  {
    var beam, expanded, popped := Round(p0, n, current0, rounds);
    next := beam;
    ghost var top := Pop(beam, TreeKey).0;
    BestAppend(init, tops0, (top.operationList, top.treeSize));
    current, bestOps, bestSize, stop := TakeBest(p0, n, t, beam, rounds + 1, bestOps0, bestSize0);
    TopsStep(p0, n, t, tops0, top);
    tops := tops0 + [(top.operationList, top.treeSize)];
  }

  /** `EpochRound`, kept on the course of the reference epoch: the tops
      so far followed by the reference from the beam left make up the
      whole reference epoch, until the search stops. */
  method OnCourseRound(p0: Position, n: nat, t: nat, rounds: nat, current0: seq<GameState>,
                       bestOps0: seq<char>, bestSize0: int, ghost init: (seq<char>, int),
                       ghost tops0: seq<(seq<char>, int)>, ghost reference: seq<(seq<char>, int)>)
    returns (current: seq<GameState>, bestOps: seq<char>, bestSize: int, stop: bool,
             ghost tops: seq<(seq<char>, int)>)
    requires IsGrid(p0.board, 3 * n) && InBounds(n, p0.empty) && n >= 2
    requires rounds < t && AllAt(p0, n, current0, rounds) && current0 != []
    requires BestOk(p0, n, bestOps0, bestSize0, t)
    requires (bestOps0, bestSize0) == Best(init, tops0)
    requires |tops0| == rounds && Tops(p0, n, tops0, rounds)
    requires tops0 + EpochTops(n, t, current0, rounds) == reference
    ensures BestOk(p0, n, bestOps, bestSize, t) && bestSize >= bestSize0
    ensures (bestOps, bestSize) == Best(init, tops)
    ensures |tops| == rounds + 1 && Tops(p0, n, tops, rounds)
    ensures stop ==> bestSize >= n * n - 1 && tops[rounds].1 == n * n - 1 && tops == reference
    ensures !stop ==> AllAt(p0, n, current, rounds + 1) && current != [] && Tops(p0, n, tops, rounds + 1)
    ensures !stop ==> tops + EpochTops(n, t, current, rounds + 1) == reference
  {
    ghost var next;
    current, bestOps, bestSize, stop, next, tops := EpochRound(p0, n, t, rounds, current0, bestOps0, bestSize0, init, tops0);
    EpochAdvance(n, t, reference, tops0, current0, rounds, next, stop, current);
  }

  /** One epoch: the rounds of the search from `p0`, at most `t` of them,
      stopping early when the best tree spans `n * n - 1` tiles. `tops`
      lists the best state of each round, as offered to the record: it is
      the reference epoch `EpochTops` from the start state, and the record
      ends as the largest of the record carried in and these, the first of
      them on a tie. */
  method SearchEpoch(p0: Position, n: nat, t: nat, bestOps0: seq<char>, bestSize0: int)
    returns (bestOps: seq<char>, bestSize: int, rounds: nat, ghost tops: seq<(seq<char>, int)>)
    requires IsGrid(p0.board, 3 * n) && InBounds(n, p0.empty) && n >= 2
    requires BestOk(p0, n, bestOps0, bestSize0, t)
    ensures BestOk(p0, n, bestOps, bestSize, t)
    ensures bestSize >= bestSize0
    ensures rounds <= t
    ensures rounds < t ==> bestSize >= n * n - 1
    ensures (bestOps, bestSize) == Best((bestOps0, bestSize0), tops)
    ensures Tops(p0, n, tops, rounds)
    ensures rounds == t ==> |tops| == t
    ensures rounds < t ==> |tops| == rounds + 1 && tops[rounds].1 == n * n - 1
    ensures tops == EpochTops(n, t, [Start(p0, n)], 0)
  {
    bestOps, bestSize := bestOps0, bestSize0;
    var current := InitialBeam(p0, n);
    rounds := 0;
    tops := [];
    ghost var reference := EpochTops(n, t, current, rounds);
    AppendEmpty(reference);
    while rounds < t
      invariant rounds <= t
      invariant AllAt(p0, n, current, rounds) && current != []
      invariant BestOk(p0, n, bestOps, bestSize, t)
      invariant bestSize >= bestSize0
      invariant (bestOps, bestSize) == Best((bestOps0, bestSize0), tops)
      invariant |tops| == rounds && Tops(p0, n, tops, rounds)
      invariant tops + EpochTops(n, t, current, rounds) == reference
    {
      var stop;
      current, bestOps, bestSize, stop, tops :=
        OnCourseRound(p0, n, t, rounds, current, bestOps, bestSize, (bestOps0, bestSize0), tops, reference);
      if stop {
        return;
      }
      rounds := rounds + 1;
    }
    EpochEnd(n, t, tops, current, rounds, reference);
  }

  /** Every listed string is a good record of at most `t` moves. */
  ghost predicate AllGood(p0: Position, n: nat, t: nat, tops: seq<(seq<char>, int)>)
    requires IsGrid(p0.board, 3 * n) && InBounds(n, p0.empty)
  {
    forall k :: 0 <= k < |tops| ==> 1 <= |tops[k].0| <= t && GoodRecord(p0, n, tops[k].0, tops[k].1)
  }

  /** The tops of one more epoch keep the whole list good. */
  lemma TopsAllGood(p0: Position, n: nat, t: nat, tops: seq<(seq<char>, int)>, more: seq<(seq<char>, int)>, rounds: nat)
    requires IsGrid(p0.board, 3 * n) && InBounds(n, p0.empty)
    requires AllGood(p0, n, t, tops) && Tops(p0, n, more, rounds) && |more| <= t
    ensures AllGood(p0, n, t, tops + more)
  {
    forall k | 0 <= k < |tops + more|
      ensures 1 <= |(tops + more)[k].0| <= t && GoodRecord(p0, n, (tops + more)[k].0, (tops + more)[k].1)
    {
      if k >= |tops| {
        assert (tops + more)[k] == more[k - |tops|];
      }
    }
  }

  /** `k` copies of `s`, one after the other. */
  function Repeat<T>(s: seq<T>, k: nat): (r: seq<T>)
    ensures |r| == k * |s|
  {
    if k == 0 then [] else Repeat(s, k - 1) + s
  }

  /** The solver: `Epoch` rebuilds of the same start position, with the
      record kept across them. `tops` lists the best state of every round
      of every epoch; the record is the largest of them, the first on a
      tie, and a search of at least one round always records a string. */
  method BeamSearch(p0: Position, n: nat, t: nat)
    returns (bestOps: seq<char>, bestSize: int, ghost tops: seq<(seq<char>, int)>)
    requires IsGrid(p0.board, 3 * n) && InBounds(n, p0.empty) && n >= 2
    ensures bestSize >= 0 && (bestOps == [] <==> bestSize == 0) && |bestOps| <= t
    ensures bestOps != [] ==> GoodRecord(p0, n, bestOps, bestSize)
    ensures (bestOps, bestSize) == Best(([], 0), tops)
    ensures AllGood(p0, n, t, tops)
    ensures t >= 1 ==> |tops| >= 1 && bestOps != []
    ensures tops == Repeat(EpochTops(n, t, [Start(p0, n)], 0), Epoch)
  {
    bestOps, bestSize := [], 0;
    tops := [];
    for e := 0 to Epoch
      invariant tops == Repeat(EpochTops(n, t, [Start(p0, n)], 0), e)
      invariant BestOk(p0, n, bestOps, bestSize, t)
      invariant (bestOps, bestSize) == Best(([], 0), tops)
      invariant AllGood(p0, n, t, tops)
      invariant t >= 1 && e > 0 ==> |tops| >= 1
    {
      var rounds;
      ghost var epochTops;
      bestOps, bestSize, rounds, epochTops := SearchEpoch(p0, n, t, bestOps, bestSize);
      BestConcat(([], 0), tops, epochTops);
      TopsAllGood(p0, n, t, tops, epochTops, rounds);
      tops := tops + epochTops;
    }
    if t >= 1 {
      BestIsMax(([], 0), tops);
    }
  }
}

=== FILE: blocks.dfy ===
/** The block-swap state transition on the big board: a tile slides into
    the blank by copying its 3x3 block into the blank's block and walling
    off the block it left. The same copy loop, with the roles exchanged,
    is the undo of the hill climbers. */
module Blocks {
  import opened Grid

  /** The character at `c`, which lies inside the `size` x `size` grid `b`. */
  function Get(b: Board, size: nat, c: Cell): char
    requires IsGrid(b, size) && InBounds(size, c)
  {
    b[c.0][c.1]
  }

  /** Every character of `b` is a wall or a road. */
  predicate IsBinary(b: Board) {
    forall i, j :: 0 <= i < |b| && 0 <= j < |b[i]| ==> b[i][j] in {Wall, Road}
  }

  /** The board after the tile at `src` slides into the blank at `dst`:
      each cell of the block of `dst` takes the character at the same
      offset in the block of `src`, the block of `src` becomes walls, and
      every other cell keeps its character. */
  function Slid(b: Board, n: nat, dst: Cell, src: Cell): (r: Board)
    requires IsGrid(b, 3 * n) && InBounds(n, dst) && InBounds(n, src) && dst != src
    ensures IsGrid(r, 3 * n)
    ensures IsBinary(b) ==> IsBinary(r)
  {
    seq(3 * n, i => seq(3 * n, j => SlidCell(b, dst, src, (i, j))))
  }

  /** The character the slide puts at `c`. */
  function SlidCell(b: Board, dst: Cell, src: Cell, c: Cell): char {
    if InBlock(src, c) then Wall
    else if InBlock(dst, c) then CharOr(b, (c.0 - 3 * dst.0 + 3 * src.0, c.1 - 3 * dst.1 + 3 * src.1))
    else CharOr(b, c)
  }

  /** The character at `c`, or a wall off the grid. */
  function CharOr(b: Board, c: Cell): char {
    if 0 <= c.0 < |b| && 0 <= c.1 < |b[c.0]| then b[c.0][c.1] else Wall
  }

  /** The character at `c` after the first `m` of the nine copy steps of
      the slide loop, taken in row-major order of the block offsets. */
  function AfterSteps(b: Board, dst: Cell, src: Cell, m: nat, c: Cell): char {
    if InBlock(src, c) && 3 * (c.0 - 3 * src.0) + (c.1 - 3 * src.1) < m then Wall
    else if InBlock(dst, c) && 3 * (c.0 - 3 * dst.0) + (c.1 - 3 * dst.1) < m then
      CharOr(b, (c.0 - 3 * dst.0 + 3 * src.0, c.1 - 3 * dst.1 + 3 * src.1))
    else CharOr(b, c)
  }

  /** The copy loop of the move: for each offset (k, l), in row-major
      order, the blank's cell takes the moving tile's cell and the moving
      tile's cell becomes a wall. Since the two blocks are disjoint, the
      result is the slide: the blank's block receives the old contents of
      the other block, that block becomes walls, and nothing else changes. */
  method MoveBlock(b: Board, n: nat, dst: Cell, src: Cell) returns (r: Board)
    requires IsGrid(b, 3 * n) && InBounds(n, dst) && InBounds(n, src) && dst != src
    ensures IsGrid(r, 3 * n)
    ensures forall k, l :: 0 <= k < 3 && 0 <= l < 3 ==>
      Get(r, 3 * n, BlockCell(dst, k, l)) == Get(b, 3 * n, BlockCell(src, k, l))
    ensures AllWall(r, src)
    ensures forall c :: InBounds(3 * n, c) && !InBlock(dst, c) && !InBlock(src, c) ==> Get(r, 3 * n, c) == Get(b, 3 * n, c)
    ensures r == Slid(b, n, dst, src)
  {
    r := b;
    for k := 0 to 3
      invariant IsGrid(r, 3 * n)
      invariant forall c :: InBounds(3 * n, c) ==> Get(r, 3 * n, c) == AfterSteps(b, dst, src, 3 * k, c)
    {
      for l := 0 to 3
        invariant IsGrid(r, 3 * n)
        invariant forall c :: InBounds(3 * n, c) ==> Get(r, 3 * n, c) == AfterSteps(b, dst, src, 3 * k + l, c)
      {
        var x, y := 3 * dst.0 + k, 3 * dst.1 + l;
        var u, v := 3 * src.0 + k, 3 * src.1 + l;
        var r' := SetCell(SetCell(r, (x, y), r[u][v]), (u, v), Wall);
        CopyStep(b, n, dst, src, k, l, r, r');
        r := r';
      }
    }
    SlidFromSteps(b, n, dst, src, r);
    SlidBlocks(b, n, dst, src);
  }

  /** One step of the copy loop advances the partial result by one offset. */
  lemma CopyStep(b: Board, n: nat, dst: Cell, src: Cell, k: nat, l: nat, r: Board, r': Board)
    requires IsGrid(b, 3 * n) && InBounds(n, dst) && InBounds(n, src) && dst != src
    requires k < 3 && l < 3 && IsGrid(r, 3 * n)
    requires forall c :: InBounds(3 * n, c) ==> Get(r, 3 * n, c) == AfterSteps(b, dst, src, 3 * k + l, c)
    requires var x, y, u, v := 3 * dst.0 + k, 3 * dst.1 + l, 3 * src.0 + k, 3 * src.1 + l;
      r' == SetCell(SetCell(r, (x, y), r[u][v]), (u, v), Wall)
    ensures IsGrid(r', 3 * n)
    ensures forall c :: InBounds(3 * n, c) ==> Get(r', 3 * n, c) == AfterSteps(b, dst, src, 3 * k + l + 1, c)
  {
    var x, y, u, v := 3 * dst.0 + k, 3 * dst.1 + l, 3 * src.0 + k, 3 * src.1 + l;
    BlocksDisjoint(dst, src, (u, v));
    BlocksDisjoint(dst, src, (x, y));
    assert Get(r, 3 * n, (u, v)) == b[u][v];
    forall c | InBounds(3 * n, c)
      ensures Get(r', 3 * n, c) == AfterSteps(b, dst, src, 3 * k + l + 1, c)
    {
      CopyStepAt(b, n, dst, src, k, l, r, r', c);
    }
  }

  /** One cell of one step of the copy loop. */
  lemma CopyStepAt(b: Board, n: nat, dst: Cell, src: Cell, k: nat, l: nat, r: Board, r': Board, c: Cell)
    requires IsGrid(b, 3 * n) && InBounds(n, dst) && InBounds(n, src) && dst != src
    requires k < 3 && l < 3 && IsGrid(r, 3 * n) && InBounds(3 * n, c)
    requires var u, v := 3 * src.0 + k, 3 * src.1 + l;
      (u, v) != (3 * dst.0 + k, 3 * dst.1 + l) && Get(r, 3 * n, (u, v)) == b[u][v]
    requires Get(r, 3 * n, c) == AfterSteps(b, dst, src, 3 * k + l, c)
    requires var x, y, u, v := 3 * dst.0 + k, 3 * dst.1 + l, 3 * src.0 + k, 3 * src.1 + l;
      r' == SetCell(SetCell(r, (x, y), r[u][v]), (u, v), Wall)
    ensures IsGrid(r', 3 * n)
    ensures Get(r', 3 * n, c) == AfterSteps(b, dst, src, 3 * k + l + 1, c)
  {
    CopyCellAt(r, 3 * n, BlockCell(dst, k, l), BlockCell(src, k, l), c);
    AfterStepsNext(b, n, dst, src, k, l, c);
  }

  /** Reading one cell after copying `from` to `to` and walling `from`. */
  lemma CopyCellAt(r: Board, size: nat, to: Cell, from: Cell, c: Cell)
    requires IsGrid(r, size) && InBounds(size, to) && InBounds(size, from) && InBounds(size, c) && to != from
    ensures var r' := SetCell(SetCell(r, to, r[from.0][from.1]), from, Wall);
      && IsGrid(r', size)
      && Get(r', size, c) == if c == from then Wall else if c == to then Get(r, size, from) else Get(r, size, c)
  {
    SetCellAt(r, size, to, r[from.0][from.1], c);
    SetCellAt(SetCell(r, to, r[from.0][from.1]), size, from, Wall, c);
  }

  /** The copy step for offset (k, l) changes exactly the two cells at
      that offset. */
  lemma AfterStepsNext(b: Board, n: nat, dst: Cell, src: Cell, k: nat, l: nat, c: Cell)
    requires IsGrid(b, 3 * n) && InBounds(n, dst) && InBounds(n, src) && dst != src
    requires k < 3 && l < 3 && InBounds(3 * n, c)
    ensures AfterSteps(b, dst, src, 3 * k + l + 1, c) ==
      if c == BlockCell(src, k, l) then Wall
      else if c == BlockCell(dst, k, l) then b[3 * src.0 + k][3 * src.1 + l]
      else AfterSteps(b, dst, src, 3 * k + l, c)
  {
    BlocksDisjoint(dst, src, c);
    if InBlock(src, c) && 3 * (c.0 - 3 * src.0) + (c.1 - 3 * src.1) == 3 * k + l {
      SameOffset(src, c, k, l);
    }
    if InBlock(dst, c) && 3 * (c.0 - 3 * dst.0) + (c.1 - 3 * dst.1) == 3 * k + l {
      SameOffset(dst, c, k, l);
    }
  }

  /** The board with the character at `c` replaced by `ch`. */
  function SetCell(r: Board, c: Cell, ch: char): (s: Board)
    requires 0 <= c.0 < |r| && 0 <= c.1 < |r[c.0]|
    ensures |s| == |r| && forall i :: 0 <= i < |r| ==> |s[i]| == |r[i]|
  {
    r[c.0 := r[c.0][c.1 := ch]]
  }

  /** Reading back one cell after a write. */
  lemma SetCellAt(r: Board, size: nat, c: Cell, ch: char, c': Cell)
    requires IsGrid(r, size) && InBounds(size, c) && InBounds(size, c')
    ensures IsGrid(SetCell(r, c, ch), size)
    ensures Get(SetCell(r, c, ch), size, c') == if c' == c then ch else Get(r, size, c')
  {
  }

  /** A cell of a block is determined by its row-major offset. */
  lemma SameOffset(t: Cell, c: Cell, k: nat, l: nat)
    requires InBlock(t, c) && k < 3 && l < 3
    requires 3 * (c.0 - 3 * t.0) + (c.1 - 3 * t.1) == 3 * k + l
    ensures c == BlockCell(t, k, l)
  {
  }

  /** One cell of the slide. */
  lemma SlidAt(b: Board, n: nat, dst: Cell, src: Cell, c: Cell)
    requires IsGrid(b, 3 * n) && InBounds(n, dst) && InBounds(n, src) && dst != src
    requires InBounds(3 * n, c)
    ensures Get(Slid(b, n, dst, src), 3 * n, c) ==
      if InBlock(src, c) then Wall
      else if InBlock(dst, c) then b[c.0 - 3 * dst.0 + 3 * src.0][c.1 - 3 * dst.1 + 3 * src.1]
      else b[c.0][c.1]
  {
  }

  /** What the slide does, block by block: the blank's block receives the
      other block's contents, that block becomes walls, and every cell
      outside the two blocks keeps its character. */
  lemma SlidBlocks(b: Board, n: nat, dst: Cell, src: Cell)
    requires IsGrid(b, 3 * n) && InBounds(n, dst) && InBounds(n, src) && dst != src
    ensures var r := Slid(b, n, dst, src);
      forall k, l :: 0 <= k < 3 && 0 <= l < 3 ==>
        Get(r, 3 * n, BlockCell(dst, k, l)) == Get(b, 3 * n, BlockCell(src, k, l))
    ensures AllWall(Slid(b, n, dst, src), src)
    ensures var r := Slid(b, n, dst, src);
      forall c :: InBounds(3 * n, c) && !InBlock(dst, c) && !InBlock(src, c) ==> Get(r, 3 * n, c) == Get(b, 3 * n, c)
  {
    var r := Slid(b, n, dst, src);
    forall k, l | 0 <= k < 3 && 0 <= l < 3
      ensures Get(r, 3 * n, BlockCell(dst, k, l)) == Get(b, 3 * n, BlockCell(src, k, l))
    {
      BlocksDisjoint(dst, src, BlockCell(dst, k, l));
      SlidAt(b, n, dst, src, BlockCell(dst, k, l));
    }
    forall k, l | 0 <= k < 3 && 0 <= l < 3
      ensures CharAt(r, BlockCell(src, k, l), Wall)
    {
      SlidAt(b, n, dst, src, BlockCell(src, k, l));
    }
    forall c | InBounds(3 * n, c) && !InBlock(dst, c) && !InBlock(src, c)
      ensures Get(r, 3 * n, c) == Get(b, 3 * n, c)
    {
      SlidAt(b, n, dst, src, c);
    }
  }

  /** After all nine steps the board is the slide. */
  lemma SlidFromSteps(b: Board, n: nat, dst: Cell, src: Cell, r: Board)
    requires IsGrid(b, 3 * n) && InBounds(n, dst) && InBounds(n, src) && dst != src
    requires IsGrid(r, 3 * n)
    requires forall c :: InBounds(3 * n, c) ==> Get(r, 3 * n, c) == AfterSteps(b, dst, src, 9, c)
    ensures r == Slid(b, n, dst, src)
  {
    var s := Slid(b, n, dst, src);
    forall i | 0 <= i < 3 * n
      ensures r[i] == s[i]
    {
      forall j | 0 <= j < 3 * n
        ensures r[i][j] == s[i][j]
      {
        SlidAt(b, n, dst, src, (i, j));
        BlocksDisjoint(dst, src, (i, j));
        assert Get(r, 3 * n, (i, j)) == AfterSteps(b, dst, src, 9, (i, j));
      }
    }
  }

  /** Sliding the tile back restores the board, provided the blank's block
      was all walls before the slide: the undo of a rejected trial move. */
  lemma SlideUndo(b: Board, n: nat, e: Cell, d: Cell)
    requires IsGrid(b, 3 * n) && InBounds(n, e) && InBounds(n, d) && e != d
    requires AllWall(b, e)
    ensures Slid(Slid(b, n, e, d), n, d, e) == b
  {
    var s := Slid(b, n, e, d);
    var u := Slid(s, n, d, e);
    forall i | 0 <= i < 3 * n
      ensures u[i] == b[i]
    {
      forall j | 0 <= j < 3 * n
        ensures u[i][j] == b[i][j]
      {
        SlideUndoAt(b, n, e, d, (i, j));
      }
    }
  }

  /** One cell of the undo. */
  lemma SlideUndoAt(b: Board, n: nat, e: Cell, d: Cell, c: Cell)
    requires IsGrid(b, 3 * n) && InBounds(n, e) && InBounds(n, d) && e != d
    requires AllWall(b, e) && InBounds(3 * n, c)
    ensures Get(Slid(Slid(b, n, e, d), n, d, e), 3 * n, c) == Get(b, 3 * n, c)
  {
    var s := Slid(b, n, e, d);
    SlidAt(s, n, d, e, c);
    BlocksDisjoint(d, e, c);
    if InBlock(e, c) {
      assert CharAt(b, BlockCell(e, c.0 - 3 * e.0, c.1 - 3 * e.1), Wall);
    } else if InBlock(d, c) {
      var c' := (c.0 - 3 * d.0 + 3 * e.0, c.1 - 3 * d.1 + 3 * e.1);
      SlidAt(b, n, e, d, c');
      BlocksDisjoint(d, e, c');
    } else {
      SlidAt(b, n, e, d, c);
    }
  }

  /** Without the all-wall precondition the undo is not a restore: a
      non-wall cell of the blank's block is lost, because sliding back
      leaves that block all walls. */
  lemma UndoNeedsWalledBlank(b: Board, n: nat, e: Cell, d: Cell)
    requires IsGrid(b, 3 * n) && InBounds(n, e) && InBounds(n, d) && e != d
    requires !AllWall(b, e)
    ensures Slid(Slid(b, n, e, d), n, d, e) != b
  {
    var k, l :| 0 <= k < 3 && 0 <= l < 3 && !CharAt(b, BlockCell(e, k, l), Wall);
    var c := BlockCell(e, k, l);
    var s := Slid(b, n, e, d);
    SlidAt(s, n, d, e, c);
    assert Slid(s, n, d, e)[c.0][c.1] == Wall;
  }
}

=== FILE: build.dfy ===
/** The big-board construction: every tile of the `n` x `n` input is
    stamped, as its 3x3 pattern, into a `3n` x `3n` board, and the blank
    is the last tile `0` in row-major order. */
module Build {
  import opened Grid
  import opened Tiles
  import opened Blocks
  import opened TreeSize
  import opened Moves

  /** Every tile of the input is a hexadecimal digit. */
  predicate AllHex(board: Board, n: nat)
    requires IsGrid(board, n)
  {
    forall i, j :: 0 <= i < n && 0 <= j < n ==> IsHexDigit(board[i][j])
  }

  lemma DivMod3(x: int, k: int)
    requires 0 <= k < 3
    ensures (3 * x + k) / 3 == x && (3 * x + k) % 3 == k
  {
  }

  /** The character the construction writes at big-board cell `c`: the
      pattern of the tile whose block holds `c`, at the offset of `c`. */
  function StampedCell(board: Board, n: nat, c: Cell): char
    requires IsGrid(board, n)
  {
    if 0 <= c.0 < 3 * n && 0 <= c.1 < 3 * n && IsHexDigit(board[c.0 / 3][c.1 / 3])
    then TileCell(board[c.0 / 3][c.1 / 3], c.0 % 3, c.1 % 3)
    else Road
  }

  /** The stamped big board. */
  function BigBoard(board: Board, n: nat): (r: Board)
    requires IsGrid(board, n) && AllHex(board, n)
    ensures IsGrid(r, 3 * n) && IsBinary(r)
    ensures forall t, k, l :: InBounds(n, t) && 0 <= k < 3 && 0 <= l < 3 ==>
      Get(r, 3 * n, BlockCell(t, k, l)) == TileCell(board[t.0][t.1], k, l)
  {
    var r := seq(3 * n, i => seq(3 * n, j => StampedCell(board, n, (i, j))));
    forall t, k, l | InBounds(n, t) && 0 <= k < 3 && 0 <= l < 3
      ensures Get(r, 3 * n, BlockCell(t, k, l)) == TileCell(board[t.0][t.1], k, l)
    {
      DivMod3(t.0, k);
      DivMod3(t.1, l);
    }
    forall i, j | 0 <= i < 3 * n && 0 <= j < 3 * n
      ensures r[i][j] in {Wall, Road}
    {
      assert 0 <= i / 3 < n && 0 <= j / 3 < n;
      assert IsPattern(Expand(board[i / 3][j / 3]).value);
    }
    r
  }

  /** `a` comes no later than `c` in row-major order. */
  predicate RowMajorLe(a: Cell, c: Cell) {
    a.0 < c.0 || (a.0 == c.0 && a.1 <= c.1)
  }

  /** The last column before `j` holding a `0`. */
  function LastZeroInRow(row: seq<char>, j: nat): (r: Option<nat>)
    requires j <= |row|
    ensures r.Some? ==> r.value < j && row[r.value] == '0' && forall k :: r.value < k < j ==> row[k] != '0'
    ensures r.None? ==> forall k :: 0 <= k < j ==> row[k] != '0'
  {
    if j == 0 then None
    else if row[j - 1] == '0' then Some(j - 1)
    else LastZeroInRow(row, j - 1)
  }

  /** The last `0` in row-major order among the first `i` rows. */
  function LastZero(board: Board, n: nat, i: nat): (r: Option<Cell>)
    requires IsGrid(board, n) && i <= n
    ensures r.Some? ==> InBounds(n, r.value) && r.value.0 < i && board[r.value.0][r.value.1] == '0'
    ensures r.Some? ==> forall a, c :: 0 <= a < i && 0 <= c < n && board[a][c] == '0' ==> RowMajorLe((a, c), r.value)
    ensures r.None? ==> forall a, c :: 0 <= a < i && 0 <= c < n ==> board[a][c] != '0'
  {
    if i == 0 then None
    else
      match LastZeroInRow(board[i - 1], n)
      case Some(j) => Some((i - 1, j))
      case None => LastZero(board, n, i - 1)
  }

  /** The blank at the start: the last `0`, or (0, 0) when there is none. */
  function InitialBlank(board: Board, n: nat): (e: Cell)
    requires IsGrid(board, n)
  {
    match LastZero(board, n, n)
    case Some(c) => c
    case None => (0, 0)
  }

  /** Some tile is `0`. */
  predicate HasZero(board: Board, n: nat)
    requires IsGrid(board, n)
  {
    exists i, j :: 0 <= i < n && 0 <= j < n && board[i][j] == '0'
  }

  /** The construction. The program stops on a tile that is not a
      hexadecimal digit; that is the `None` here. */
  function BuildPosition(board: Board, n: nat): (r: Option<Position>)
    requires IsGrid(board, n)
    ensures r.Some? <==> AllHex(board, n)
    ensures r.Some? ==> IsGrid(r.value.board, 3 * n) && IsBinary(r.value.board)
    ensures r.Some? ==> forall t, k, l :: InBounds(n, t) && 0 <= k < 3 && 0 <= l < 3 ==>
      Get(r.value.board, 3 * n, BlockCell(t, k, l)) == TileCell(board[t.0][t.1], k, l)
    ensures r.Some? && HasZero(board, n) ==>
      var e := r.value.empty;
      && InBounds(n, e) && board[e.0][e.1] == '0'
      && forall a, c :: 0 <= a < n && 0 <= c < n && board[a][c] == '0' ==> RowMajorLe((a, c), e)
    ensures r.Some? && !HasZero(board, n) ==> r.value.empty == (0, 0)
    ensures r.Some? && n >= 1 ==> InBounds(n, r.value.empty)
  {
    if AllHex(board, n) then Some(Position(BigBoard(board, n), InitialBlank(board, n))) else None
  }

  /** With a `0` tile on the board, the blank's block is all walls and the
      first traversal, from the blank's centre, counts only the start. */
  lemma BlankIsWalled(board: Board, n: nat)
    requires IsGrid(board, n) && AllHex(board, n) && HasZero(board, n)
    ensures var p := BuildPosition(board, n).value;
      && AllWall(p.board, p.empty)
      && TreeSizeFrom(p.board, 3 * n, Centre(p.empty)) == 1
  {
    var p := BuildPosition(board, n).value;
    forall k, l | 0 <= k < 3 && 0 <= l < 3
      ensures CharAt(p.board, BlockCell(p.empty, k, l), Wall)
    {
      assert Get(p.board, 3 * n, BlockCell(p.empty, k, l)) == TileCell('0', k, l);
    }
    WalledCentreIsolated(p.board, n, p.empty);
  }
}

=== FILE: chokudai.dfy ===
/** The chokudai search of the main solver: one priority queue per depth,
    keyed by an evaluation score. Each pass takes the best state of every
    depth, expands it by all its legal moves (in a shuffled order) and
    queues the children one depth further; the best loop-free tree seen so
    far is recorded with its moves. */
module Chokudai {
  import opened Grid
  import opened Blocks
  import opened TreeSize
  import opened LoopDfs
  import opened Moves
  import opened Heap
  import opened Record

  /** A search state. `evaluatedScore` is the queue key. */
  datatype GameState = GameState(
    n: nat,
    bigBoard: Board,
    empty: Cell,
    treeSize: int,
    hasLoop: bool,
    operationList: seq<char>,
    turn: nat,
    evaluatedScore: int)

  /** The ordering of the queues compares the evaluation score only. */
  function ScoreKey(s: GameState): int {
    s.evaluatedScore
  }

  /** The board has the size the state claims and the blank lies on it. */
  predicate WellFormed(s: GameState) {
    IsGrid(s.bigBoard, 3 * s.n) && InBounds(s.n, s.empty)
  }

  /** `m` is the largest tree size over all tile centres of the board. */
  ghost predicate IsMaxTreeSize(b: Board, n: nat, m: int)
    requires IsGrid(b, 3 * n)
  {
    && (forall t :: InBounds(n, t) ==> TreeSizeFrom(b, 3 * n, Centre(t)) <= m)
    && (n >= 1 ==> exists t :: InBounds(n, t) && TreeSizeFrom(b, 3 * n, Centre(t)) == m)
    && (n == 0 ==> m == 0)
  }

  /** The row-major scan of the tile centres of the first `rows` rows,
      from a maximum of zero; a later count replaces the maximum only when
      it is strictly larger. */
  ghost function MaxUpTo(b: Board, n: nat, rows: nat): int
    requires IsGrid(b, 3 * n) && rows <= n
  {
    if rows == 0 then 0 else RowMaxUpTo(b, n, rows - 1, n, MaxUpTo(b, n, rows - 1))
  }

  /** The scan of the first `cols` centres of row `i`, from the running
      maximum `m`. */
  ghost function RowMaxUpTo(b: Board, n: nat, i: nat, cols: nat, m: int): int
    requires IsGrid(b, 3 * n) && i < n && cols <= n
  {
    if cols == 0 then m
    else
      var prev := RowMaxUpTo(b, n, i, cols - 1, m);
      var size := TreeSizeFrom(b, 3 * n, Centre((i, cols - 1)));
      if prev < size then size else prev
  }

  /** The scan of the first `cols` centres of row `i` ends at least at
      `m`, at least at each of their counts, and at `m` or one of them. */
  lemma {:induction false} RowMaxUpToBounds(b: Board, n: nat, i: nat, cols: nat, m: int)
    requires IsGrid(b, 3 * n) && i < n && cols <= n
    ensures var r := RowMaxUpTo(b, n, i, cols, m);
      && r >= m
      && (forall k :: 0 <= k < cols ==> TreeSizeFrom(b, 3 * n, Centre((i, k))) <= r)
      && (r == m || exists k :: 0 <= k < cols && TreeSizeFrom(b, 3 * n, Centre((i, k))) == r)
  {
    if cols > 0 {
      RowMaxUpToBounds(b, n, i, cols - 1, m);
    }
  }

  /** The scan of the first `rows` rows ends at least at zero, at least
      at every count of those rows, and at zero or one of them. */
  lemma {:induction false} MaxUpToBounds(b: Board, n: nat, rows: nat)
    requires IsGrid(b, 3 * n) && rows <= n
    ensures MaxUpTo(b, n, rows) >= 0
    ensures forall t :: InBounds(n, t) && t.0 < rows ==> TreeSizeFrom(b, 3 * n, Centre(t)) <= MaxUpTo(b, n, rows)
    ensures MaxUpTo(b, n, rows) == 0 ||
      exists t :: InBounds(n, t) && t.0 < rows && TreeSizeFrom(b, 3 * n, Centre(t)) == MaxUpTo(b, n, rows)
  {
    if rows > 0 {
      var i := rows - 1;
      var m := MaxUpTo(b, n, i);
      var r := MaxUpTo(b, n, rows);
      assert r == RowMaxUpTo(b, n, i, n, m);
      MaxUpToBounds(b, n, i);
      RowMaxUpToBounds(b, n, i, n, m);
      forall t | InBounds(n, t) && t.0 < rows
        ensures TreeSizeFrom(b, 3 * n, Centre(t)) <= r
      {
        if t.0 == i {
          assert t == (i, t.1);
        }
      }
      if r != m {
        var k :| 0 <= k < n && TreeSizeFrom(b, 3 * n, Centre((i, k))) == r;
        assert InBounds(n, (i, k));
      }
    }
  }

  /** The scan of every row is the largest count over every centre. */
  lemma MaxUpToIsMax(b: Board, n: nat)
    requires IsGrid(b, 3 * n)
    ensures IsMaxTreeSize(b, n, MaxUpTo(b, n, n))
  {
    MaxUpToBounds(b, n, n);
    if n >= 1 {
      assert InBounds(n, (0, 0));
      assert TreeSizeFrom(b, 3 * n, Centre((0, 0))) >= 1;
    }
  }

  /** The largest traversal count over every tile centre, keeping the
      first maximum; zero on an empty board. The scan is `MaxUpTo`, and
      its result is the maximum. */
  method MaxTreeSize(b: Board, n: nat) returns (m: int)
    requires IsGrid(b, 3 * n)
    ensures IsMaxTreeSize(b, n, m)
    ensures n >= 1 ==> m >= 1
    ensures m == MaxUpTo(b, n, n)
  {
    m := 0;
    for i := 0 to n
      invariant m == MaxUpTo(b, n, i)
    {
      m := RowMax(b, n, i, m);
    }
    MaxUpToIsMax(b, n);
    if n >= 1 {
      assert InBounds(n, (0, 0));
    }
  }

  /** The maximum of `m0` and the traversal counts of row `i`, keeping the
      first maximum. */
  method RowMax(b: Board, n: nat, i: nat, m0: int) returns (m: int)
    requires IsGrid(b, 3 * n) && i < n
    ensures m >= m0 && m >= 1
    ensures forall j :: 0 <= j < n ==> TreeSizeFrom(b, 3 * n, Centre((i, j))) <= m
    ensures m == m0 || exists j :: 0 <= j < n && TreeSizeFrom(b, 3 * n, Centre((i, j))) == m
    ensures m == RowMaxUpTo(b, n, i, n, m0)
  {
    m := m0;
    for j := 0 to n
      invariant m == RowMaxUpTo(b, n, i, j, m0)
    {
      var size := ComputeTreeSizeByBfs(Centre((i, j)), n, b);
      if m < size {
        m := size;
      }
    }
    RowMaxUpToBounds(b, n, i, n, m0);
    assert TreeSizeFrom(b, 3 * n, Centre((i, 0))) >= 1;
  }

  /** The move of `Advance`, as a function: the slid board, then the
      state `Settle` builds on it. */
  ghost function Child(s: GameState, action: nat, scoreOf: (int, bool, nat) -> int): GameState
    requires WellFormed(s) && action < 4 && InBounds(s.n, Step(s.empty, action))
  {
    Settle(s, action, Slid(s.bigBoard, s.n, s.empty, Step(s.empty, action)), scoreOf)
  }

  /** The state after the move by `action` onto `board`: the stepped
      blank, the row-major maximum, the loop flag from the old blank's
      centre, the appended letter, the next turn and its score. */
  ghost function Settle(s: GameState, action: nat, board: Board, scoreOf: (int, bool, nat) -> int): GameState
    requires WellFormed(s) && action < 4 && IsGrid(board, 3 * s.n)
  {
    var size := MaxUpTo(board, s.n, s.n);
    var loop := HasLoop(board, 3 * s.n, Centre(s.empty));
    GameState(s.n, board, Step(s.empty, action), size, loop, s.operationList + [Letter(action)], s.turn + 1,
              scoreOf(size, loop, s.turn + 1))
  }

  /** One move of a state: the tile in direction `action` slides into the
      blank; the tree size becomes the maximum over all centres; the loop
      flag is computed from the old blank's centre, which now holds the
      tile that slid in, because the blank is updated afterwards; the
      letter is appended and the turn advances. `scoreOf` stands for the
      floating-point evaluation formula. */
  method Advance(s: GameState, action: nat, scoreOf: (int, bool, nat) -> int) returns (r: GameState)
    requires WellFormed(s) && action < 4 && InBounds(s.n, Step(s.empty, action))
    ensures WellFormed(r) && r.n == s.n
    ensures Move(Position(s.bigBoard, s.empty), s.n, action) == Some(Position(r.bigBoard, r.empty))
    ensures forall k, l :: 0 <= k < 3 && 0 <= l < 3 ==>
      Get(r.bigBoard, 3 * s.n, BlockCell(s.empty, k, l)) == Get(s.bigBoard, 3 * s.n, BlockCell(r.empty, k, l))
    ensures AllWall(r.bigBoard, r.empty)
    ensures forall c :: InBounds(3 * s.n, c) && !InBlock(s.empty, c) && !InBlock(r.empty, c) ==>
      Get(r.bigBoard, 3 * s.n, c) == Get(s.bigBoard, 3 * s.n, c)
    ensures r.operationList == s.operationList + [Letter(action)]
    ensures r.turn == s.turn + 1
    ensures IsMaxTreeSize(r.bigBoard, r.n, r.treeSize) && r.treeSize >= 1
    ensures r.hasLoop == HasLoop(r.bigBoard, 3 * r.n, Centre(s.empty))
    ensures PrevEmpty(r.empty, r.operationList) == s.empty
    ensures r.evaluatedScore == scoreOf(r.treeSize, r.hasLoop, r.turn)
    ensures r == Child(s, action, scoreOf)
  {
    var n := s.n;
    var next := Step(s.empty, action);
    var board := MoveBlock(s.bigBoard, n, s.empty, next);
    var maxTreeSize := MaxTreeSize(board, n);
    var hasLoop := HasLoop(board, 3 * n, Centre(s.empty));
    var ops := s.operationList + [Letter(action)];
    LetterRoundTrip(action);
    ReverseReturns(s.empty, action);
    r := GameState(n, board, next, maxTreeSize, hasLoop, ops, s.turn + 1, scoreOf(maxTreeSize, hasLoop, s.turn + 1));
    SettleOfParts(s, action, scoreOf, board, maxTreeSize, hasLoop);
    ChildOfParts(s, action, scoreOf, board);
  }

  /** The board `Advance` computes is the one `Child` settles on. */
  lemma ChildOfParts(s: GameState, action: nat, scoreOf: (int, bool, nat) -> int, board: Board)
    requires WellFormed(s) && action < 4 && InBounds(s.n, Step(s.empty, action))
    requires board == Slid(s.bigBoard, s.n, s.empty, Step(s.empty, action))
    ensures Child(s, action, scoreOf) == Settle(s, action, board, scoreOf)
  {
  }

  /** The size and loop flag `Advance` computes are those `Settle` puts
      in the state. */
  lemma SettleOfParts(s: GameState, action: nat, scoreOf: (int, bool, nat) -> int, board: Board, size: int, loop: bool)
    requires WellFormed(s) && action < 4 && IsGrid(board, 3 * s.n)
    requires size == MaxUpTo(board, s.n, s.n) && loop == HasLoop(board, 3 * s.n, Centre(s.empty))
    ensures Settle(s, action, board, scoreOf) ==
      GameState(s.n, board, Step(s.empty, action), size, loop, s.operationList + [Letter(action)], s.turn + 1,
                scoreOf(size, loop, s.turn + 1))
  {
  }

  /** The number of passes for a board of side `n`; none outside 6 to 10,
      where the program stops. */
  function BeamNumber(n: nat): (r: Option<nat>)
    ensures r.Some? <==> 6 <= n <= 10
    ensures r.Some? ==> 30 <= r.value <= 200
  {
    match n
    case 6 => Some(200)
    case 7 => Some(150)
    case 8 => Some(100)
    case 9 => Some(50)
    case 10 => Some(30)
    case _ => None
  }

  /** The number of depths for a board of side `n` and move limit `t`: a
      fraction of `t`, rounded down, so never more than `t`. */
  function BeamDepth(n: nat, t: nat): (r: Option<nat>)
    ensures r.Some? <==> 6 <= n <= 10
    ensures r.Some? ==> r.value <= t
    ensures r.Some? ==> 7 * t / 10 <= r.value
  {
    match n
    case 6 => Some(t)
    case 7 => Some(t * 9 / 10)
    case 8 => Some(t * 8 / 10)
    case 9 => Some(t * 7 / 10)
    case 10 => Some(t * 7 / 10)
    case _ => None
  }

  /** States per depth taken in each pass. */
  const BeamWidth: nat := 1

  /** The state `s` sits at depth `d` of a search from position `p0`: it has
      made `d` legal moves, and its board, blank, tree size, loop flag and
      score are those that the moves produce. */
  ghost predicate Consistent(p0: Position, n: nat, s: GameState, d: nat, scoreOf: (int, bool, nat) -> int)
    requires IsGrid(p0.board, 3 * n) && InBounds(n, p0.empty)
  {
    && s.n == n && WellFormed(s)
    && |s.operationList| == d && s.turn == d
    && Replay(p0, n, s.operationList) == Some(Position(s.bigBoard, s.empty))
    && NoImmediateReverse(s.operationList)
    && (d >= 1 ==>
      && DirOf(s.operationList[d - 1]) < 4
      && IsMaxTreeSize(s.bigBoard, n, s.treeSize) && s.treeSize >= 1
      && s.hasLoop == HasLoop(s.bigBoard, 3 * n, Centre(PrevEmpty(s.empty, s.operationList)))
      && s.evaluatedScore == scoreOf(s.treeSize, s.hasLoop, s.turn))
  }

  /** Every queue holds only states of its own depth. */
  ghost predicate BeamOk(p0: Position, n: nat, beam: seq<seq<GameState>>, depth: nat, scoreOf: (int, bool, nat) -> int)
    requires IsGrid(p0.board, 3 * n) && InBounds(n, p0.empty)
  {
    && |beam| == depth + 1
    && forall d, k :: 0 <= d < |beam| && 0 <= k < |beam[d]| ==> Consistent(p0, n, beam[d][k], d, scoreOf)
  }

  /** The recorded moves lead from `p0` through legal moves to a position
      whose largest tree has `size` tiles and whose last slid tile closes
      no loop. */
  ghost predicate GoodRecord(p0: Position, n: nat, ops: seq<char>, size: int)
    requires IsGrid(p0.board, 3 * n) && InBounds(n, p0.empty)
  {
    && ops != [] && DirOf(ops[|ops| - 1]) < 4
    && NoImmediateReverse(ops)
    && Replay(p0, n, ops).Some?
    && var q := Replay(p0, n, ops).value;
      && IsMaxTreeSize(q.board, n, size) && size >= 1
      && !HasLoop(q.board, 3 * n, Centre(PrevEmpty(q.empty, ops)))
  }

  /** What a child offers to the record: its tree size and moves when its
      loop flag is clear, nothing otherwise. */
  function Offered(c: GameState): seq<(seq<char>, int)> {
    if c.hasLoop then [] else [(c.operationList, c.treeSize)]
  }

  /** The offers of a run of children, in order. */
  function LoopFree(cs: seq<GameState>): seq<(seq<char>, int)>
    decreases |cs|
  {
    if cs == [] then [] else LoopFree(cs[..|cs| - 1]) + Offered(cs[|cs| - 1])
  }

  /** The offers of two runs of children are the offers of each. */
  lemma {:induction false} LoopFreeConcat(a: seq<GameState>, b: seq<GameState>)
    ensures LoopFree(a + b) == LoopFree(a) + LoopFree(b)
    decreases |b|
  {
    if b == [] {
      assert a + b == a;
    } else {
      var p := b[..|b| - 1];
      assert b[..|b| - 1] == p && (a + b)[..|a + b| - 1] == a + p && (a + b)[|a + b| - 1] == b[|b| - 1];
      LoopFreeConcat(a, p);
    }
  }

  /** The best-record update: a child replaces the record only when its
      tree is strictly larger and has no loop. */
  function UpdateBest(size: int, ops: seq<char>, child: GameState): (r: (int, seq<char>))
    ensures r.0 >= size
    ensures r.0 > size ==> !child.hasLoop && r == (child.treeSize, child.operationList)
    ensures r.0 == size ==> r.1 == ops
    ensures !child.hasLoop && child.treeSize > size ==> r.0 == child.treeSize
    ensures (r.1, r.0) == Best((ops, size), Offered(child))
  {
    if size < child.treeSize && !child.hasLoop then (child.treeSize, child.operationList) else (size, ops)
  }

  /** Popping from the queue of depth `d` keeps every queue consistent. */
  lemma BeamAfterPop(p0: Position, n: nat, beam: seq<seq<GameState>>, depth: nat, scoreOf: (int, bool, nat) -> int, d: nat)
    requires IsGrid(p0.board, 3 * n) && InBounds(n, p0.empty)
    requires BeamOk(p0, n, beam, depth, scoreOf) && d < |beam| && beam[d] != []
    ensures Consistent(p0, n, Pop(beam[d], ScoreKey).0, d, scoreOf)
    ensures BeamOk(p0, n, beam[d := Pop(beam[d], ScoreKey).1], depth, scoreOf)
  {
    var (top, rest) := Pop(beam[d], ScoreKey);
    PopMembers(beam[d], ScoreKey);
    var i :| 0 <= i < |beam[d]| && beam[d][i] == top;
    var b2 := beam[d := rest];
    forall e, k | 0 <= e < |b2| && 0 <= k < |b2[e]|
      ensures Consistent(p0, n, b2[e][k], e, scoreOf)
    {
      if e == d {
        assert b2[e][k] in rest;
        var j :| 0 <= j < |beam[d]| && beam[d][j] == b2[e][k];
      }
    }
  }

  /** A child of a consistent state is consistent one depth further. */
  lemma ChildConsistent(p0: Position, n: nat, s: GameState, d: nat, action: nat, r: GameState, scoreOf: (int, bool, nat) -> int)
    requires IsGrid(p0.board, 3 * n) && InBounds(n, p0.empty)
    requires Consistent(p0, n, s, d, scoreOf)
    requires action in LegalActions(s.operationList, s.empty, n)
    requires WellFormed(r) && r.n == s.n
    requires Move(Position(s.bigBoard, s.empty), s.n, action) == Some(Position(r.bigBoard, r.empty))
    requires r.operationList == s.operationList + [Letter(action)] && r.turn == s.turn + 1
    requires IsMaxTreeSize(r.bigBoard, r.n, r.treeSize) && r.treeSize >= 1
    requires r.hasLoop == HasLoop(r.bigBoard, 3 * r.n, Centre(s.empty))
    requires PrevEmpty(r.empty, r.operationList) == s.empty
    requires r.evaluatedScore == scoreOf(r.treeSize, r.hasLoop, r.turn)
    ensures Consistent(p0, n, r, d + 1, scoreOf)
  {
    ReplayAppend(p0, n, s.operationList, Position(s.bigBoard, s.empty), action);
    AppendLegal(s.operationList, s.empty, n, action);
    LetterRoundTrip(action);
  }

  /** The best-record invariant: no record and size zero, or a good
      record of at most `depth` moves. */
  ghost predicate BestOk(p0: Position, n: nat, ops: seq<char>, size: int, depth: nat)
    requires IsGrid(p0.board, 3 * n) && InBounds(n, p0.empty)
  {
    && size >= 0 && (ops == [] <==> size == 0)
    && (ops != [] ==> GoodRecord(p0, n, ops, size) && |ops| <= depth)
  }

  /** Offering a consistent child of depth at most `depth` to the record
      keeps the record invariant. */
  lemma BestAfterUpdate(p0: Position, n: nat, ops: seq<char>, size: int, depth: nat, d: nat, child: GameState, scoreOf: (int, bool, nat) -> int)
    requires IsGrid(p0.board, 3 * n) && InBounds(n, p0.empty)
    requires BestOk(p0, n, ops, size, depth)
    requires 1 <= d <= depth && Consistent(p0, n, child, d, scoreOf)
    ensures BestOk(p0, n, UpdateBest(size, ops, child).1, UpdateBest(size, ops, child).0, depth)
  {
  }

  /** The child of `s` by `action`, or `s` itself when the move is not
      possible (which no caller asks for). */
  ghost function Kid(s: GameState, action: nat, scoreOf: (int, bool, nat) -> int): GameState {
    if WellFormed(s) && action < 4 && InBounds(s.n, Step(s.empty, action)) then Child(s, action, scoreOf) else s
  }

  /** The children of `s` by the actions of `order`, in order. */
  ghost function Kids(s: GameState, order: seq<nat>, scoreOf: (int, bool, nat) -> int): (r: seq<GameState>)
    ensures |r| == |order|
  {
    Map(KidOf(s, scoreOf), order)
  }

  /** `Kid` as a function of the action alone. */
  ghost function KidOf(s: GameState, scoreOf: (int, bool, nat) -> int): nat -> GameState {
    (action: nat) => Kid(s, action, scoreOf)
  }

  /** `f` applied to each element of `xs`, in order. */
  function Map<A, B>(f: A -> B, xs: seq<A>): (r: seq<B>)
    ensures |r| == |xs|
    ensures forall i :: 0 <= i < |xs| ==> r[i] == f(xs[i])
  {
    seq(|xs|, i requires 0 <= i < |xs| => f(xs[i]))
  }

  /** One more element gives one more image. */
  lemma MapStep<A, B>(f: A -> B, xs: seq<A>, a: nat)
    requires a < |xs|
    ensures Map(f, xs[..a + 1]) == Map(f, xs[..a]) + [f(xs[a])]
  {
    var l, r := Map(f, xs[..a + 1]), Map(f, xs[..a]) + [f(xs[a])];
    forall i | 0 <= i < |l|
      ensures l[i] == r[i]
    {
      assert xs[..a + 1][i] == xs[i];
      if i < a {
        assert xs[..a][i] == xs[i];
      }
    }
  }

  /** The `j`-th child by a legal action carries that action's letter
      after the parent's moves. */
  lemma KidsMoves(s: GameState, order: seq<nat>, j: nat, scoreOf: (int, bool, nat) -> int)
    requires WellFormed(s) && j < |order| && order[j] < 4 && InBounds(s.n, Step(s.empty, order[j]))
    ensures Kids(s, order, scoreOf)[j].operationList == s.operationList + [Letter(order[j])]
  {
  }

  /** One more action gives one more child. */
  lemma KidsStep(s: GameState, order: seq<nat>, a: nat, scoreOf: (int, bool, nat) -> int)
    requires a < |order|
    ensures Kids(s, order[..a + 1], scoreOf) == Kids(s, order[..a], scoreOf) + [Kid(s, order[a], scoreOf)]
  {
    MapStep(KidOf(s, scoreOf), order, a);
  }

  /** The child of a consistent state by a legal action is consistent
      one depth further. */
  lemma ChildIsConsistent(p0: Position, n: nat, s: GameState, d: nat, action: nat, scoreOf: (int, bool, nat) -> int)
    requires IsGrid(p0.board, 3 * n) && InBounds(n, p0.empty)
    requires Consistent(p0, n, s, d, scoreOf)
    requires action in LegalActions(s.operationList, s.empty, n)
    ensures Consistent(p0, n, Kid(s, action, scoreOf), d + 1, scoreOf)
    ensures Kid(s, action, scoreOf) == Child(s, action, scoreOf)
  {
    var r := Child(s, action, scoreOf);
    MaxUpToIsMax(r.bigBoard, n);
    LetterRoundTrip(action);
    ReverseReturns(s.empty, action);
    assert r.operationList[|r.operationList| - 1] == Letter(action);
    ChildConsistent(p0, n, s, d, action, r, scoreOf);
  }

  /** `kids` are the children of `now` by the actions `order`, in order,
      named by their move strings; for consistent states the move string
      fixes the whole state (`StateOfMoves`). */
  predicate ChildrenOf(now: GameState, order: seq<nat>, kids: seq<GameState>) {
    |kids| == |order| &&
    forall k :: 0 <= k < |order| ==>
      order[k] < 4 && kids[k].operationList == now.operationList + [Letter(order[k])]
  }

  /** The children `Kids` gives by legal actions carry the move strings
      of those actions. */
  lemma KidsAreChildren(now: GameState, order: seq<nat>, scoreOf: (int, bool, nat) -> int)
    requires WellFormed(now)
    requires forall a :: a in order ==> a in LegalActions(now.operationList, now.empty, now.n)
    ensures ChildrenOf(now, order, Kids(now, order, scoreOf))
  {
    var kids := Kids(now, order, scoreOf);
    forall k | 0 <= k < |order|
      ensures order[k] < 4 && kids[k].operationList == now.operationList + [Letter(order[k])]
    {
      assert order[k] in order;
      assert kids[k] == Child(now, order[k], scoreOf);
    }
  }

  /** Every state of `kids` is consistent at depth `d`. */
  ghost predicate AllAt(p0: Position, n: nat, kids: seq<GameState>, d: nat, scoreOf: (int, bool, nat) -> int)
    requires IsGrid(p0.board, 3 * n) && InBounds(n, p0.empty)
  {
    forall k :: 0 <= k < |kids| ==> Consistent(p0, n, kids[k], d, scoreOf)
  }

  /** A consistent state at depth one or more is fixed by its move string:
      the replay gives the board and the blank, from which the tree size,
      the loop flag and the score follow. */
  lemma StateOfMoves(p0: Position, n: nat, a: GameState, b: GameState, d: nat, scoreOf: (int, bool, nat) -> int)
    requires IsGrid(p0.board, 3 * n) && InBounds(n, p0.empty)
    requires Consistent(p0, n, a, d, scoreOf) && Consistent(p0, n, b, d, scoreOf) && d >= 1
    requires a.operationList == b.operationList
    ensures a == b
  {
    assert a.bigBoard == b.bigBoard && a.empty == b.empty;
    var ta :| InBounds(n, ta) && TreeSizeFrom(a.bigBoard, 3 * n, Centre(ta)) == a.treeSize;
    var tb :| InBounds(n, tb) && TreeSizeFrom(b.bigBoard, 3 * n, Centre(tb)) == b.treeSize;
    assert a.treeSize <= b.treeSize && b.treeSize <= a.treeSize;
  }

  /** The record after a child is the record before it updated by the
      child's offer. */
  lemma RecordStep(init: (seq<char>, int), kids: seq<GameState>, c: GameState)
    ensures Best(init, LoopFree(kids + [c])) ==
      (UpdateBest(Best(init, LoopFree(kids)).1, Best(init, LoopFree(kids)).0, c).1,
       UpdateBest(Best(init, LoopFree(kids)).1, Best(init, LoopFree(kids)).0, c).0)
  {
    assert (kids + [c])[..|kids|] == kids;
    BestConcat(init, LoopFree(kids), Offered(c));
  }

  /** The record after two runs of children is the record after the
      first, updated by the second. */
  lemma RecordConcat(init: (seq<char>, int), a: seq<GameState>, b: seq<GameState>)
    ensures Best(init, LoopFree(a + b)) == Best(Best(init, LoopFree(a)), LoopFree(b))
  {
    LoopFreeConcat(a, b);
    BestConcat(init, LoopFree(a), LoopFree(b));
  }

  /** Pushing onto queue `i` of queues that grew there by `kids` grows it
      by one more. */
  lemma QueuesPush<T>(beam0: seq<seq<T>>, i: nat, kids: seq<T>, x: T)
    requires i < |beam0|
    ensures beam0[i := beam0[i] + kids][i := Push((beam0[i := beam0[i] + kids])[i], x)] == beam0[i := beam0[i] + (kids + [x])]
  {
    assert (beam0[i] + kids) + [x] == beam0[i] + (kids + [x]);
    var l, r := beam0[i := beam0[i] + kids][i := Push((beam0[i := beam0[i] + kids])[i], x)], beam0[i := beam0[i] + (kids + [x])];
    assert |l| == |r|;
    forall j | 0 <= j < |l|
      ensures l[j] == r[j]
    {
    }
  }

  /** Queues that grew by nothing are the same queues. */
  lemma QueuesSame<T>(beam0: seq<seq<T>>, i: nat)
    requires i < |beam0|
    ensures beam0[i := beam0[i] + []] == beam0
  {
    assert beam0[i] + [] == beam0[i];
    var l := beam0[i := beam0[i] + []];
    forall j | 0 <= j < |l|
      ensures l[j] == beam0[j]
    {
    }
  }

  /** The queues have one entry per depth up to `beamDepth`, and every
      state in them is a well-formed state of side `n`: what the moves of
      the search need. */
  predicate Shaped(n: nat, beamDepth: nat, beam: seq<seq<GameState>>) {
    |beam| == beamDepth + 1 &&
    forall d, k :: 0 <= d < |beam| && 0 <= k < |beam[d]| ==> beam[d][k].n == n && WellFormed(beam[d][k])
  }

  /** The state popped from a shaped queue is well-formed, and the queues
      stay shaped. */
  lemma ShapedPop(n: nat, beamDepth: nat, beam: seq<seq<GameState>>, d: nat)
    requires Shaped(n, beamDepth, beam) && d < |beam| && beam[d] != []
    ensures Pop(beam[d], ScoreKey).0.n == n && WellFormed(Pop(beam[d], ScoreKey).0)
    ensures Shaped(n, beamDepth, beam[d := Pop(beam[d], ScoreKey).1])
  {
    var (top, rest) := Pop(beam[d], ScoreKey);
    PopMembers(beam[d], ScoreKey);
    var b2: seq<seq<GameState>> := beam[d := rest];
    forall e, k | 0 <= e < |b2| && 0 <= k < |b2[e]|
      ensures b2[e][k].n == n && WellFormed(b2[e][k])
    {
      if e == d {
        assert b2[e][k] in rest;
      }
    }
  }

  /** Pushing a well-formed state of side `n` keeps the queues shaped. */
  lemma ShapedPush(n: nat, beamDepth: nat, beam: seq<seq<GameState>>, d: nat, s: GameState)
    requires Shaped(n, beamDepth, beam) && d < |beam| && s.n == n && WellFormed(s)
    ensures Shaped(n, beamDepth, beam[d := Push(beam[d], s)])
  {
    var b2: seq<seq<GameState>> := beam[d := Push(beam[d], s)];
    forall e, k | 0 <= e < |b2| && 0 <= k < |b2[e]|
      ensures b2[e][k].n == n && WellFormed(b2[e][k])
    {
      if e == d && k == |beam[d]| {
        assert b2[e][k] == s;
      } else {
        assert b2[e][k] == beam[e][k];
      }
    }
  }

  /** `Advance` is the move `Kid` names, to a well-formed state of the
      same side. */
  method AdvanceKid(s: GameState, action: nat, scoreOf: (int, bool, nat) -> int) returns (r: GameState)
    requires WellFormed(s) && action in LegalActions(s.operationList, s.empty, s.n)
    ensures r == Kid(s, action, scoreOf) && WellFormed(r) && r.n == s.n
  {
    r := Advance(s, action, scoreOf);
  }

  /** A new child `next` of depth `depth + 1`, pushed onto the next
      depth's queue: the queues after `front` become those after
      `front + [next]`. */
  method Enqueue(n: nat, beam0: seq<seq<GameState>>, beamDepth: nat, depth: nat, beam1: seq<seq<GameState>>,
                 ghost front: seq<GameState>, next: GameState)
    returns (beam: seq<seq<GameState>>)
    requires depth < beamDepth && Shaped(n, beamDepth, beam0) && Shaped(n, beamDepth, beam1)
    requires beam1 == beam0[depth + 1 := beam0[depth + 1] + front]
    requires WellFormed(next) && next.n == n
    ensures Shaped(n, beamDepth, beam)
    ensures beam == beam0[depth + 1 := beam0[depth + 1] + (front + [next])]
  {
    beam := beam1[depth + 1 := Push(beam1[depth + 1], next)];
    ShapedPush(n, beamDepth, beam1, depth + 1, next);
    QueuesPush(beam0, depth + 1, front, next);
  }

  /** The expansion of one popped state: each action of `order`, in turn,
      produces a child that is offered to the record and queued one depth
      further. `children` are those children, `Kids`: the next depth's
      queue grows by exactly them, in order, and the record ends as the
      largest of the record carried in and the loop-free ones, the first
      on a tie. */
  method ExpandState(n: nat, beam0: seq<seq<GameState>>, beamDepth: nat, depth: nat, now: GameState,
                     order: seq<nat>, bestOps0: seq<char>, bestSize0: int, scoreOf: (int, bool, nat) -> int)
    returns (beam: seq<seq<GameState>>, bestOps: seq<char>, bestSize: int, ghost children: seq<GameState>)
    requires Shaped(n, beamDepth, beam0) && depth < beamDepth && WellFormed(now) && now.n == n
    requires forall a :: a in order ==> a in LegalActions(now.operationList, now.empty, n)
    ensures Shaped(n, beamDepth, beam)
    ensures children == Kids(now, order, scoreOf)
    ensures beam == beam0[depth + 1 := beam0[depth + 1] + children]
    ensures (bestOps, bestSize) == Best((bestOps0, bestSize0), LoopFree(children))
  {
    if order == [] {
      beam, bestOps, bestSize, children := beam0, bestOps0, bestSize0, [];
      QueuesSame(beam0, depth + 1);
    } else {
      var last := |order| - 1;
      var beam1, bestOps1, bestSize1;
      ghost var front: seq<GameState>;
      beam1, bestOps1, bestSize1, front := ExpandState(n, beam0, beamDepth, depth, now, order[..last], bestOps0, bestSize0, scoreOf);
      assert order[last] in order;
      var next := AdvanceKid(now, order[last], scoreOf);
      KidsStep(now, order, last, scoreOf);
      assert order[..last + 1] == order;
      var updated := UpdateBest(bestSize1, bestOps1, next);
      bestSize, bestOps := updated.0, updated.1;
      RecordStep((bestOps0, bestSize0), front, next);
      beam := Enqueue(n, beam0, beamDepth, depth, beam1, front, next);
      children := front + [next];
    }
  }

  /** Every state in `seen` is consistent at its own depth, between one
      and `beamDepth`. */
  ghost predicate AllSeen(p0: Position, n: nat, seen: seq<GameState>, beamDepth: nat, scoreOf: (int, bool, nat) -> int)
    requires IsGrid(p0.board, 3 * n) && InBounds(n, p0.empty)
  {
    forall k :: 0 <= k < |seen| ==>
      1 <= |seen[k].operationList| <= beamDepth && Consistent(p0, n, seen[k], |seen[k].operationList|, scoreOf)
  }

  /** Every child of the start position is in `seen`. */
  ghost predicate StartSeen(p0: Position, n: nat, seen: seq<GameState>) {
    forall a :: a in LegalActions([], p0.empty, n) ==>
      exists k :: 0 <= k < |seen| && seen[k].operationList == [Letter(a)]
  }

  /** Children consistent at a depth from one to `beamDepth` extend what
      has been seen. */
  lemma SeenAppend(p0: Position, n: nat, seen: seq<GameState>, beamDepth: nat, kids: seq<GameState>, d: nat,
                   scoreOf: (int, bool, nat) -> int)
    requires IsGrid(p0.board, 3 * n) && InBounds(n, p0.empty)
    requires AllSeen(p0, n, seen, beamDepth, scoreOf) && AllAt(p0, n, kids, d, scoreOf) && 1 <= d <= beamDepth
    ensures AllSeen(p0, n, seen + kids, beamDepth, scoreOf)
  {
    forall k | 0 <= k < |seen + kids|
      ensures 1 <= |(seen + kids)[k].operationList| <= beamDepth
      ensures Consistent(p0, n, (seen + kids)[k], |(seen + kids)[k].operationList|, scoreOf)
    {
      if k >= |seen| {
        assert (seen + kids)[k] == kids[k - |seen|];
      }
    }
  }

  /** `shuffle(k, xs)` is a permutation of `xs`. */
  ghost predicate Shuffles(shuffle: (nat, seq<nat>) -> seq<nat>) {
    forall k: nat, xs: seq<nat> :: multiset(shuffle(k, xs)) == multiset(xs)
  }

  /** The pop-and-expand step as a function of the queues: the best state
      of queue `depth` by score leaves it, and its children by the `k`-th
      shuffle of its legal moves join queue `depth + 1`; the second
      component is those children. */
  ghost function Expansion(n: nat, beam: seq<seq<GameState>>, depth: nat, k: nat,
                           shuffle: (nat, seq<nat>) -> seq<nat>, scoreOf: (int, bool, nat) -> int)
    : (r: (seq<seq<GameState>>, seq<GameState>))
    requires depth + 1 < |beam| && beam[depth] != []
    ensures |r.0| == |beam|
  {
    var (now, rest) := Pop(beam[depth], ScoreKey);
    var kids := Kids(now, shuffle(k, LegalActions(now.operationList, now.empty, n)), scoreOf);
    (beam[depth := rest][depth + 1 := beam[depth + 1] + kids], kids)
  }

  /** One step of a pass at depth `depth`: the best state of that depth's
      queue is popped and expanded in the `k`-th shuffled order of its
      legal moves. The step is the reference `Expansion`, and the record
      takes in the loop-free children. */
  method ExpandBest(n: nat, beam0: seq<seq<GameState>>, beamDepth: nat, depth: nat,
                    shuffle: (nat, seq<nat>) -> seq<nat>, k: nat, bestOps0: seq<char>, bestSize0: int,
                    scoreOf: (int, bool, nat) -> int)
    returns (bestOps: seq<char>, bestSize: int, beam: seq<seq<GameState>>, ghost children: seq<GameState>)
    requires Shaped(n, beamDepth, beam0) && Shuffles(shuffle) && depth < beamDepth && beam0[depth] != []
    ensures Shaped(n, beamDepth, beam)
    ensures var now := Pop(beam0[depth], ScoreKey).0;
      && beam == beam0[depth := Pop(beam0[depth], ScoreKey).1][depth + 1 := beam0[depth + 1] + children]
      && ChildrenOf(now, shuffle(k, LegalActions(now.operationList, now.empty, n)), children)
    ensures (bestOps, bestSize) == Best((bestOps0, bestSize0), LoopFree(children))
    ensures (beam, children) == Expansion(n, beam0, depth, k, shuffle, scoreOf)
  {
    ShapedPop(n, beamDepth, beam0, depth);
    var (now, rest) := Pop(beam0[depth], ScoreKey);
    beam := beam0[depth := rest];
    var legal := LegalActions(now.operationList, now.empty, n);
    var order := shuffle(k, legal);
    forall a | a in order
      ensures a in legal
    {
      assert a in multiset(order);
    }
    beam, bestOps, bestSize, children := ExpandState(n, beam, beamDepth, depth, now, order, bestOps0, bestSize0, scoreOf);
    KidsAreChildren(now, order, scoreOf);
  }

  /** Queue `d` grown by states consistent at depth `d` keeps every queue
      consistent. */
  lemma BeamGrows(p0: Position, n: nat, beam: seq<seq<GameState>>, beamDepth: nat, d: nat, kids: seq<GameState>,
                  scoreOf: (int, bool, nat) -> int)
    requires IsGrid(p0.board, 3 * n) && InBounds(n, p0.empty)
    requires BeamOk(p0, n, beam, beamDepth, scoreOf) && d < |beam| && AllAt(p0, n, kids, d, scoreOf)
    ensures BeamOk(p0, n, beam[d := beam[d] + kids], beamDepth, scoreOf)
  {
    var b2 := beam[d := beam[d] + kids];
    forall e, k | 0 <= e < |b2| && 0 <= k < |b2[e]|
      ensures Consistent(p0, n, b2[e][k], e, scoreOf)
    {
      if e == d && k >= |beam[d]| {
        assert b2[e][k] == kids[k - |beam[d]|];
      } else {
        assert b2[e][k] == beam[e][k];
      }
    }
  }

  /** An expansion keeps every queue consistent, and its children are
      consistent one depth below the popped state. */
  lemma ExpansionKeeps(p0: Position, n: nat, beamDepth: nat, beam: seq<seq<GameState>>, depth: nat, k: nat,
                       shuffle: (nat, seq<nat>) -> seq<nat>, scoreOf: (int, bool, nat) -> int)
    requires IsGrid(p0.board, 3 * n) && InBounds(n, p0.empty) && Shuffles(shuffle)
    requires BeamOk(p0, n, beam, beamDepth, scoreOf) && depth < beamDepth && beam[depth] != []
    ensures BeamOk(p0, n, Expansion(n, beam, depth, k, shuffle, scoreOf).0, beamDepth, scoreOf)
    ensures AllAt(p0, n, Expansion(n, beam, depth, k, shuffle, scoreOf).1, depth + 1, scoreOf)
  {
    BeamAfterPop(p0, n, beam, beamDepth, scoreOf, depth);
    var (now, rest) := Pop(beam[depth], ScoreKey);
    var order := shuffle(k, LegalActions(now.operationList, now.empty, n));
    var kids := Kids(now, order, scoreOf);
    forall i | 0 <= i < |kids|
      ensures Consistent(p0, n, kids[i], depth + 1, scoreOf)
    {
      assert order[i] in multiset(order);
      ChildIsConsistent(p0, n, now, depth, order[i], scoreOf);
    }
    BeamGrows(p0, n, beam[depth := rest], beamDepth, depth + 1, kids, scoreOf);
  }

  /** The steps of a pass at depth `depth` from step `w` on, with `k`
      shuffles drawn so far: each pops and expands the best state of the
      queue until `BeamWidth` steps are done or the queue is empty. The
      result is the queues after them, the children they produced, in
      order, and the shuffles drawn. */
  ghost function Widths(n: nat, beam: seq<seq<GameState>>, depth: nat, k: nat, w: nat,
                        shuffle: (nat, seq<nat>) -> seq<nat>, scoreOf: (int, bool, nat) -> int)
    : (r: (seq<seq<GameState>>, seq<GameState>, nat))
    requires depth + 1 < |beam|
    ensures |r.0| == |beam|
    decreases BeamWidth - w
  {
    if w >= BeamWidth || beam[depth] == [] then (beam, [], k)
    else
      var e := Expansion(n, beam, depth, k, shuffle, scoreOf);
      var r := Widths(n, e.0, depth, k + 1, w + 1, shuffle, scoreOf);
      (r.0, e.1 + r.1, r.2)
  }

  /** A pass from depth `depth` on: the steps of each depth below
      `beamDepth`, in order. */
  ghost function Depths(n: nat, beamDepth: nat, beam: seq<seq<GameState>>, depth: nat, k: nat,
                        shuffle: (nat, seq<nat>) -> seq<nat>, scoreOf: (int, bool, nat) -> int)
    : (r: (seq<seq<GameState>>, seq<GameState>, nat))
    requires |beam| == beamDepth + 1
    ensures |r.0| == |beam|
    decreases beamDepth - depth
  {
    if depth >= beamDepth then (beam, [], k)
    else
      var r1 := Widths(n, beam, depth, k, 0, shuffle, scoreOf);
      var r2 := Depths(n, beamDepth, r1.0, depth + 1, r1.2, shuffle, scoreOf);
      (r2.0, r1.1 + r2.1, r2.2)
  }

  /** The passes from pass `pass` on, up to `beamNumber`: the children
      they produce, in order. */
  ghost function Passes(n: nat, beamNumber: nat, beamDepth: nat, beam: seq<seq<GameState>>, pass: nat, k: nat,
                        shuffle: (nat, seq<nat>) -> seq<nat>, scoreOf: (int, bool, nat) -> int): seq<GameState>
    requires |beam| == beamDepth + 1
    decreases beamNumber - pass
  {
    if pass >= beamNumber then []
    else
      var r := Depths(n, beamDepth, beam, 0, k, shuffle, scoreOf);
      r.1 + Passes(n, beamNumber, beamDepth, r.0, pass + 1, r.2, shuffle, scoreOf)
  }

  /** The state the search starts from. */
  function Initial(p0: Position, n: nat): GameState {
    GameState(n, p0.board, p0.empty, 0, false, [], 0, 0)
  }

  /** The queues the search starts with: the start state at depth zero
      and `beamDepth` empty queues after it. */
  function Queues(p0: Position, n: nat, beamDepth: nat): (r: seq<seq<GameState>>)
    ensures |r| == beamDepth + 1
  {
    [[Initial(p0, n)]] + seq(beamDepth, _ => [])
  }

  /** Every child the search produces, in order: the reference run of
      all passes from the starting queues. */
  ghost function Search(p0: Position, n: nat, t: nat, shuffle: (nat, seq<nat>) -> seq<nat>,
                        scoreOf: (int, bool, nat) -> int): seq<GameState>
    requires 6 <= n <= 10
  {
    var beamDepth := BeamDepth(n, t).value;
    Passes(n, BeamNumber(n).value, beamDepth, Queues(p0, n, beamDepth), 0, 0, shuffle, scoreOf)
  }

  /** The steps at depth `depth` of one pass from step `w` on: while
      fewer than `BeamWidth` steps are done and the queue is not empty,
      its best state is popped and expanded (`ExpandBest`). The run is the
      reference `Widths`, and the record takes in the loop-free children
      it produced. */
  method ExpandDepth(n: nat, beam0: seq<seq<GameState>>, beamDepth: nat, depth: nat,
                     shuffle: (nat, seq<nat>) -> seq<nat>, k0: nat, w: nat, bestOps0: seq<char>, bestSize0: int,
                     scoreOf: (int, bool, nat) -> int)
    returns (bestOps: seq<char>, bestSize: int, beam: seq<seq<GameState>>, k: nat, ghost added: seq<GameState>)
    requires Shaped(n, beamDepth, beam0) && Shuffles(shuffle) && depth < beamDepth
    ensures Shaped(n, beamDepth, beam)
    ensures (bestOps, bestSize) == Best((bestOps0, bestSize0), LoopFree(added))
    ensures (beam, added, k) == Widths(n, beam0, depth, k0, w, shuffle, scoreOf)
    decreases BeamWidth - w
  {
    if w >= BeamWidth || beam0[depth] == [] {
      return bestOps0, bestSize0, beam0, k0, [];
    }
    var beam1;
    ghost var children, rest;
    bestOps, bestSize, beam1, children := ExpandBest(n, beam0, beamDepth, depth, shuffle, k0,
                                                     bestOps0, bestSize0, scoreOf);
    bestOps, bestSize, beam, k, rest := ExpandDepth(n, beam1, beamDepth, depth, shuffle, k0 + 1, w + 1,
                                                    bestOps, bestSize, scoreOf);
    added := children + rest;
    RecordConcat((bestOps0, bestSize0), children, rest);
  }

  /** The depths of one pass from depth `depth` on: the steps of each
      depth below `beamDepth` in turn (`ExpandDepth`). The run is the
      reference `Depths`. */
  method RunDepths(n: nat, beam0: seq<seq<GameState>>, beamDepth: nat, depth: nat,
                   shuffle: (nat, seq<nat>) -> seq<nat>, k0: nat, bestOps0: seq<char>, bestSize0: int,
                   scoreOf: (int, bool, nat) -> int)
    returns (bestOps: seq<char>, bestSize: int, beam: seq<seq<GameState>>, k: nat, ghost added: seq<GameState>)
    requires Shaped(n, beamDepth, beam0) && Shuffles(shuffle)
    ensures Shaped(n, beamDepth, beam)
    ensures (bestOps, bestSize) == Best((bestOps0, bestSize0), LoopFree(added))
    ensures (beam, added, k) == Depths(n, beamDepth, beam0, depth, k0, shuffle, scoreOf)
    decreases beamDepth - depth
  {
    if depth >= beamDepth {
      return bestOps0, bestSize0, beam0, k0, [];
    }
    var beam1, k1;
    ghost var added1, rest;
    bestOps, bestSize, beam1, k1, added1 := ExpandDepth(n, beam0, beamDepth, depth, shuffle, k0, 0,
                                                        bestOps0, bestSize0, scoreOf);
    bestOps, bestSize, beam, k, rest := RunDepths(n, beam1, beamDepth, depth + 1, shuffle, k1,
                                                  bestOps, bestSize, scoreOf);
    added := added1 + rest;
    RecordConcat((bestOps0, bestSize0), added1, rest);
  }

  /** The passes from pass `pass` on, up to `beamNumber` (`RunDepths`
      each). The children they produce are the reference `Passes`. */
  method RunPasses(n: nat, beamNumber: nat, beamDepth: nat, beam0: seq<seq<GameState>>, pass: nat,
                   shuffle: (nat, seq<nat>) -> seq<nat>, k0: nat, bestOps0: seq<char>, bestSize0: int,
                   scoreOf: (int, bool, nat) -> int)
    returns (bestOps: seq<char>, bestSize: int, ghost added: seq<GameState>)
    requires Shaped(n, beamDepth, beam0) && Shuffles(shuffle)
    ensures (bestOps, bestSize) == Best((bestOps0, bestSize0), LoopFree(added))
    ensures added == Passes(n, beamNumber, beamDepth, beam0, pass, k0, shuffle, scoreOf)
    ensures (bestOps, bestSize) ==
      Best((bestOps0, bestSize0), LoopFree(Passes(n, beamNumber, beamDepth, beam0, pass, k0, shuffle, scoreOf)))
    decreases beamNumber - pass
  {
    if pass >= beamNumber {
      return bestOps0, bestSize0, [];
    }
    var beam1, k1;
    ghost var added1, rest;
    bestOps, bestSize, beam1, k1, added1 := RunDepths(n, beam0, beamDepth, 0, shuffle, k0,
                                                      bestOps0, bestSize0, scoreOf);
    bestOps, bestSize, rest := RunPasses(n, beamNumber, beamDepth, beam1, pass + 1, shuffle, k1,
                                         bestOps, bestSize, scoreOf);
    added := added1 + rest;
    RecordConcat((bestOps0, bestSize0), added1, rest);
  }

  /** The steps of a pass at one depth keep every queue consistent and
      add only children consistent at their depths. */
  lemma {:induction false} WidthsKeep(p0: Position, n: nat, beamDepth: nat, beam: seq<seq<GameState>>, depth: nat,
                                      k: nat, w: nat, shuffle: (nat, seq<nat>) -> seq<nat>, seen: seq<GameState>,
                                      scoreOf: (int, bool, nat) -> int)
    requires IsGrid(p0.board, 3 * n) && InBounds(n, p0.empty) && Shuffles(shuffle)
    requires BeamOk(p0, n, beam, beamDepth, scoreOf) && AllSeen(p0, n, seen, beamDepth, scoreOf) && depth < beamDepth
    ensures BeamOk(p0, n, Widths(n, beam, depth, k, w, shuffle, scoreOf).0, beamDepth, scoreOf)
    ensures AllSeen(p0, n, seen + Widths(n, beam, depth, k, w, shuffle, scoreOf).1, beamDepth, scoreOf)
    decreases BeamWidth - w
  {
    if w >= BeamWidth || beam[depth] == [] {
      assert seen + [] == seen;
    } else {
      var e := Expansion(n, beam, depth, k, shuffle, scoreOf);
      ExpansionKeeps(p0, n, beamDepth, beam, depth, k, shuffle, scoreOf);
      SeenAppend(p0, n, seen, beamDepth, e.1, depth + 1, scoreOf);
      WidthsKeep(p0, n, beamDepth, e.0, depth, k + 1, w + 1, shuffle, seen + e.1, scoreOf);
      AppendAssoc(seen, e.1, Widths(n, e.0, depth, k + 1, w + 1, shuffle, scoreOf).1);
    }
  }

  /** A pass from depth `depth` on keeps every queue consistent and adds
      only children consistent at their depths. */
  lemma {:induction false} DepthsKeep(p0: Position, n: nat, beamDepth: nat, beam: seq<seq<GameState>>, depth: nat,
                                      k: nat, shuffle: (nat, seq<nat>) -> seq<nat>, seen: seq<GameState>,
                                      scoreOf: (int, bool, nat) -> int)
    requires IsGrid(p0.board, 3 * n) && InBounds(n, p0.empty) && Shuffles(shuffle)
    requires BeamOk(p0, n, beam, beamDepth, scoreOf) && AllSeen(p0, n, seen, beamDepth, scoreOf)
    ensures BeamOk(p0, n, Depths(n, beamDepth, beam, depth, k, shuffle, scoreOf).0, beamDepth, scoreOf)
    ensures AllSeen(p0, n, seen + Depths(n, beamDepth, beam, depth, k, shuffle, scoreOf).1, beamDepth, scoreOf)
    decreases beamDepth - depth
  {
    if depth >= beamDepth {
      assert seen + [] == seen;
    } else {
      var r1 := Widths(n, beam, depth, k, 0, shuffle, scoreOf);
      WidthsKeep(p0, n, beamDepth, beam, depth, k, 0, shuffle, seen, scoreOf);
      DepthsKeep(p0, n, beamDepth, r1.0, depth + 1, r1.2, shuffle, seen + r1.1, scoreOf);
      AppendAssoc(seen, r1.1, Depths(n, beamDepth, r1.0, depth + 1, r1.2, shuffle, scoreOf).1);
    }
  }

  /** The passes keep every queue consistent and add only children
      consistent at their depths. */
  lemma {:induction false} PassesKeep(p0: Position, n: nat, beamNumber: nat, beamDepth: nat,
                                      beam: seq<seq<GameState>>, pass: nat, k: nat,
                                      shuffle: (nat, seq<nat>) -> seq<nat>, seen: seq<GameState>,
                                      scoreOf: (int, bool, nat) -> int)
    requires IsGrid(p0.board, 3 * n) && InBounds(n, p0.empty) && Shuffles(shuffle)
    requires BeamOk(p0, n, beam, beamDepth, scoreOf) && AllSeen(p0, n, seen, beamDepth, scoreOf)
    ensures AllSeen(p0, n, seen + Passes(n, beamNumber, beamDepth, beam, pass, k, shuffle, scoreOf), beamDepth, scoreOf)
    decreases beamNumber - pass
  {
    if pass >= beamNumber {
      assert seen + [] == seen;
    } else {
      var r := Depths(n, beamDepth, beam, 0, k, shuffle, scoreOf);
      DepthsKeep(p0, n, beamDepth, beam, 0, k, shuffle, seen, scoreOf);
      PassesKeep(p0, n, beamNumber, beamDepth, r.0, pass + 1, r.2, shuffle, seen + r.1, scoreOf);
      AppendAssoc(seen, r.1, Passes(n, beamNumber, beamDepth, r.0, pass + 1, r.2, shuffle, scoreOf));
    }
  }

  /** A prefix of a run of seen states is a run of seen states. */
  lemma AllSeenPrefix(p0: Position, n: nat, seen: seq<GameState>, beamDepth: nat, m: nat, scoreOf: (int, bool, nat) -> int)
    requires IsGrid(p0.board, 3 * n) && InBounds(n, p0.empty)
    requires AllSeen(p0, n, seen, beamDepth, scoreOf) && m <= |seen|
    ensures AllSeen(p0, n, seen[..m], beamDepth, scoreOf)
  {
    forall k | 0 <= k < m
      ensures seen[..m][k] == seen[k]
    {
    }
  }

  /** A non-empty sequence is its front and its last element. */
  lemma SplitLast<T>(s: seq<T>)
    requires s != []
    ensures s == s[..|s| - 1] + [s[|s| - 1]]
  {
  }

  /** Each state of a run of seen states is consistent at its own depth,
      between one and `beamDepth`. */
  lemma AllSeenAt(p0: Position, n: nat, seen: seq<GameState>, beamDepth: nat, k: nat, scoreOf: (int, bool, nat) -> int)
    requires IsGrid(p0.board, 3 * n) && InBounds(n, p0.empty)
    requires AllSeen(p0, n, seen, beamDepth, scoreOf) && k < |seen|
    ensures 1 <= |seen[k].operationList| <= beamDepth
    ensures Consistent(p0, n, seen[k], |seen[k].operationList|, scoreOf)
  {
  }

  /** The record folded from the empty record over the loop-free states
      of a run of consistent states keeps the record invariant. */
  lemma {:induction false} RecordOk(p0: Position, n: nat, seen: seq<GameState>, beamDepth: nat,
                                    scoreOf: (int, bool, nat) -> int)
    requires IsGrid(p0.board, 3 * n) && InBounds(n, p0.empty)
    requires AllSeen(p0, n, seen, beamDepth, scoreOf)
    ensures BestOk(p0, n, Best(([], 0), LoopFree(seen)).0, Best(([], 0), LoopFree(seen)).1, beamDepth)
    decreases |seen|
  {
    if seen != [] {
      var front, c := seen[..|seen| - 1], seen[|seen| - 1];
      SplitLast(seen);
      AllSeenPrefix(p0, n, seen, beamDepth, |seen| - 1, scoreOf);
      AllSeenAt(p0, n, seen, beamDepth, |seen| - 1, scoreOf);
      RecordOk(p0, n, front, beamDepth, scoreOf);
      RecordStep(([], 0), front, c);
      var b := Best(([], 0), LoopFree(front));
      BestAfterUpdate(p0, n, b.0, b.1, beamDepth, |c.operationList|, c, scoreOf);
    }
  }

  /** The start state is consistent at depth zero, so the starting queues
      are consistent. */
  lemma QueuesOk(p0: Position, n: nat, beamDepth: nat, scoreOf: (int, bool, nat) -> int)
    requires IsGrid(p0.board, 3 * n) && InBounds(n, p0.empty)
    ensures BeamOk(p0, n, Queues(p0, n, beamDepth), beamDepth, scoreOf)
    ensures Shaped(n, beamDepth, Queues(p0, n, beamDepth))
  {
    var q := Queues(p0, n, beamDepth);
    assert q[0] == [Initial(p0, n)];
    assert forall d :: 1 <= d < |q| ==> q[d] == [];
  }

  /** Every child the search produces is consistent at its depth. */
  lemma SearchKeeps(p0: Position, n: nat, t: nat, shuffle: (nat, seq<nat>) -> seq<nat>,
                    scoreOf: (int, bool, nat) -> int)
    requires IsGrid(p0.board, 3 * n) && InBounds(n, p0.empty) && 6 <= n <= 10 && Shuffles(shuffle)
    ensures AllSeen(p0, n, Search(p0, n, t, shuffle, scoreOf), BeamDepth(n, t).value, scoreOf)
  {
    var beamNumber, beamDepth := BeamNumber(n).value, BeamDepth(n, t).value;
    var q := Queues(p0, n, beamDepth);
    QueuesOk(p0, n, beamDepth, scoreOf);
    PassesKeep(p0, n, beamNumber, beamDepth, q, 0, 0, shuffle, [], scoreOf);
    assert [] + Passes(n, beamNumber, beamDepth, q, 0, 0, shuffle, scoreOf) == Search(p0, n, t, shuffle, scoreOf);
  }

  /** The search begins by expanding the start state at depth zero, so
      every child of the start is among the children it produces. */
  lemma SearchSeesStart(p0: Position, n: nat, t: nat, shuffle: (nat, seq<nat>) -> seq<nat>,
                        scoreOf: (int, bool, nat) -> int)
    requires IsGrid(p0.board, 3 * n) && InBounds(n, p0.empty) && 6 <= n <= 10
    requires Shuffles(shuffle) && BeamDepth(n, t).value >= 1
    ensures StartSeen(p0, n, Search(p0, n, t, shuffle, scoreOf))
  {
    var beamNumber, beamDepth := BeamNumber(n).value, BeamDepth(n, t).value;
    var q := Queues(p0, n, beamDepth);
    var init := Initial(p0, n);
    assert q[0] == [init];
    var order := shuffle(0, LegalActions([], p0.empty, n));
    var e := Expansion(n, q, 0, 0, shuffle, scoreOf);
    assert e.1 == Kids(init, order, scoreOf);
    var w := Widths(n, e.0, 0, 1, 1, shuffle, scoreOf);
    assert Widths(n, q, 0, 0, 0, shuffle, scoreOf) == (w.0, e.1 + w.1, w.2);
    var d := Depths(n, beamDepth, w.0, 1, w.2, shuffle, scoreOf);
    assert Depths(n, beamDepth, q, 0, 0, shuffle, scoreOf) == (d.0, (e.1 + w.1) + d.1, d.2);
    var rest := Passes(n, beamNumber, beamDepth, d.0, 1, d.2, shuffle, scoreOf);
    var all := Search(p0, n, t, shuffle, scoreOf);
    assert all == ((e.1 + w.1) + d.1) + rest;
    forall a | a in LegalActions([], p0.empty, n)
      ensures exists k :: 0 <= k < |all| && all[k].operationList == [Letter(a)]
    {
      assert a in multiset(order);
      var j :| 0 <= j < |order| && order[j] == a;
      assert all[j] == e.1[j];
      KidsMoves(init, order, j, scoreOf);
    }
  }

  /** The search. `shuffle(k, xs)` is the order of the `k`-th shuffle; it
      is a permutation of `xs`. The result is the recorded move string and
      its tree size: empty with size zero when no loop-free child was
      ever seen, otherwise a legal move string of at most `beam_depth`
      (so at most `t`) letters reaching a loop-free largest tree of that
      size. `seen` lists every child produced, in order, and is the
      reference run `Search`: the record is the largest loop-free one, the
      first on a tie, and the children of the start position are all among
      them. */
  method ChokudaiSearch(p0: Position, n: nat, t: nat, shuffle: (nat, seq<nat>) -> seq<nat>, scoreOf: (int, bool, nat) -> int)
    returns (bestOps: seq<char>, bestSize: int, ghost seen: seq<GameState>)
    requires IsGrid(p0.board, 3 * n) && InBounds(n, p0.empty) && 6 <= n <= 10
    requires Shuffles(shuffle)
    ensures bestSize >= 0
    ensures bestOps == [] <==> bestSize == 0
    ensures bestOps != [] ==> GoodRecord(p0, n, bestOps, bestSize) && |bestOps| <= BeamDepth(n, t).value <= t
    ensures (bestOps, bestSize) == Best(([], 0), LoopFree(seen))
    ensures AllSeen(p0, n, seen, BeamDepth(n, t).value, scoreOf)
    ensures BeamDepth(n, t).value >= 1 ==> StartSeen(p0, n, seen)
    ensures seen == Search(p0, n, t, shuffle, scoreOf)
  {
    var beamNumber := BeamNumber(n).value;
    var beamDepth := BeamDepth(n, t).value;
    var init := Initial(p0, n);
    var beam: seq<seq<GameState>> := [[init]];
    for i := 0 to beamDepth
      invariant 1 <= |beam| && beam[0] == [init]
      invariant forall d :: 1 <= d < |beam| ==> beam[d] == []
      invariant |beam| == 1 + i
    {
      beam := beam + [[]];
    }
    assert beam == Queues(p0, n, beamDepth);
    QueuesOk(p0, n, beamDepth, scoreOf);
    bestOps, bestSize, seen := RunPasses(n, beamNumber, beamDepth, beam, 0, shuffle, 0, [], 0, scoreOf);
    SearchKeeps(p0, n, t, shuffle, scoreOf);
    RecordOk(p0, n, seen, beamDepth, scoreOf);
    if beamDepth >= 1 {
      SearchSeesStart(p0, n, t, shuffle, scoreOf);
    }
  }
}

=== FILE: climb.dfy ===
/** The trial-and-undo turn shared by the two hill climbers: candidate
    directions are tried in a given order; each in-range one slides its
    tile into the blank and is scored; the first that scores more than the
    current tree, or the last candidate, is kept; every other trial is
    undone by sliding the tile back. */
module Climb {
  import opened Grid
  import opened Blocks
  import opened TreeSize
  import opened LoopDfs
  import opened Moves
  import opened Record

  /** The score of a board measured at the centre of tile `c`: zero when
      the loop check is on and finds a loop there, otherwise the tree
      size from there. */
  ghost function Eval(b: Board, n: nat, c: Cell, checkLoop: bool): int
    requires IsGrid(b, 3 * n) && InBounds(n, c)
  {
    if checkLoop && HasLoop(b, 3 * n, Centre(c)) then 0 else TreeSizeFrom(b, 3 * n, Centre(c))
  }

  /** The score of the trial of direction `d` from the blank at `e`: the
      tile that slid in is measured. */
  ghost function TrialSize(b: Board, n: nat, e: Cell, d: nat, checkLoop: bool): int
    requires IsGrid(b, 3 * n) && InBounds(n, e) && d < 4 && InBounds(n, Step(e, d))
  {
    Eval(Slid(b, n, e, Step(e, d)), n, e, checkLoop)
  }

  /** The scoring of a trial: with the loop check on, a loop gives zero
      and the traversal is skipped. */
  method Evaluate(b: Board, n: nat, c: Cell, checkLoop: bool) returns (size: int)
    requires IsGrid(b, 3 * n) && InBounds(n, c)
    ensures size == Eval(b, n, c, checkLoop)
    ensures checkLoop && HasLoop(b, 3 * n, Centre(c)) ==> size == 0
    ensures !(checkLoop && HasLoop(b, 3 * n, Centre(c))) ==> size >= 1
  {
    if checkLoop && HasLoop(b, 3 * n, Centre(c)) {
      size := 0;
    } else {
      size := ComputeTreeSizeByBfs(Centre(c), n, b);
    }
  }

  /** The trial of direction `d`: the slide, then the score of the tile
      that slid in. */
  method Trial(b: Board, n: nat, e: Cell, d: nat, checkLoop: bool) returns (tried: Board, size: int)
    requires IsGrid(b, 3 * n) && InBounds(n, e) && d < 4 && InBounds(n, Step(e, d))
    ensures tried == Slid(b, n, e, Step(e, d)) && IsGrid(tried, 3 * n)
    ensures size == TrialSize(b, n, e, d, checkLoop)
  {
    tried := MoveBlock(b, n, e, Step(e, d));
    size := Evaluate(tried, n, e, checkLoop);
  }

  /** The undo of a trial: the tile slides back from `e` to `next`. It
      restores the board the trial started from when that board had an
      all-wall block at `e`. */
  method Undo(b: Board, tried: Board, n: nat, e: Cell, next: Cell) returns (r: Board)
    requires IsGrid(b, 3 * n) && InBounds(n, e) && InBounds(n, next) && e != next
    requires tried == Slid(b, n, e, next)
    ensures IsGrid(r, 3 * n)
    ensures r == Slid(tried, n, next, e)
    ensures AllWall(b, e) ==> r == b
  {
    r := MoveBlock(tried, n, next, e);
    if AllWall(b, e) {
      SlideUndo(b, n, e, next);
    }
  }

  /** The candidate at position `i` counts as the last one: by position,
      or by comparing its direction with the last direction. */
  predicate IsLast(order: seq<nat>, i: nat, lastByIndex: bool)
    requires i < |order|
  {
    if lastByIndex then i == |order| - 1 else order[i] == order[|order| - 1]
  }

  /** One turn. `idx` is the position in `order` of the kept direction, or
      `|order|` when none is kept (the last candidate was out of range);
      `size` is the new current score. When the blank's block is all
      walls, each undo restores the board, so the result is the single
      kept slide and every earlier in-range candidate scored no more than
      `prevSize`. */
  method Turn(b0: Board, n: nat, e: Cell, prevSize: int, order: seq<nat>, checkLoop: bool, lastByIndex: bool)
    returns (b: Board, idx: nat, size: int)
    requires IsGrid(b0, 3 * n) && InBounds(n, e)
    requires forall k :: 0 <= k < |order| ==> order[k] < 4
    ensures IsGrid(b, 3 * n)
    ensures idx <= |order|
    ensures idx < |order| ==> InBounds(n, Step(e, order[idx]))
    ensures idx < |order| ==> size > prevSize || IsLast(order, idx, lastByIndex)
    ensures idx == |order| ==> size == prevSize
    ensures idx == |order| && |order| > 0 ==> !InBounds(n, Step(e, order[|order| - 1]))
    ensures AllWall(b0, e) && idx < |order| ==>
      b == Slid(b0, n, e, Step(e, order[idx])) && size == TrialSize(b0, n, e, order[idx], checkLoop)
    ensures AllWall(b0, e) && idx == |order| ==> b == b0
    ensures Rejected(b0, n, e, prevSize, order, checkLoop, idx)
  {
    b, idx, size := b0, |order|, prevSize;
    for i := 0 to |order|
      invariant IsGrid(b, 3 * n)
      invariant AllWall(b0, e) ==> b == b0
      invariant Rejected(b0, n, e, prevSize, order, checkLoop, i)
      invariant i > 0 && i == |order| ==> !InBounds(n, Step(e, order[|order| - 1]))
      invariant idx == |order| && size == prevSize
    {
      var dir := order[i];
      var next := Step(e, dir);
      if !InBounds(n, next) {
        RejectedStep(b0, n, e, prevSize, order, checkLoop, i);
        continue;
      }
      var tried, nextSize := Trial(b, n, e, dir, checkLoop);
      if nextSize > prevSize || IsLast(order, i, lastByIndex) {
        b, idx, size := tried, i, nextSize;
        return;
      }
      b := Undo(b, tried, n, e, next);
      RejectedStep(b0, n, e, prevSize, order, checkLoop, i);
    }
  }

  /** With the blank's block all walls, every in-range candidate before
      position `i` scored no more than `prevSize`. */
  ghost predicate Rejected(b0: Board, n: nat, e: Cell, prevSize: int, order: seq<nat>, checkLoop: bool, i: nat)
    requires IsGrid(b0, 3 * n) && InBounds(n, e)
    requires forall k :: 0 <= k < |order| ==> order[k] < 4
  {
    AllWall(b0, e) ==> forall j :: 0 <= j < i && j < |order| && InBounds(n, Step(e, order[j])) ==>
      TrialSize(b0, n, e, order[j], checkLoop) <= prevSize
  }

  /** Passing over candidate `i` without keeping it extends the rejected
      prefix. */
  lemma RejectedStep(b0: Board, n: nat, e: Cell, prevSize: int, order: seq<nat>, checkLoop: bool, i: nat)
    requires IsGrid(b0, 3 * n) && InBounds(n, e)
    requires forall k :: 0 <= k < |order| ==> order[k] < 4
    requires i < |order| && Rejected(b0, n, e, prevSize, order, checkLoop, i)
    requires AllWall(b0, e) && InBounds(n, Step(e, order[i])) ==> TrialSize(b0, n, e, order[i], checkLoop) <= prevSize
    ensures Rejected(b0, n, e, prevSize, order, checkLoop, i + 1)
  {
  }

  /** A kept slide leaves the new blank's block all walls. */
  lemma KeptSlideWalled(b0: Board, n: nat, e: Cell, d: nat)
    requires IsGrid(b0, 3 * n) && InBounds(n, e) && d < 4 && InBounds(n, Step(e, d))
    ensures AllWall(Slid(b0, n, e, Step(e, d)), Step(e, d))
  {
    SlidBlocks(b0, n, e, Step(e, d));
  }

  /** The kept slide is the move of the replay, and the tile it measured
      sits where the blank was before the move. */
  lemma KeptSlideIsMove(p0: Position, n: nat, ops: seq<char>, q: Position, d: nat)
    requires IsGrid(p0.board, 3 * n) && InBounds(n, p0.empty)
    requires Replay(p0, n, ops) == Some(q) && d < 4 && InBounds(n, Step(q.empty, d))
    ensures var s := ops + [Letter(d)];
      && Replay(p0, n, s) == Some(Position(Slid(q.board, n, q.empty, Step(q.empty, d)), Step(q.empty, d)))
      && DirOf(s[|s| - 1]) == d
      && PrevEmpty(Step(q.empty, d), s) == q.empty
  {
    ReplayAppend(p0, n, ops, q, d);
    LetterRoundTrip(d);
    ReverseReturns(q.empty, d);
  }

  /** When the candidates are distinct, comparing a candidate with the last
      one by value is the same as asking whether it is the last one. */
  lemma LastByValue(order: seq<nat>, i: nat)
    requires i < |order|
    requires forall a, c :: 0 <= a < c < |order| ==> order[a] != order[c]
    ensures IsLast(order, i, false) <==> IsLast(order, i, true)
  {
  }

  /** Within an epoch, with the blank's block all walls: the moves `ops`
      replay from `p0` to `pos`, the blank's block is still all walls, and
      `prevSize` is the score of the tile moved last (of the blank when
      nothing has moved). */
  ghost predicate Walked(p0: Position, n: nat, ops: seq<char>, pos: Position, prevSize: int, checkLoop: bool)
    requires IsGrid(p0.board, 3 * n) && InBounds(n, p0.empty)
  {
    && Replay(p0, n, ops) == Some(pos)
    && AllWall(pos.board, pos.empty)
    && (ops == [] ==> prevSize == TreeSizeFrom(pos.board, 3 * n, Centre(pos.empty)))
    && (ops != [] ==> DirOf(ops[|ops| - 1]) < 4 && prevSize == Eval(pos.board, n, PrevEmpty(pos.empty, ops), checkLoop))
  }

  /** Keeping a trial extends the walk by its move. */
  lemma WalkedAfterKeep(p0: Position, n: nat, ops: seq<char>, pos: Position, prevSize: int, checkLoop: bool,
                        d: nat, b: Board, size: int)
    requires IsGrid(p0.board, 3 * n) && InBounds(n, p0.empty)
    requires IsGrid(pos.board, 3 * n) && InBounds(n, pos.empty)
    requires Walked(p0, n, ops, pos, prevSize, checkLoop)
    requires d < 4 && InBounds(n, Step(pos.empty, d))
    requires b == Slid(pos.board, n, pos.empty, Step(pos.empty, d))
    requires size == TrialSize(pos.board, n, pos.empty, d, checkLoop)
    ensures Walked(p0, n, ops + [Letter(d)], Position(b, Step(pos.empty, d)), size, checkLoop)
  {
    KeptSlideIsMove(p0, n, ops, pos, d);
    KeptSlideWalled(pos.board, n, pos.empty, d);
  }

  /** A scored move string: it replays from `p0`, and the tile it moved
      last scores `size`. */
  ghost predicate Scored(p0: Position, n: nat, ops: seq<char>, size: int, checkLoop: bool)
    requires IsGrid(p0.board, 3 * n) && InBounds(n, p0.empty)
  {
    && ops != [] && DirOf(ops[|ops| - 1]) < 4
    && Replay(p0, n, ops).Some?
    && var q := Replay(p0, n, ops).value;
      size == Eval(q.board, n, PrevEmpty(q.empty, ops), checkLoop)
  }

  /** A recorded move string: scored, at least one. */
  ghost predicate GoodRecord(p0: Position, n: nat, ops: seq<char>, size: int, checkLoop: bool)
    requires IsGrid(p0.board, 3 * n) && InBounds(n, p0.empty)
  {
    Scored(p0, n, ops, size, checkLoop) && size >= 1
  }

  /** The record invariant: no record with size zero, or a record of at
      most `t` moves, good whenever the start blank is walled. */
  ghost predicate BestOk(p0: Position, n: nat, ops: seq<char>, size: int, t: nat, checkLoop: bool)
    requires IsGrid(p0.board, 3 * n) && InBounds(n, p0.empty)
  {
    && size >= 0 && (ops == [] <==> size == 0) && |ops| <= t
    && (AllWall(p0.board, p0.empty) && ops != [] ==> GoodRecord(p0, n, ops, size, checkLoop))
  }

  /** Offering the state after a kept trial to the record keeps the record
      invariant. */
  lemma RecordAfterKeep(p0: Position, n: nat, t: nat, ops: seq<char>, pos: Position, size: int, checkLoop: bool,
                        bestOps: seq<char>, bestSize: int)
    requires IsGrid(p0.board, 3 * n) && InBounds(n, p0.empty)
    requires BestOk(p0, n, bestOps, bestSize, t, checkLoop)
    requires AllWall(p0.board, p0.empty) ==> Walked(p0, n, ops, pos, size, checkLoop)
    requires ops != [] && |ops| <= t
    ensures var (o, z) := Offer(bestOps, bestSize, ops, size); BestOk(p0, n, o, z, t, checkLoop)
  {
    if bestSize < size && AllWall(p0.board, p0.empty) {
      assert Replay(p0, n, ops).value == pos;
    }
  }
}

=== FILE: greedy.dfy ===
/** The fast greedy solver: one board, `t` turns; a turn tries all four
    directions in shuffled order and keeps the first that grows the tree,
    or the fourth. There is no loop check, and a move may undo the one
    before it. The longest tree seen is the answer. */
module Greedy {
  import opened Grid
  import opened Blocks
  import opened TreeSize
  import opened Moves
  import opened Build
  import opened Climb
  import opened Record

  /** The random shuffle of `[0, 1, 2, 3]`, as an oracle: any permutation. */
  ghost predicate IsShuffle(shuffle: nat -> seq<nat>) {
    forall k: nat :: multiset(shuffle(k)) == multiset([0, 1, 2, 3])
  }

  /** A shuffled order is the four directions, each once. */
  lemma ShuffledDirections(order: seq<nat>)
    requires multiset(order) == multiset([0, 1, 2, 3])
    ensures |order| == 4
    ensures forall j :: 0 <= j < |order| ==> order[j] < 4
    ensures forall a, c :: 0 <= a < c < |order| ==> order[a] != order[c]
  {
    assert |order| == |multiset(order)|;
    forall j | 0 <= j < |order|
      ensures order[j] < 4
    {
      assert order[j] in multiset(order);
    }
    forall a, c | 0 <= a < c < |order|
      ensures order[a] != order[c]
    {
      var m := multiset(order);
      var pre := order[..c];
      assert pre[a] == order[a];
      assert multiset(pre)[order[a]] >= 1;
      assert order == pre + [order[c]] + order[c + 1..];
      assert m[order[c]] >= multiset(pre)[order[c]] + 1;
      assert m[order[a]] <= 1 && m[order[c]] <= 1;
    }
  }

  /** The state of the run: the blank is on the board and, with the start
      blank walled, the kept moves replay from `p0` to `pos`. */
  ghost predicate RunOk(p0: Position, n: nat, pos: Position, ops: seq<char>, prevSize: int)
    requires IsGrid(p0.board, 3 * n) && InBounds(n, p0.empty)
  {
    && IsGrid(pos.board, 3 * n) && InBounds(n, pos.empty)
    && (AllWall(p0.board, p0.empty) ==> Walked(p0, n, ops, pos, prevSize, false))
  }

  /** One turn: the four directions in the order `order`, the fourth kept
      when nothing grows the tree. `idx` is the position of the kept
      direction, or `4` when none is kept; a kept move is appended and
      offered to the record, and otherwise nothing changes but the board,
      which the undos restore when the blank's block is all walls. */
  method GreedyTurn(p0: Position, n: nat, t: nat, order: seq<nat>, pos: Position, ops: seq<char>,
                    prevSize: int, bestOps0: seq<char>, bestSize0: int)
    returns (pos': Position, ops': seq<char>, prevSize': int, bestOps: seq<char>, bestSize: int, idx: nat)
    requires IsGrid(p0.board, 3 * n) && InBounds(n, p0.empty)
    requires RunOk(p0, n, pos, ops, prevSize) && |ops| < t
    requires multiset(order) == multiset([0, 1, 2, 3]) && forall k :: 0 <= k < |order| ==> order[k] < 4
    requires BestOk(p0, n, bestOps0, bestSize0, t, false)
    ensures RunOk(p0, n, pos', ops', prevSize')
    ensures |ops'| <= |ops| + 1
    ensures BestOk(p0, n, bestOps, bestSize, t, false)
    ensures bestSize >= bestSize0
    ensures idx <= |order| == 4
    ensures idx < 4 ==>
      && ops' == ops + [Letter(order[idx])]
      && (prevSize' > prevSize || idx == 3)
      && (bestOps, bestSize) == Offer(bestOps0, bestSize0, ops', prevSize')
      && (AllWall(p0.board, p0.empty) ==> Scored(p0, n, ops', prevSize', false))
    ensures idx == 4 ==> ops' == ops && prevSize' == prevSize && bestOps == bestOps0 && bestSize == bestSize0
    ensures idx == 4 ==> !InBounds(n, Step(pos.empty, order[3]))
    ensures Rejected(pos.board, n, pos.empty, prevSize, order, false, idx)
  {
    ShuffledDirections(order);
    bestOps, bestSize := bestOps0, bestSize0;
    var b, size;
    b, idx, size := Turn(pos.board, n, pos.empty, prevSize, order, false, true);
    if idx < |order| {
      var d := order[idx];
      ops' := ops + [Letter(d)];
      pos' := Position(b, Step(pos.empty, d));
      prevSize' := size;
      RunAfterKeep(p0, n, pos, ops, prevSize, d, b, size);
      RecordAfterKeep(p0, n, t, ops', pos', size, false, bestOps, bestSize);
      var record := Offer(bestOps, bestSize, ops', size);
      bestOps, bestSize := record.0, record.1;
    } else {
      pos', ops', prevSize' := Position(b, pos.empty), ops, prevSize;
    }
  }

  /** A kept move extends the run state. */
  lemma RunAfterKeep(p0: Position, n: nat, pos: Position, ops: seq<char>, prevSize: int, d: nat, b: Board, size: int)
    requires IsGrid(p0.board, 3 * n) && InBounds(n, p0.empty)
    requires RunOk(p0, n, pos, ops, prevSize)
    requires d < 4 && InBounds(n, Step(pos.empty, d)) && IsGrid(b, 3 * n)
    requires AllWall(pos.board, pos.empty) ==>
      b == Slid(pos.board, n, pos.empty, Step(pos.empty, d)) && size == TrialSize(pos.board, n, pos.empty, d, false)
    ensures RunOk(p0, n, Position(b, Step(pos.empty, d)), ops + [Letter(d)], size)
    ensures AllWall(p0.board, p0.empty) ==> Walked(p0, n, ops + [Letter(d)], Position(b, Step(pos.empty, d)), size, false)
  {
    if AllWall(p0.board, p0.empty) {
      WalkedAfterKeep(p0, n, ops, pos, prevSize, false, d, b, size);
    }
  }

  /** The solver, on an input of at least one tile. `walk` is the kept
      moves of the run and `log` lists, turn by turn, each kept move string
      with its size: the prefixes of `walk`, each scored when the input has
      a `0` tile. The record is what offering the log in order to the empty
      record leaves: by `BestIsMax`, the first string of the largest size,
      or the empty record when no kept move scored above zero. */
  method Solve(board: Board, n: nat, t: nat, shuffle: nat -> seq<nat>)
    returns (bestOps: seq<char>, bestSize: int, ghost walk: seq<char>, ghost log: seq<(seq<char>, int)>)
    requires IsGrid(board, n) && AllHex(board, n) && n >= 1
    requires IsShuffle(shuffle)
    ensures bestSize >= 0 && (bestOps == [] <==> bestSize == 0) && |bestOps| <= t
    ensures HasZero(board, n) && bestOps != [] ==> GoodRecord(BuildPosition(board, n).value, n, bestOps, bestSize, false)
    ensures (bestOps, bestSize) == Best(([], 0), log)
    ensures Prefixes(walk, log) && |walk| <= t
    ensures HasZero(board, n) ==>
      forall j :: 0 <= j < |log| ==> Scored(BuildPosition(board, n).value, n, log[j].0, log[j].1, false)
  {
    var p0 := BuildPosition(board, n).value;
    if HasZero(board, n) {
      BlankIsWalled(board, n);
    }
    var pos := p0;
    var prevSize := ComputeTreeSizeByBfs(Centre(p0.empty), n, p0.board);
    var ops: seq<char> := [];
    bestOps, bestSize := [], 0;
    log := [];
    var turns := 0;
    while turns < t
      invariant turns <= t
      invariant RunOk(p0, n, pos, ops, prevSize) && |ops| <= turns
      invariant BestOk(p0, n, bestOps, bestSize, t, false)
      invariant (bestOps, bestSize) == Best(([], 0), log) && Prefixes(ops, log)
      invariant AllScored(p0, n, log)
    {
      turns := turns + 1;
      var order := shuffle(turns);
      ShuffledDirections(order);
      pos, ops, prevSize, bestOps, bestSize, log := LoggedTurn(p0, n, t, order, pos, ops, prevSize, bestOps, bestSize, log);
    }
    walk := ops;
  }

  /** A turn of the run, with its kept move string and size, if any,
      appended to the log of the run. */
  method LoggedTurn(p0: Position, n: nat, t: nat, order: seq<nat>, pos: Position, ops: seq<char>,
                    prevSize: int, bestOps0: seq<char>, bestSize0: int, ghost log0: seq<(seq<char>, int)>)
    returns (pos': Position, ops': seq<char>, prevSize': int, bestOps: seq<char>, bestSize: int,
             ghost log: seq<(seq<char>, int)>)
    requires IsGrid(p0.board, 3 * n) && InBounds(n, p0.empty)
    requires RunOk(p0, n, pos, ops, prevSize) && |ops| < t
    requires multiset(order) == multiset([0, 1, 2, 3]) && forall k :: 0 <= k < |order| ==> order[k] < 4
    requires BestOk(p0, n, bestOps0, bestSize0, t, false)
    requires (bestOps0, bestSize0) == Best(([], 0), log0) && Prefixes(ops, log0) && AllScored(p0, n, log0)
    ensures RunOk(p0, n, pos', ops', prevSize') && |ops'| <= |ops| + 1
    ensures BestOk(p0, n, bestOps, bestSize, t, false)
    ensures (bestOps, bestSize) == Best(([], 0), log) && Prefixes(ops', log) && AllScored(p0, n, log)
  {
    var idx;
    pos', ops', prevSize', bestOps, bestSize, idx := GreedyTurn(p0, n, t, order, pos, ops, prevSize, bestOps0, bestSize0);
    log := log0;
    if idx < 4 {
      PrefixesStep(ops, log0, Letter(order[idx]), prevSize');
      BestAppend(([], 0), log0, (ops', prevSize'));
      AllScoredStep(p0, n, log0, (ops', prevSize'));
      log := log0 + [(ops', prevSize')];
    }
  }

  /** With the start blank walled, every entry of a log is scored. */
  ghost predicate AllScored(p0: Position, n: nat, log: seq<(seq<char>, int)>)
    requires IsGrid(p0.board, 3 * n) && InBounds(n, p0.empty)
  {
    AllWall(p0.board, p0.empty) ==> forall j :: 0 <= j < |log| ==> Scored(p0, n, log[j].0, log[j].1, false)
  }

  /** A scored entry extends a scored log. */
  lemma AllScoredStep(p0: Position, n: nat, log: seq<(seq<char>, int)>, x: (seq<char>, int))
    requires IsGrid(p0.board, 3 * n) && InBounds(n, p0.empty)
    requires AllScored(p0, n, log)
    requires AllWall(p0.board, p0.empty) ==> Scored(p0, n, x.0, x.1, false)
    ensures AllScored(p0, n, log + [x])
  {
    assert forall j :: 0 <= j < |log| ==> (log + [x])[j] == log[j];
  }
}

=== FILE: grid.dfy ===
/** Shared vocabulary of the board model: cells, grids, directions and the
    set lemmas the traversals use for their termination measures. */
module Grid {

  datatype Option<T> = None | Some(value: T)

  /** A cell of a grid as (row, column). In the big board the row is the
      first index, so `b[c.0][c.1]` is the character at `c`. */
  type Cell = (int, int)

  /** A grid of characters, indexed row first. */
  type Board = seq<seq<char>>

  const Wall: char := '#'
  const Road: char := '.'

  /** Direction offsets, indexed 0 = down, 1 = right, 2 = up, 3 = left. */
  const DX: seq<int> := [1, 0, -1, 0]
  const DY: seq<int> := [0, 1, 0, -1]

  /** `b` is a `size` x `size` grid. */
  predicate IsGrid(b: Board, size: nat) {
    |b| == size && forall i :: 0 <= i < |b| ==> |b[i]| == size
  }

  predicate InBounds(size: int, c: Cell) {
    0 <= c.0 < size && 0 <= c.1 < size
  }

  /** The neighbour of `c` in direction `d`. */
  function Step(c: Cell, d: nat): Cell
    requires d < 4
  {
    (c.0 + DX[d], c.1 + DY[d])
  }

  /** `c` is one orthogonal step away from `a`. */
  predicate Adjacent(a: Cell, c: Cell) {
    c == Step(a, 0) || c == Step(a, 1) || c == Step(a, 2) || c == Step(a, 3)
  }

  /** The character at `c`, when `c` lies inside `b`. */
  predicate CharAt(b: Board, c: Cell, ch: char) {
    0 <= c.0 < |b| && 0 <= c.1 < |b[c.0]| && b[c.0][c.1] == ch
  }

  /** `c` lies inside `b` and holds a road character. */
  predicate IsRoad(b: Board, c: Cell) {
    CharAt(b, c, Road)
  }

  /** `c` lies inside `b` and does not hold a wall character. */
  predicate IsPassable(b: Board, c: Cell) {
    0 <= c.0 < |b| && 0 <= c.1 < |b[c.0]| && b[c.0][c.1] != Wall
  }

  /** Every cell of a `size` x `size` grid. */
  function Cells(size: nat): (r: set<Cell>)
    ensures forall c :: c in r <==> InBounds(size, c)
  {
    var r := set i, j | 0 <= i < size && 0 <= j < size :: (i, j);
    assert forall c :: InBounds(size, c) ==> (c.0, c.1) in r;
    r
  }

  /** The centre of a tile block: both coordinates are 1 modulo 3. */
  predicate IsCentre(c: Cell) {
    c.0 % 3 == 1 && c.1 % 3 == 1
  }

  /** The big-board centre of the tile at board position `t`. */
  function Centre(t: Cell): Cell {
    (3 * t.0 + 1, 3 * t.1 + 1)
  }

  /** The big-board cell at offset (k, l) inside the block of tile `t`. */
  function BlockCell(t: Cell, k: int, l: int): Cell {
    (3 * t.0 + k, 3 * t.1 + l)
  }

  /** `c` lies in the 3x3 block of tile `t`. */
  predicate InBlock(t: Cell, c: Cell) {
    3 * t.0 <= c.0 < 3 * t.0 + 3 && 3 * t.1 <= c.1 < 3 * t.1 + 3
  }

  /** The blocks of two different tiles share no cell. */
  lemma BlocksDisjoint(t1: Cell, t2: Cell, c: Cell)
    requires t1 != t2
    ensures !InBlock(t1, c) || !InBlock(t2, c)
  {
    assert t1.0 < t2.0 ==> 3 * t1.0 + 3 <= 3 * t2.0;
    assert t2.0 < t1.0 ==> 3 * t2.0 + 3 <= 3 * t1.0;
    assert t1.1 < t2.1 ==> 3 * t1.1 + 3 <= 3 * t2.1;
    assert t2.1 < t1.1 ==> 3 * t2.1 + 3 <= 3 * t1.1;
  }

  /** Every cell of the block of tile `t` is a wall. */
  predicate AllWall(b: Board, t: Cell) {
    forall k, l :: 0 <= k < 3 && 0 <= l < 3 ==> CharAt(b, BlockCell(t, k, l), Wall)
  }

  lemma SubsetCard<T>(a: set<T>, b: set<T>)
    requires a <= b
    ensures |a| <= |b|
  {
    if a != {} {
      var x :| x in a;
      SubsetCard(a - {x}, b - {x});
    }
  }

  /** Marking an unvisited cell of the domain shrinks the unvisited part. */
  lemma MarkShrinks(dom: set<Cell>, visited: set<Cell>, c: Cell)
    requires c in dom && c !in visited
    ensures |dom - (visited + {c})| < |dom - visited|
  {
    assert dom - visited == (dom - (visited + {c})) + {c};
  }

  /** A larger visited set leaves no more of the domain unvisited. */
  lemma GrowNoLarger(dom: set<Cell>, v: set<Cell>, w: set<Cell>)
    requires v <= w
    ensures |dom - w| <= |dom - v|
  {
    SubsetCard(dom - w, dom - v);
  }
}

=== FILE: heap.dfy ===
/** The priority queues of the searches, as sequences: a pop takes out an
    element whose key is maximal, a push appends. Among equal keys the pop
    takes the earliest pushed. That is one order the documented contract of
    a binary heap allows; a real heap may take another element of the same
    key. */
module Heap {

  /** The position of an element with maximal key. */
  function MaxIndex<T>(h: seq<T>, key: T -> int): (r: nat)
    requires h != []
    ensures r < |h|
    ensures forall k :: 0 <= k < |h| ==> key(h[k]) <= key(h[r])
  {
    if |h| == 1 then 0
    else
      var m := MaxIndex(h[1..], key);
      assert forall k :: 1 <= k < |h| ==> h[k] == h[1..][k - 1];
      if key(h[0]) >= key(h[1..][m]) then 0 else m + 1
  }

  /** `BinaryHeap::pop`: an element with maximal key and the rest. */
  function Pop<T>(h: seq<T>, key: T -> int): (r: (T, seq<T>))
    requires h != []
    ensures multiset(r.1) + multiset{r.0} == multiset(h)
    ensures |r.1| == |h| - 1
    ensures forall x :: x in r.1 ==> key(x) <= key(r.0)
  {
    var m := MaxIndex(h, key);
    assert h == h[..m] + [h[m]] + h[m + 1..];
    (h[m], h[..m] + h[m + 1..])
  }

  /** `BinaryHeap::push`. */
  function Push<T>(h: seq<T>, x: T): (r: seq<T>)
    ensures multiset(r) == multiset(h) + multiset{x}
  {
    h + [x]
  }

  /** A popped element, and every element left, came from the queue. */
  lemma PopMembers<T>(h: seq<T>, key: T -> int)
    requires h != []
    ensures Pop(h, key).0 in h
    ensures forall x :: x in Pop(h, key).1 ==> x in h
  {
    var (top, rest) := Pop(h, key);
    assert top in multiset(h);
    forall x | x in rest
      ensures x in h
    {
      assert x in multiset(rest);
    }
  }

  /** Popping the best element and pushing it back leaves the same
      elements in the queue. */
  lemma PopPushBack<T>(h: seq<T>, key: T -> int)
    requires h != []
    ensures var (top, rest) := Pop(h, key); multiset(Push(rest, top)) == multiset(h)
  {
  }

  /** Pushing onto a queue that grew by `more` since `h` appends to `more`. */
  lemma PushAppend<T>(h: seq<T>, more: seq<T>, x: T)
    ensures Push(h + more, x) == h + (more + [x])
  {
  }

  /** The first `k` pops of a queue, in order, and what is left; fewer
      pops when the queue runs out first. */
  function Drain<T>(h: seq<T>, key: T -> int, k: nat): (r: (seq<T>, seq<T>))
    ensures |r.0| == if k < |h| then k else |h|
    ensures |r.1| == |h| - |r.0|
    decreases k
  {
    if k == 0 then ([], h)
    else
      var p := Drain(h, key, k - 1);
      if p.1 == [] then p
      else
        var x := Pop(p.1, key);
        (p.0 + [x.0], x.1)
  }

  /** One more pop, while the queue lasts. */
  lemma DrainStep<T>(h: seq<T>, key: T -> int, k: nat)
    requires Drain(h, key, k).1 != []
    ensures Drain(h, key, k + 1).0 == Drain(h, key, k).0 + [Pop(Drain(h, key, k).1, key).0]
    ensures Drain(h, key, k + 1).1 == Pop(Drain(h, key, k).1, key).1
  {
  }

  /** Draining only moves elements: the pops and the rest together are
      the queue. */
  lemma {:induction false} DrainPerm<T>(h: seq<T>, key: T -> int, k: nat)
    ensures multiset(Drain(h, key, k).0) + multiset(Drain(h, key, k).1) == multiset(h)
    decreases k
  {
    if k > 0 {
      var p := Drain(h, key, k - 1);
      DrainPerm(h, key, k - 1);
      if p.1 != [] {
        var x := Pop(p.1, key);
        var r := Drain(h, key, k);
        assert r.0 == p.0 + [x.0] && r.1 == x.1;
        calc {
          multiset(r.0) + multiset(r.1);
          multiset(p.0) + multiset{x.0} + multiset(x.1);
          multiset(p.0) + (multiset(x.1) + multiset{x.0});
          multiset(p.0) + multiset(p.1);
        }
      }
    }
  }

  /** The drained elements come out best first, and none left behind is
      better than any of them. */
  lemma {:induction false} DrainOrdered<T>(h: seq<T>, key: T -> int, k: nat)
    ensures forall i, j :: 0 <= i < j < |Drain(h, key, k).0| ==>
      key(Drain(h, key, k).0[j]) <= key(Drain(h, key, k).0[i])
    ensures forall i, x :: 0 <= i < |Drain(h, key, k).0| && x in Drain(h, key, k).1 ==>
      key(x) <= key(Drain(h, key, k).0[i])
    decreases k
  {
    if k > 0 {
      var p := Drain(h, key, k - 1);
      DrainOrdered(h, key, k - 1);
      if p.1 != [] {
        var x := Pop(p.1, key);
        PopMembers(p.1, key);
        var r := p.0 + [x.0];
        assert Drain(h, key, k) == (r, x.1);
        assert forall i :: 0 <= i < |p.0| ==> r[i] == p.0[i];
        assert r[|p.0|] == x.0;
      }
    }
  }

  /** Once the queue is empty, further pops change nothing. */
  lemma {:induction false} DrainStops<T>(h: seq<T>, key: T -> int, k: nat, m: nat)
    requires k <= m && Drain(h, key, k).1 == []
    ensures Drain(h, key, m) == Drain(h, key, k)
    decreases m
  {
    if m > k {
      DrainStops(h, key, k, m - 1);
    }
  }

  /** A sequence is its prefix followed by its suffix. */
  lemma SplitAt<T>(s: seq<T>, i: nat)
    requires i <= |s|
    ensures s == s[..i] + s[i..]
  {
  }
}

=== FILE: hillclimbing.dfy ===
/** The hill-climbing solver: each epoch rebuilds the board and takes `t`
    turns; a turn tries the directions other than the reversal of the last
    move in shuffled order and keeps the first that grows the tree (a loop
    scores zero), or the last one. The longest tree seen across all epochs
    is the answer. */
module HillClimbing {
  import opened Grid
  import opened Blocks
  import opened TreeSize
  import opened Moves
  import opened Build
  import opened Climb
  import opened Record

  /** Epochs per board size; other sizes are outside the contest. */
  function Epochs(n: nat): (r: Option<nat>)
    ensures r.Some? <==> 6 <= n <= 10
    ensures r.Some? ==> 100 <= r.value <= 500
  {
    match n
    case 6 => Some(500)
    case 7 => Some(400)
    case 8 => Some(300)
    case 9 => Some(200)
    case 10 => Some(100)
    case _ => None
  }

  /** Larger boards get fewer epochs. */
  lemma EpochsDecrease(n: nat, m: nat)
    requires 6 <= n < m <= 10
    ensures Epochs(m).value < Epochs(n).value
  {
  }

  /** The random shuffle, as an oracle: any permutation. */
  ghost predicate IsShuffle(shuffle: (nat, seq<nat>) -> seq<nat>) {
    forall k: nat, xs: seq<nat> :: multiset(shuffle(k, xs)) == multiset(xs)
  }

  /** A shuffled candidate list holds only directions that do not undo the
      last move. */
  lemma ShuffledCandidates(shuffle: (nat, seq<nat>) -> seq<nat>, k: nat, last: Option<char>)
    requires IsShuffle(shuffle)
    ensures forall j :: 0 <= j < |shuffle(k, ActionCandidates(last))| ==>
      var d := shuffle(k, ActionCandidates(last))[j];
      d < 4 && last != Some(Letter(Reverse(d)))
  {
    var order := shuffle(k, ActionCandidates(last));
    forall j | 0 <= j < |order|
      ensures order[j] < 4 && last != Some(Letter(Reverse(order[j])))
    {
      assert order[j] in multiset(order);
      assert order[j] in ActionCandidates(last);
    }
  }

  /** The state within an epoch: the blank is on the board, `prevOp` is the
      last kept letter, the kept moves never undo one another, and with the
      start blank walled they replay from `p0` to `pos`. */
  ghost predicate EpochOk(p0: Position, n: nat, pos: Position, ops: seq<char>, prevOp: Option<char>, prevSize: int)
    requires IsGrid(p0.board, 3 * n) && InBounds(n, p0.empty)
  {
    && IsGrid(pos.board, 3 * n) && InBounds(n, pos.empty)
    && prevOp == LastLetter(ops) && NoImmediateReverse(ops)
    && (AllWall(p0.board, p0.empty) ==> Walked(p0, n, ops, pos, prevSize, true))
  }

  /** One turn of an epoch: the candidates other than the reversal of the
      last move, in the order `order`. `idx` is the position of the kept
      candidate, or `|order|` when none is kept; a kept move is appended,
      becomes the last letter and is offered to the record, and otherwise
      nothing changes but the board, which the undos restore when the
      blank's block is all walls. */
  method ClimbTurn(p0: Position, n: nat, t: nat, order: seq<nat>, pos: Position, ops: seq<char>,
                   prevOp: Option<char>, prevSize: int, bestOps0: seq<char>, bestSize0: int)
    returns (pos': Position, ops': seq<char>, prevOp': Option<char>, prevSize': int,
             bestOps: seq<char>, bestSize: int, idx: nat)
    requires IsGrid(p0.board, 3 * n) && InBounds(n, p0.empty)
    requires EpochOk(p0, n, pos, ops, prevOp, prevSize) && |ops| < t
    requires forall j :: 0 <= j < |order| ==> order[j] < 4 && prevOp != Some(Letter(Reverse(order[j])))
    requires BestOk(p0, n, bestOps0, bestSize0, t, true) && NoImmediateReverse(bestOps0)
    ensures EpochOk(p0, n, pos', ops', prevOp', prevSize')
    ensures |ops'| <= |ops| + 1
    ensures BestOk(p0, n, bestOps, bestSize, t, true) && NoImmediateReverse(bestOps)
    ensures bestSize >= bestSize0
    ensures idx <= |order|
    ensures idx < |order| ==>
      && ops' == ops + [Letter(order[idx])] && prevOp' == Some(Letter(order[idx]))
      && (prevSize' > prevSize || IsLast(order, idx, false))
      && (bestOps, bestSize) == Offer(bestOps0, bestSize0, ops', prevSize')
      && (AllWall(p0.board, p0.empty) ==> Scored(p0, n, ops', prevSize', true))
    ensures idx == |order| ==>
      ops' == ops && prevOp' == prevOp && prevSize' == prevSize && bestOps == bestOps0 && bestSize == bestSize0
    ensures idx == |order| && |order| > 0 ==> !InBounds(n, Step(pos.empty, order[|order| - 1]))
    ensures Rejected(pos.board, n, pos.empty, prevSize, order, true, idx)
  {
    bestOps, bestSize := bestOps0, bestSize0;
    var b, size;
    b, idx, size := Turn(pos.board, n, pos.empty, prevSize, order, true, false);
    if idx < |order| {
      var d := order[idx];
      ops' := ops + [Letter(d)];
      prevOp' := Some(Letter(d));
      pos' := Position(b, Step(pos.empty, d));
      prevSize' := size;
      KeepTurn(p0, n, t, pos, ops, prevOp, prevSize, d, b, size, bestOps, bestSize);
      var record := Offer(bestOps, bestSize, ops', size);
      bestOps, bestSize := record.0, record.1;
    } else {
      pos', ops', prevOp', prevSize' := Position(b, pos.empty), ops, prevOp, prevSize;
    }
  }

  /** Keeping the move `d` extends the epoch state, scores the new walk,
      and offering it to the record keeps the record invariant. */
  lemma KeepTurn(p0: Position, n: nat, t: nat, pos: Position, ops: seq<char>, prevOp: Option<char>, prevSize: int,
                 d: nat, b: Board, size: int, bestOps0: seq<char>, bestSize0: int)
    requires IsGrid(p0.board, 3 * n) && InBounds(n, p0.empty)
    requires EpochOk(p0, n, pos, ops, prevOp, prevSize) && |ops| < t
    requires d < 4 && prevOp != Some(Letter(Reverse(d))) && InBounds(n, Step(pos.empty, d)) && IsGrid(b, 3 * n)
    requires AllWall(pos.board, pos.empty) ==>
      b == Slid(pos.board, n, pos.empty, Step(pos.empty, d)) && size == TrialSize(pos.board, n, pos.empty, d, true)
    requires BestOk(p0, n, bestOps0, bestSize0, t, true) && NoImmediateReverse(bestOps0)
    ensures EpochOk(p0, n, Position(b, Step(pos.empty, d)), ops + [Letter(d)], Some(Letter(d)), size)
    ensures AllWall(p0.board, p0.empty) ==> Scored(p0, n, ops + [Letter(d)], size, true)
    ensures var r := Offer(bestOps0, bestSize0, ops + [Letter(d)], size);
      BestOk(p0, n, r.0, r.1, t, true) && NoImmediateReverse(r.0)
  {
    EpochAfterKeep(p0, n, pos, ops, prevOp, prevSize, d, b, size);
    RecordAfterKeep(p0, n, t, ops + [Letter(d)], Position(b, Step(pos.empty, d)), size, true, bestOps0, bestSize0);
  }

  /** A kept move extends the epoch state. */
  lemma EpochAfterKeep(p0: Position, n: nat, pos: Position, ops: seq<char>, prevOp: Option<char>, prevSize: int,
                       d: nat, b: Board, size: int)
    requires IsGrid(p0.board, 3 * n) && InBounds(n, p0.empty)
    requires EpochOk(p0, n, pos, ops, prevOp, prevSize)
    requires d < 4 && prevOp != Some(Letter(Reverse(d))) && InBounds(n, Step(pos.empty, d)) && IsGrid(b, 3 * n)
    requires AllWall(pos.board, pos.empty) ==>
      b == Slid(pos.board, n, pos.empty, Step(pos.empty, d)) && size == TrialSize(pos.board, n, pos.empty, d, true)
    ensures EpochOk(p0, n, Position(b, Step(pos.empty, d)), ops + [Letter(d)], Some(Letter(d)), size)
    ensures AllWall(p0.board, p0.empty) ==> Walked(p0, n, ops + [Letter(d)], Position(b, Step(pos.empty, d)), size, true)
  {
    AppendCandidate(ops, d);
    if AllWall(p0.board, p0.empty) {
      WalkedAfterKeep(p0, n, ops, pos, prevSize, true, d, b, size);
    }
  }

  /** The kept move strings of a run with their sizes: each is one to `t`
      moves long and, with the start blank walled, replays from `p0` to a
      board whose last-moved tile scores its size. */
  ghost predicate Logged(p0: Position, n: nat, t: nat, log: seq<(seq<char>, int)>)
    requires IsGrid(p0.board, 3 * n) && InBounds(n, p0.empty)
  {
    forall j :: 0 <= j < |log| ==>
      1 <= |log[j].0| <= t && (AllWall(p0.board, p0.empty) ==> Scored(p0, n, log[j].0, log[j].1, true))
  }

  /** One epoch from the start position `p0`. `log` lists, turn by turn,
      every kept move string with its size: the prefixes of the epoch's
      walk `ops`. The record `(bestOps, bestSize)` is what offering the log
      in order to the incoming record leaves. The kept moves never undo
      one another and, when the start blank is walled, replay from `p0`. */
  method ClimbEpoch(p0: Position, n: nat, t: nat, shuffle: (nat, seq<nat>) -> seq<nat>, k0: nat,
                    bestOps0: seq<char>, bestSize0: int)
    returns (bestOps: seq<char>, bestSize: int, ops: seq<char>, k: nat, ghost log: seq<(seq<char>, int)>)
    requires IsGrid(p0.board, 3 * n) && InBounds(n, p0.empty)
    requires IsShuffle(shuffle)
    requires BestOk(p0, n, bestOps0, bestSize0, t, true) && NoImmediateReverse(bestOps0)
    ensures BestOk(p0, n, bestOps, bestSize, t, true) && NoImmediateReverse(bestOps)
    ensures bestSize >= bestSize0
    ensures |ops| <= t && NoImmediateReverse(ops)
    ensures AllWall(p0.board, p0.empty) ==> Replay(p0, n, ops).Some?
    ensures (bestOps, bestSize) == Best((bestOps0, bestSize0), log)
    ensures Prefixes(ops, log) && Logged(p0, n, t, log)
  {
    bestOps, bestSize := bestOps0, bestSize0;
    var pos := p0;
    var prevSize := ComputeTreeSizeByBfs(Centre(p0.empty), n, p0.board);
    ops := [];
    var prevOp: Option<char> := None;
    k := k0;
    log := [];
    for turn := 0 to t
      invariant EpochOk(p0, n, pos, ops, prevOp, prevSize) && |ops| <= turn
      invariant BestOk(p0, n, bestOps, bestSize, t, true) && NoImmediateReverse(bestOps)
      invariant bestSize >= bestSize0
      invariant (bestOps, bestSize) == Best((bestOps0, bestSize0), log)
      invariant Prefixes(ops, log) && Logged(p0, n, t, log)
    {
      var order := shuffle(k, ActionCandidates(prevOp));
      ShuffledCandidates(shuffle, k, prevOp);
      k := k + 1;
      ghost var ops0, log0, record0 := ops, log, (bestOps, bestSize);
      var idx;
      pos, ops, prevOp, prevSize, bestOps, bestSize, idx :=
        ClimbTurn(p0, n, t, order, pos, ops, prevOp, prevSize, bestOps, bestSize);
      if idx < |order| {
        PrefixesStep(ops0, log0, Letter(order[idx]), prevSize);
        BestAppend((bestOps0, bestSize0), log0, (ops, prevSize));
        log := log0 + [(ops, prevSize)];
        LoggedStep(p0, n, t, log0, (ops, prevSize));
      }
    }
  }

  /** A scored entry of one to `t` moves extends a log. */
  lemma LoggedStep(p0: Position, n: nat, t: nat, log: seq<(seq<char>, int)>, x: (seq<char>, int))
    requires IsGrid(p0.board, 3 * n) && InBounds(n, p0.empty)
    requires Logged(p0, n, t, log) && 1 <= |x.0| <= t
    requires AllWall(p0.board, p0.empty) ==> Scored(p0, n, x.0, x.1, true)
    ensures Logged(p0, n, t, log + [x])
  {
    assert forall j :: 0 <= j < |log| ==> (log + [x])[j] == log[j];
  }

  /** Two logs of the same start position, one after the other. */
  lemma LoggedConcat(p0: Position, n: nat, t: nat, a: seq<(seq<char>, int)>, b: seq<(seq<char>, int)>)
    requires IsGrid(p0.board, 3 * n) && InBounds(n, p0.empty)
    requires Logged(p0, n, t, a) && Logged(p0, n, t, b)
    ensures Logged(p0, n, t, a + b)
  {
    assert forall j :: 0 <= j < |a| ==> (a + b)[j] == a[j];
    assert forall j :: |a| <= j < |a + b| ==> (a + b)[j] == b[j - |a|];
  }

  /** The solver. Every epoch starts again from the input, so the record
      refers to the one start position. `log` lists every kept move string
      of every epoch, in order, with its size, and the record is what
      offering it in order to the empty record leaves: by `BestIsMax`, the
      first string of the largest size, or the empty record when no kept
      move scored above zero. */
  method HillClimb(board: Board, n: nat, t: nat, shuffle: (nat, seq<nat>) -> seq<nat>)
    returns (bestOps: seq<char>, bestSize: int, ghost log: seq<(seq<char>, int)>)
    requires IsGrid(board, n) && AllHex(board, n) && 6 <= n <= 10
    requires IsShuffle(shuffle)
    ensures bestSize >= 0 && (bestOps == [] <==> bestSize == 0) && |bestOps| <= t
    ensures NoImmediateReverse(bestOps)
    ensures HasZero(board, n) && bestOps != [] ==> GoodRecord(BuildPosition(board, n).value, n, bestOps, bestSize, true)
    ensures (bestOps, bestSize) == Best(([], 0), log)
    ensures forall j :: 0 <= j < |log| ==>
      1 <= |log[j].0| <= t && (HasZero(board, n) ==> Scored(BuildPosition(board, n).value, n, log[j].0, log[j].1, true))
  {
    var p0 := BuildPosition(board, n).value;
    if HasZero(board, n) {
      BlankIsWalled(board, n);
    }
    bestOps, bestSize := [], 0;
    log := [];
    var k := 0;
    var epochs := Epochs(n).value;
    for epoch := 0 to epochs
      invariant BestOk(p0, n, bestOps, bestSize, t, true) && NoImmediateReverse(bestOps)
      invariant (bestOps, bestSize) == Best(([], 0), log) && Logged(p0, n, t, log)
    {
      var ops;
      ghost var epochLog;
      ghost var log0 := log;
      bestOps, bestSize, ops, k, epochLog := ClimbEpoch(p0, n, t, shuffle, k, bestOps, bestSize);
      BestConcat(([], 0), log0, epochLog);
      LoggedConcat(p0, n, t, log0, epochLog);
      log := log0 + epochLog;
    }
  }
}

=== FILE: loopdfs.dfy ===
/** The loop detector: a depth-first walk that reports whether the start
    frame, while scanning its own neighbours, runs into a cell that is
    already marked. The verdicts of the recursive calls are discarded, so
    only revisits seen by the start frame itself count. */
module LoopDfs {
  import opened Grid

  /** The verdict of a walk together with the marks it leaves behind. */
  datatype DfsResult = DfsResult(found: bool, visited: set<Cell>)

  /** Neighbour `d` of `cur` is looked at by the frame of `cur`: it lies on
      the board, is not the parent `prev`, and is not a wall. */
  predicate Examined(b: Board, cur: Cell, prev: Option<Cell>, d: nat) {
    d < 4 && IsPassable(b, Step(cur, d)) && prev != Some(Step(cur, d))
  }

  /** One call of the walk: mark `cur`, then scan its four neighbours. The
      first mark of an unmarked cell of the board pays for every call. */
  function Dfs(b: Board, size: nat, cur: Cell, prev: Option<Cell>, visited: set<Cell>): (r: DfsResult)
    requires IsGrid(b, size) && InBounds(size, cur) && cur !in visited
    ensures visited + {cur} <= r.visited
    ensures forall c :: c in r.visited - visited ==> c == cur || IsPassable(b, c)
    decreases |Cells(size) - visited|, 0, 0
  {
    MarkShrinks(Cells(size), visited, cur);
    Scan(b, size, cur, prev, 0, visited + {cur})
  }

  /** The loop of the frame of `cur` from direction `i` on. A marked
      examined neighbour ends the frame with `true`; an unmarked one is
      walked into and the answer of that walk is ignored. */
  function Scan(b: Board, size: nat, cur: Cell, prev: Option<Cell>, i: nat, visited: set<Cell>): (r: DfsResult)
    requires IsGrid(b, size) && InBounds(size, cur) && cur in visited && i <= 4
    ensures visited <= r.visited
    ensures forall c :: c in r.visited - visited ==> IsPassable(b, c)
    decreases |Cells(size) - visited|, 1, 4 - i
  {
    if i == 4 then
      DfsResult(false, visited)
    else
      var to := Step(cur, i);
      if !InBounds(size, to) then
        Scan(b, size, cur, prev, i + 1, visited)
      else if prev == Some(to) then
        Scan(b, size, cur, prev, i + 1, visited)
      else if b[to.0][to.1] == Wall then
        Scan(b, size, cur, prev, i + 1, visited)
      else if to in visited then
        DfsResult(true, visited)
      else
        var sub := Dfs(b, size, to, Some(cur), visited);
        GrowNoLarger(Cells(size), visited, sub.visited);
        Scan(b, size, cur, prev, i + 1, sub.visited)
  }

  /** The marks the scan of the frame of `cur`, started at direction `i`
      with marks `visited`, holds when it reaches direction `d`, provided it
      has not answered `true` before: a walk into each unmarked examined
      neighbour in between adds its marks. */
  function MarksAt(b: Board, size: nat, cur: Cell, prev: Option<Cell>, i: nat, visited: set<Cell>, d: nat): (r: set<Cell>)
    requires IsGrid(b, size) && InBounds(size, cur) && cur in visited && i <= d <= 4
    ensures visited <= r && cur in r
    decreases d - i
  {
    if i == d then
      visited
    else
      var to := Step(cur, i);
      if !InBounds(size, to) || prev == Some(to) || b[to.0][to.1] == Wall || to in visited then
        MarksAt(b, size, cur, prev, i + 1, visited, d)
      else
        MarksAt(b, size, cur, prev, i + 1, Dfs(b, size, to, Some(cur), visited).visited, d)
  }

  /** The loop flag of the program: a walk from `start` with no parent and
      nothing marked yet. */
  function HasLoop(b: Board, size: nat, start: Cell): bool
    requires IsGrid(b, size) && InBounds(size, start)
  {
    Dfs(b, size, start, None, {}).found
  }

  /** A frame that reaches an examined neighbour which is already marked
      answers `true`; marks only accumulate, so a neighbour marked when the
      scan starts is still marked when the scan gets to it. */
  lemma {:induction false} ScanSeesMarked(b: Board, size: nat, cur: Cell, prev: Option<Cell>, i: nat, visited: set<Cell>, d: nat)
    requires IsGrid(b, size) && InBounds(size, cur) && cur in visited && i <= 4
    requires i <= d && Examined(b, cur, prev, d) && Step(cur, d) in visited
    ensures Scan(b, size, cur, prev, i, visited).found
    decreases 4 - i
  {
    var to := Step(cur, i);
    if i < d {
      if !InBounds(size, to) || prev == Some(to) || b[to.0][to.1] == Wall {
        ScanSeesMarked(b, size, cur, prev, i + 1, visited, d);
      } else if to !in visited {
        var sub := Dfs(b, size, to, Some(cur), visited);
        ScanSeesMarked(b, size, cur, prev, i + 1, sub.visited, d);
      }
    }
  }

  /** A frame that answers `false` has walked into every neighbour it
      examined, so all of them end up marked. */
  lemma {:induction false} ScanFalseMarksAll(b: Board, size: nat, cur: Cell, prev: Option<Cell>, i: nat, visited: set<Cell>)
    requires IsGrid(b, size) && InBounds(size, cur) && cur in visited && i <= 4
    requires !Scan(b, size, cur, prev, i, visited).found
    ensures forall d :: i <= d < 4 && Examined(b, cur, prev, d) ==> Step(cur, d) in Scan(b, size, cur, prev, i, visited).visited
    decreases 4 - i
  {
    if i < 4 {
      var to := Step(cur, i);
      if !InBounds(size, to) || prev == Some(to) || b[to.0][to.1] == Wall {
        ScanFalseMarksAll(b, size, cur, prev, i + 1, visited);
      } else {
        var sub := Dfs(b, size, to, Some(cur), visited);
        ScanFalseMarksAll(b, size, cur, prev, i + 1, sub.visited);
      }
    }
  }

  /** A frame that answers `true` has an examined neighbour that is marked. */
  lemma {:induction false} ScanTrueHasWitness(b: Board, size: nat, cur: Cell, prev: Option<Cell>, i: nat, visited: set<Cell>)
    requires IsGrid(b, size) && InBounds(size, cur) && cur in visited && i <= 4
    requires Scan(b, size, cur, prev, i, visited).found
    ensures exists d :: i <= d < 4 && Examined(b, cur, prev, d) && Step(cur, d) in Scan(b, size, cur, prev, i, visited).visited
    decreases 4 - i
  {
    var to := Step(cur, i);
    var r := Scan(b, size, cur, prev, i, visited);
    if !InBounds(size, to) || prev == Some(to) || b[to.0][to.1] == Wall {
      ScanTrueHasWitness(b, size, cur, prev, i + 1, visited);
    } else if to in visited {
      assert Examined(b, cur, prev, i) && to in r.visited;
    } else {
      var sub := Dfs(b, size, to, Some(cur), visited);
      ScanTrueHasWitness(b, size, cur, prev, i + 1, sub.visited);
    }
  }

  /** Exactly when a frame answers `true`: some examined neighbour, in
      direction `d`, is already marked when the scan reaches `d`, counting
      the marks left by the walks into the earlier directions. */
  lemma {:induction false} ScanExact(b: Board, size: nat, cur: Cell, prev: Option<Cell>, i: nat, visited: set<Cell>)
    requires IsGrid(b, size) && InBounds(size, cur) && cur in visited && i <= 4
    ensures Scan(b, size, cur, prev, i, visited).found <==>
      exists d: nat :: i <= d < 4 && Examined(b, cur, prev, d) && Step(cur, d) in MarksAt(b, size, cur, prev, i, visited, d)
    decreases 4 - i
  {
    if i < 4 {
      var to := Step(cur, i);
      if !InBounds(size, to) || prev == Some(to) || b[to.0][to.1] == Wall {
        ScanExact(b, size, cur, prev, i + 1, visited);
        assert !Examined(b, cur, prev, i);
        assert forall d: nat :: i < d <= 4 ==>
          MarksAt(b, size, cur, prev, i, visited, d) == MarksAt(b, size, cur, prev, i + 1, visited, d);
      } else if to in visited {
        assert Examined(b, cur, prev, i) && to in MarksAt(b, size, cur, prev, i, visited, i);
      } else {
        var sub := Dfs(b, size, to, Some(cur), visited);
        ScanExact(b, size, cur, prev, i + 1, sub.visited);
        assert to !in MarksAt(b, size, cur, prev, i, visited, i);
        assert forall d: nat :: i < d <= 4 ==>
          MarksAt(b, size, cur, prev, i, visited, d) == MarksAt(b, size, cur, prev, i + 1, sub.visited, d);
      }
    }
  }

  /** What the answer of a walk means. It is `true` exactly when some
      examined neighbour of the start, in direction `d`, is marked when the
      start frame reaches `d`, the marks being those from before the call
      and those left by the walks into the directions before `d`. So it is
      `true` when an examined neighbour was marked before the walk; when it
      is `true` some examined neighbour is marked at the end; when it is
      `false` every examined neighbour was unmarked before the walk and is
      marked after it. Nothing else, in particular no revisit met by a
      deeper frame, affects it. */
  lemma DfsVerdict(b: Board, size: nat, cur: Cell, prev: Option<Cell>, visited: set<Cell>)
    requires IsGrid(b, size) && InBounds(size, cur) && cur !in visited
    ensures var r := Dfs(b, size, cur, prev, visited);
      && (r.found <==> exists d: nat :: (d < 4 && Examined(b, cur, prev, d) &&
            Step(cur, d) in MarksAt(b, size, cur, prev, 0, visited + {cur}, d)))
      && ((exists d :: Examined(b, cur, prev, d) && Step(cur, d) in visited) ==> r.found)
      && (r.found ==> exists d :: Examined(b, cur, prev, d) && Step(cur, d) in r.visited)
      && (!r.found ==> forall d :: Examined(b, cur, prev, d) ==> Step(cur, d) !in visited && Step(cur, d) in r.visited)
  {
    var r := Dfs(b, size, cur, prev, visited);
    ScanExact(b, size, cur, prev, 0, visited + {cur});
    if exists d :: Examined(b, cur, prev, d) && Step(cur, d) in visited {
      var d :| Examined(b, cur, prev, d) && Step(cur, d) in visited;
      ScanSeesMarked(b, size, cur, prev, 0, visited + {cur}, d);
    }
    if r.found {
      ScanTrueHasWitness(b, size, cur, prev, 0, visited + {cur});
    } else {
      ScanFalseMarksAll(b, size, cur, prev, 0, visited + {cur});
    }
  }

  /** A start cell with no passable neighbour has no loop. */
  lemma IsolatedStartHasNoLoop(b: Board, size: nat, start: Cell)
    requires IsGrid(b, size) && InBounds(size, start)
    requires forall d :: 0 <= d < 4 ==> !IsPassable(b, Step(start, d))
    ensures !HasLoop(b, size, start)
  {
    DfsVerdict(b, size, start, None, {});
  }

  /** A board whose reachable roads contain a cycle that does not pass
      through the start: the start frame walks into the cycle, the deeper
      frame that meets the revisit answers `true`, that answer is dropped,
      and the start frame itself finds nothing, so the flag is `false`. */
  lemma LoopAwayFromStartIsMissed()
    ensures var b := [".##", "...", "..."];
      && IsGrid(b, 3)
      && !HasLoop(b, 3, (0, 0))
      && IsRoad(b, (1, 0)) && IsRoad(b, (1, 1)) && IsRoad(b, (2, 1)) && IsRoad(b, (2, 0))
      && Adjacent((0, 0), (1, 0))
      && Adjacent((1, 0), (1, 1)) && Adjacent((1, 1), (2, 1)) && Adjacent((2, 1), (2, 0)) && Adjacent((2, 0), (1, 0))
  {
    var b := [".##", "...", "..."];
    var start := (0, 0);
    var v := Dfs(b, 3, (1, 0), Some(start), {start}).visited;
    assert Scan(b, 3, start, None, 3, v) == DfsResult(false, v);
    assert Scan(b, 3, start, None, 2, v) == DfsResult(false, v);
    assert Scan(b, 3, start, None, 1, v) == DfsResult(false, v);
    assert Scan(b, 3, start, None, 0, {start}) == DfsResult(false, v);
    assert {} + {start} == {start};
    assert Dfs(b, 3, start, None, {}) == DfsResult(false, v);
  }


  /** The ring board of the example below: roads round a central wall. */
  function RingBoard(): (b: Board)
    ensures IsGrid(b, 3)
  {
    ["...", ".#.", "..."]
  }

  /** The order in which the walk from the corner (0, 0) marks the ring. */
  function RingWalk(): seq<Cell> {
    [(0, 0), (1, 0), (2, 0), (2, 1), (2, 2), (1, 2), (0, 2), (0, 1)]
  }

  /** The marks after the first `k` cells of the ring walk. */
  function RingMarks(k: nat): set<Cell>
    requires k <= |RingWalk()|
  {
    if k == 0 then {} else RingMarks(k - 1) + {RingWalk()[k - 1]}
  }

  /** The frame of (0, 1), entered from (0, 2) with the first 7 cells of the
      ring walk marked: the start is one of its examined neighbours. */
  lemma RingFrame7()
    ensures Dfs(RingBoard(), 3, (0, 1), Some((0, 2)), RingMarks(7)) == DfsResult(true, RingMarks(8))
  {
    var b := RingBoard();
    assert Scan(b, 3, (0, 1), Some((0, 2)), 3, RingMarks(8)) == DfsResult(true, RingMarks(8));
    assert Scan(b, 3, (0, 1), Some((0, 2)), 2, RingMarks(8)) == DfsResult(true, RingMarks(8));
    assert Scan(b, 3, (0, 1), Some((0, 2)), 1, RingMarks(8)) == DfsResult(true, RingMarks(8));
    assert Scan(b, 3, (0, 1), Some((0, 2)), 0, RingMarks(8)) == DfsResult(true, RingMarks(8));
  }

  /** The frame of (0, 2), entered from (1, 2) with the first 6 cells of the ring
      walk marked: the answer of the deeper frames is dropped. */
  lemma RingFrame6()
    ensures Dfs(RingBoard(), 3, (0, 2), Some((1, 2)), RingMarks(6)) == DfsResult(false, RingMarks(8))
  {
    var b := RingBoard();
    RingFrame7();
    assert Scan(b, 3, (0, 2), Some((1, 2)), 3, RingMarks(7)) == DfsResult(false, RingMarks(8));
    assert Scan(b, 3, (0, 2), Some((1, 2)), 2, RingMarks(7)) == DfsResult(false, RingMarks(8));
    assert Scan(b, 3, (0, 2), Some((1, 2)), 1, RingMarks(7)) == DfsResult(false, RingMarks(8));
    assert Scan(b, 3, (0, 2), Some((1, 2)), 0, RingMarks(7)) == DfsResult(false, RingMarks(8));
  }

  /** The frame of (1, 2), entered from (2, 2) with the first 5 cells of the ring
      walk marked: the answer of the deeper frames is dropped. */
  lemma RingFrame5()
    ensures Dfs(RingBoard(), 3, (1, 2), Some((2, 2)), RingMarks(5)) == DfsResult(false, RingMarks(8))
  {
    var b := RingBoard();
    RingFrame6();
    assert Scan(b, 3, (1, 2), Some((2, 2)), 3, RingMarks(8)) == DfsResult(false, RingMarks(8));
    assert Scan(b, 3, (1, 2), Some((2, 2)), 2, RingMarks(6)) == DfsResult(false, RingMarks(8));
    assert Scan(b, 3, (1, 2), Some((2, 2)), 1, RingMarks(6)) == DfsResult(false, RingMarks(8));
    assert Scan(b, 3, (1, 2), Some((2, 2)), 0, RingMarks(6)) == DfsResult(false, RingMarks(8));
  }

  /** The frame of (2, 2), entered from (2, 1) with the first 4 cells of the ring
      walk marked: the answer of the deeper frames is dropped. */
  lemma RingFrame4()
    ensures Dfs(RingBoard(), 3, (2, 2), Some((2, 1)), RingMarks(4)) == DfsResult(false, RingMarks(8))
  {
    var b := RingBoard();
    RingFrame5();
    assert Scan(b, 3, (2, 2), Some((2, 1)), 3, RingMarks(8)) == DfsResult(false, RingMarks(8));
    assert Scan(b, 3, (2, 2), Some((2, 1)), 2, RingMarks(5)) == DfsResult(false, RingMarks(8));
    assert Scan(b, 3, (2, 2), Some((2, 1)), 1, RingMarks(5)) == DfsResult(false, RingMarks(8));
    assert Scan(b, 3, (2, 2), Some((2, 1)), 0, RingMarks(5)) == DfsResult(false, RingMarks(8));
  }

  /** The frame of (2, 1), entered from (2, 0) with the first 3 cells of the ring
      walk marked: the answer of the deeper frames is dropped. */
  lemma RingFrame3()
    ensures Dfs(RingBoard(), 3, (2, 1), Some((2, 0)), RingMarks(3)) == DfsResult(false, RingMarks(8))
  {
    var b := RingBoard();
    RingFrame4();
    assert Scan(b, 3, (2, 1), Some((2, 0)), 3, RingMarks(8)) == DfsResult(false, RingMarks(8));
    assert Scan(b, 3, (2, 1), Some((2, 0)), 2, RingMarks(8)) == DfsResult(false, RingMarks(8));
    assert Scan(b, 3, (2, 1), Some((2, 0)), 1, RingMarks(4)) == DfsResult(false, RingMarks(8));
    assert Scan(b, 3, (2, 1), Some((2, 0)), 0, RingMarks(4)) == DfsResult(false, RingMarks(8));
  }

  /** The frame of (2, 0), entered from (1, 0) with the first 2 cells of the ring
      walk marked: the answer of the deeper frames is dropped. */
  lemma RingFrame2()
    ensures Dfs(RingBoard(), 3, (2, 0), Some((1, 0)), RingMarks(2)) == DfsResult(false, RingMarks(8))
  {
    var b := RingBoard();
    RingFrame3();
    assert Scan(b, 3, (2, 0), Some((1, 0)), 3, RingMarks(8)) == DfsResult(false, RingMarks(8));
    assert Scan(b, 3, (2, 0), Some((1, 0)), 2, RingMarks(8)) == DfsResult(false, RingMarks(8));
    assert Scan(b, 3, (2, 0), Some((1, 0)), 1, RingMarks(3)) == DfsResult(false, RingMarks(8));
    assert Scan(b, 3, (2, 0), Some((1, 0)), 0, RingMarks(3)) == DfsResult(false, RingMarks(8));
  }

  /** The frame of (1, 0), entered from (0, 0) with only the start marked: the
      answer of the deeper frames is dropped. */
  lemma RingFrame1()
    ensures Dfs(RingBoard(), 3, (1, 0), Some((0, 0)), RingMarks(1)) == DfsResult(false, RingMarks(8))
  {
    var b := RingBoard();
    RingFrame2();
    assert Scan(b, 3, (1, 0), Some((0, 0)), 3, RingMarks(8)) == DfsResult(false, RingMarks(8));
    assert Scan(b, 3, (1, 0), Some((0, 0)), 2, RingMarks(8)) == DfsResult(false, RingMarks(8));
    assert Scan(b, 3, (1, 0), Some((0, 0)), 1, RingMarks(8)) == DfsResult(false, RingMarks(8));
    assert Scan(b, 3, (1, 0), Some((0, 0)), 0, RingMarks(2)) == DfsResult(false, RingMarks(8));
  }

  /** A road ring around one wall, with the start on the ring: the start
      frame walks all the way round into its first neighbour, and when it
      then reaches its second neighbour that one is marked, so the flag is
      `true`. The walk goes down, along the bottom, up the right side and
      back along the top to the cell right of the start. */
  lemma LoopThroughStartIsFound()
    ensures var b := ["...", ".#.", "..."];
      && IsGrid(b, 3)
      && HasLoop(b, 3, (0, 0))
      && IsRoad(b, (0, 1)) && IsRoad(b, (1, 0))
      && Adjacent((0, 0), (1, 0)) && Adjacent((0, 0), (0, 1))
  {
    var b := RingBoard();
    RingFrame1();
    assert Scan(b, 3, (0, 0), None, 1, RingMarks(8)) == DfsResult(true, RingMarks(8));
    assert Scan(b, 3, (0, 0), None, 0, RingMarks(1)) == DfsResult(true, RingMarks(8));
    assert {} + {(0, 0)} == RingMarks(1);
  }
}

=== FILE: matswap.dfy ===
/** The generic entry exchange of a two-dimensional vector. Within one row
    it is a plain swap; across rows it removes the first entry with
    `swap_remove`, exchanges it with the second entry, pushes it back and
    swaps it into its old place. */
module MatSwap {

  /** `Vec::swap`: exchange the entries at `a` and `b`. */
  function VecSwap<T>(s: seq<T>, a: nat, b: nat): (r: seq<T>)
    requires a < |s| && b < |s|
    ensures |r| == |s| && r[a] == s[b] && r[b] == s[a]
    ensures forall k :: 0 <= k < |s| && k != a && k != b ==> r[k] == s[k]
  {
    s[a := s[b]][b := s[a]]
  }

  /** `Vec::swap_remove`: take out the entry at `j` and fill its place
      with the last entry; returns the shortened row and the entry. */
  function SwapRemove<T>(s: seq<T>, j: nat): (r: (seq<T>, T))
    requires j < |s|
    ensures r.1 == s[j] && |r.0| == |s| - 1
    ensures j < |s| - 1 ==> r.0[j] == s[|s| - 1]
    ensures forall k :: 0 <= k < |r.0| && k != j ==> r.0[k] == s[k]
  {
    var last := |s| - 1;
    if j == last then (s[..last], s[j]) else (s[..last][j := s[last]], s[j])
  }

  /** The exchange of `v[i1][j1]` and `v[i2][j2]`, step by step as the
      program does it. Every index must exist (the program panics
      otherwise). */
  function MatSwapSwapRemove<T>(v: seq<seq<T>>, i1: nat, j1: nat, i2: nat, j2: nat): (r: seq<seq<T>>)
    requires i1 < |v| && i2 < |v| && j1 < |v[i1]| && j2 < |v[i2]|
    ensures |r| == |v| && forall i :: 0 <= i < |v| ==> |r[i]| == |v[i]|
    ensures r[i1][j1] == v[i2][j2] && r[i2][j2] == v[i1][j1]
    ensures forall i, j :: 0 <= i < |v| && 0 <= j < |v[i]| && (i, j) != (i1, j1) && (i, j) != (i2, j2) ==>
      r[i][j] == v[i][j]
  {
    if i1 == i2 then
      v[i1 := VecSwap(v[i1], j1, j2)]
    else
      var n := |v[i1]|;
      var removed := SwapRemove(v[i1], j1);
      var e1 := v[i2][j2];
      var v1 := v[i1 := removed.0][i2 := v[i2][j2 := removed.1]];
      var pushed := v1[i1] + [e1];
      v1[i1 := VecSwap(pushed, j1, n - 1)]
  }

  /** Exchanging the same two entries twice restores the matrix. */
  lemma SwapTwiceRestores<T>(v: seq<seq<T>>, i1: nat, j1: nat, i2: nat, j2: nat)
    requires i1 < |v| && i2 < |v| && j1 < |v[i1]| && j2 < |v[i2]|
    ensures var w := MatSwapSwapRemove(v, i1, j1, i2, j2);
      MatSwapSwapRemove(w, i1, j1, i2, j2) == v
  {
    var w := MatSwapSwapRemove(v, i1, j1, i2, j2);
    var u := MatSwapSwapRemove(w, i1, j1, i2, j2);
    forall i | 0 <= i < |v|
      ensures u[i] == v[i]
    {
      forall j | 0 <= j < |v[i]|
        ensures u[i][j] == v[i][j]
      {
      }
    }
  }

  /** The order of the two positions does not matter. */
  lemma SwapSymmetric<T>(v: seq<seq<T>>, i1: nat, j1: nat, i2: nat, j2: nat)
    requires i1 < |v| && i2 < |v| && j1 < |v[i1]| && j2 < |v[i2]|
    ensures MatSwapSwapRemove(v, i1, j1, i2, j2) == MatSwapSwapRemove(v, i2, j2, i1, j1)
  {
    var w := MatSwapSwapRemove(v, i1, j1, i2, j2);
    var u := MatSwapSwapRemove(v, i2, j2, i1, j1);
    forall i | 0 <= i < |v|
      ensures w[i] == u[i]
    {
      forall j | 0 <= j < |v[i]|
        ensures w[i][j] == u[i][j]
      {
      }
    }
  }
}

=== FILE: moves.dfy ===
/** Moves of the blank: the letters `D`, `R`, `U`, `L` for directions 0 to
    3, the legal-move filter that drops out-of-range moves and the move
    that would undo the previous one, and the replay of a move string on
    the big board. */
module Moves {
  import opened Grid
  import opened Blocks

  /** The operation letter of each direction. */
  const Letters: seq<char> := ['D', 'R', 'U', 'L']

  function Letter(d: nat): (c: char)
    requires d < 4
    ensures c in Letters
  {
    Letters[d]
  }

  /** The direction of a letter; 4 for a character that is not a move. */
  function DirOf(c: char): (d: nat)
    ensures d <= 4
    ensures d < 4 <==> c in Letters
    ensures d < 4 ==> Letter(d) == c
  {
    if c == 'D' then 0 else if c == 'R' then 1 else if c == 'U' then 2 else if c == 'L' then 3 else 4
  }

  lemma LetterRoundTrip(d: nat)
    requires d < 4
    ensures DirOf(Letter(d)) == d
  {
  }

  /** The direction that undoes direction `d`: down and up, right and left. */
  function Reverse(d: nat): (r: nat)
    requires d < 4
    ensures r < 4 && r != d
    ensures Step(Step((0, 0), d), r) == (0, 0)
  {
    (d + 2) % 4
  }

  /** Stepping in a direction and then in its reverse comes back. */
  lemma ReverseReturns(c: Cell, d: nat)
    requires d < 4
    ensures Step(Step(c, d), Reverse(d)) == c
    ensures Reverse(Reverse(d)) == d
  {
  }

  /** The last letter of a move string, if any. */
  function LastLetter(ops: seq<char>): Option<char> {
    if ops == [] then None else Some(ops[|ops| - 1])
  }

  /** `s` lists directions in strictly increasing order. */
  predicate Increasing(s: seq<nat>) {
    forall a, b :: 0 <= a < b < |s| ==> s[a] < s[b]
  }

  /** The directions tried after the letter `last`: all four without the
      one that undoes it; all four after no letter or a letter that is not
      a move. */
  function ActionCandidates(last: Option<char>): (r: seq<nat>)
    ensures Increasing(r)
    ensures forall d :: d in r <==> d < 4 && last != Some(Letter(Reverse(d)))
  {
    match last
    case Some('D') => [0, 1, 3]
    case Some('R') => [0, 1, 2]
    case Some('U') => [1, 2, 3]
    case Some('L') => [0, 2, 3]
    case _ => [0, 1, 2, 3]
  }

  /** The directions of `cands`, in order, that keep the blank at `e` on an
      `n` x `n` board. */
  function KeepInside(cands: seq<nat>, e: Cell, n: nat): (r: seq<nat>)
    requires forall k :: 0 <= k < |cands| ==> cands[k] < 4
    ensures |r| <= |cands|
    ensures forall d :: d in r <==> d in cands && InBounds(n, Step(e, d))
  {
    if cands == [] then []
    else
      var rest := KeepInside(cands[1..], e, n);
      assert forall d :: d in cands <==> d == cands[0] || d in cands[1..];
      if InBounds(n, Step(e, cands[0])) then [cands[0]] + rest else rest
  }

  /** The filter keeps the order of the candidates. */
  lemma {:induction false} KeepInsideIncreasing(cands: seq<nat>, e: Cell, n: nat)
    requires forall k :: 0 <= k < |cands| ==> cands[k] < 4
    requires Increasing(cands)
    ensures Increasing(KeepInside(cands, e, n))
  {
    if cands != [] {
      var tail := cands[1..];
      KeepInsideIncreasing(tail, e, n);
      var rest := KeepInside(tail, e, n);
      forall k | 0 <= k < |rest|
        ensures cands[0] < rest[k]
      {
        assert rest[k] in rest;
        assert rest[k] in tail;
      }
    }
  }

  /** The legal moves of a blank at `e` after the moves `ops`. */
  function LegalActions(ops: seq<char>, e: Cell, n: nat): (r: seq<nat>)
    ensures Increasing(r)
    ensures forall d :: d in r <==> d < 4 && InBounds(n, Step(e, d)) && LastLetter(ops) != Some(Letter(Reverse(d)))
  {
    KeepInsideIncreasing(ActionCandidates(LastLetter(ops)), e, n);
    KeepInside(ActionCandidates(LastLetter(ops)), e, n)
  }

  /** On a board of side at least two every blank has a legal move: it has
      an in-range vertical and an in-range horizontal neighbour, and at
      most one of the two undoes the previous move. */
  lemma {:induction false} LegalActionsNonEmpty(ops: seq<char>, e: Cell, n: nat)
    requires n >= 2 && InBounds(n, e)
    ensures |LegalActions(ops, e, n)| >= 1
  {
    var v := if e.0 + 1 < n then 0 else 2;
    var h := if e.1 + 1 < n then 1 else 3;
    assert InBounds(n, Step(e, v)) && InBounds(n, Step(e, h));
    if LastLetter(ops) == Some(Letter(Reverse(v))) {
      assert h in LegalActions(ops, e, n);
    } else {
      assert v in LegalActions(ops, e, n);
    }
  }

  /** A blank position together with the big board. */
  datatype Position = Position(board: Board, empty: Cell)

  /** One move: the tile next to the blank in direction `d` slides into the
      blank, and the blank moves there. */
  function Move(p: Position, n: nat, d: nat): (r: Option<Position>)
    requires IsGrid(p.board, 3 * n) && InBounds(n, p.empty) && d < 4
    ensures r.Some? <==> InBounds(n, Step(p.empty, d))
    ensures r.Some? ==> IsGrid(r.value.board, 3 * n) && r.value.empty == Step(p.empty, d)
  {
    var dst := Step(p.empty, d);
    if InBounds(n, dst) then Some(Position(Slid(p.board, n, p.empty, dst), dst)) else None
  }

  /** The position after the moves `ops`, or nothing when a letter is not a
      move or a move leaves the board. */
  function Replay(p: Position, n: nat, ops: seq<char>): (r: Option<Position>)
    requires IsGrid(p.board, 3 * n) && InBounds(n, p.empty)
    ensures r.Some? ==> IsGrid(r.value.board, 3 * n) && InBounds(n, r.value.empty)
    ensures r.Some? && ops != [] ==> DirOf(ops[|ops| - 1]) < 4 && InBounds(n, PrevEmpty(r.value.empty, ops))
    decreases |ops|
  {
    if ops == [] then Some(p)
    else
      var q := Replay(p, n, ops[..|ops| - 1]);
      var d := DirOf(ops[|ops| - 1]);
      if q.None? || d == 4 then None
      else
        ReverseReturns(q.value.empty, d);
        Move(q.value, n, d)
  }

  /** Replaying one more legal move extends the replay by that move. */
  lemma ReplayAppend(p: Position, n: nat, ops: seq<char>, q: Position, d: nat)
    requires IsGrid(p.board, 3 * n) && InBounds(n, p.empty)
    requires Replay(p, n, ops) == Some(q) && d < 4 && InBounds(n, Step(q.empty, d))
    ensures Replay(p, n, ops + [Letter(d)]) == Some(Position(Slid(q.board, n, q.empty, Step(q.empty, d)), Step(q.empty, d)))
  {
    var s := ops + [Letter(d)];
    assert s[..|s| - 1] == ops;
    LetterRoundTrip(d);
    assert DirOf(s[|s| - 1]) == d;
  }

  /** The blank position before the last move of `ops`, when the blank is
      now at `e`. */
  function PrevEmpty(e: Cell, ops: seq<char>): Cell
    requires ops != [] && DirOf(ops[|ops| - 1]) < 4
  {
    Step(e, Reverse(DirOf(ops[|ops| - 1])))
  }

  /** No letter of `ops` undoes the letter before it. */
  predicate NoImmediateReverse(ops: seq<char>) {
    forall k :: 0 < k < |ops| && DirOf(ops[k]) < 4 ==> ops[k - 1] != Letter(Reverse(DirOf(ops[k])))
  }

  /** Appending a move that does not undo the last letter keeps the move
      string free of immediate reversals. */
  lemma AppendCandidate(ops: seq<char>, d: nat)
    requires NoImmediateReverse(ops)
    requires d < 4 && LastLetter(ops) != Some(Letter(Reverse(d)))
    ensures NoImmediateReverse(ops + [Letter(d)])
  {
    var s := ops + [Letter(d)];
    forall k | 0 < k < |s| && DirOf(s[k]) < 4
      ensures s[k - 1] != Letter(Reverse(DirOf(s[k])))
    {
      if k == |ops| {
        LetterRoundTrip(d);
      } else {
        assert s[k] == ops[k] && s[k - 1] == ops[k - 1];
      }
    }
  }

  /** Appending a legal action keeps the move string free of immediate
      reversals. */
  lemma AppendLegal(ops: seq<char>, e: Cell, n: nat, d: nat)
    requires NoImmediateReverse(ops)
    requires d in LegalActions(ops, e, n)
    ensures NoImmediateReverse(ops + [Letter(d)])
  {
    AppendCandidate(ops, d);
  }
}

=== FILE: record.dfy ===
/** The record every solver keeps: the largest tree seen so far and the
    move string that produced it. A candidate replaces the record only when
    its size is strictly larger, so among equal sizes the first one seen
    stays. */
module Record {

  /** One update of the record by a candidate string and its size. */
  function Offer(bestOps: seq<char>, bestSize: int, ops: seq<char>, size: int): (r: (seq<char>, int))
    ensures r.1 == if size > bestSize then size else bestSize
    ensures r.0 == bestOps || (r.0 == ops && r.1 == size)
  {
    if bestSize < size then (ops, size) else (bestOps, bestSize)
  }

  /** The record after the candidates `offers` are offered in order to the
      record `init`. */
  function Best(init: (seq<char>, int), offers: seq<(seq<char>, int)>): (seq<char>, int)
    decreases |offers|
  {
    if offers == [] then init
    else
      var r := Best(init, offers[..|offers| - 1]);
      var last := offers[|offers| - 1];
      Offer(r.0, r.1, last.0, last.1)
  }

  /** Offering one more candidate is one more update. */
  lemma BestAppend(init: (seq<char>, int), offers: seq<(seq<char>, int)>, x: (seq<char>, int))
    ensures Best(init, offers + [x]) == Offer(Best(init, offers).0, Best(init, offers).1, x.0, x.1)
  {
    assert (offers + [x])[..|offers|] == offers;
  }

  /** Offering two runs of candidates one after the other is offering the
      second run to the record the first one left. */
  lemma {:induction false} BestConcat(init: (seq<char>, int), a: seq<(seq<char>, int)>, b: seq<(seq<char>, int)>)
    ensures Best(init, a + b) == Best(Best(init, a), b)
    decreases |b|
  {
    if b == [] {
      assert a + b == a;
    } else {
      var p := b[..|b| - 1];
      var x := b[|b| - 1];
      assert b == p + [x];
      assert a + b == (a + p) + [x];
      BestConcat(init, a, p);
      BestAppend(init, a + p, x);
      BestAppend(Best(init, a), p, x);
    }
  }

  /** The record is the largest of the initial record and the candidates:
      it keeps the initial record unless some candidate is strictly larger,
      and then it is the first candidate of the largest size. */
  lemma {:induction false} BestIsMax(init: (seq<char>, int), offers: seq<(seq<char>, int)>)
    ensures Best(init, offers).1 >= init.1
    ensures forall j :: 0 <= j < |offers| ==> offers[j].1 <= Best(init, offers).1
    ensures Best(init, offers).1 == init.1 ==> Best(init, offers) == init
    ensures Best(init, offers).1 > init.1 ==>
      exists j :: (0 <= j < |offers| && offers[j] == Best(init, offers) &&
        forall i :: 0 <= i < j ==> offers[i].1 < Best(init, offers).1)
    decreases |offers|
  {
    if offers != [] {
      var p := offers[..|offers| - 1];
      var x := offers[|offers| - 1];
      assert offers == p + [x];
      var r := Best(init, p);
      BestIsMax(init, p);
      assert forall j :: 0 <= j < |p| ==> offers[j] == p[j];
      if r.1 < x.1 {
        assert offers[|p|] == Best(init, offers);
      } else if r.1 > init.1 {
        var j :| 0 <= j < |p| && p[j] == r && forall i :: 0 <= i < j ==> p[i].1 < r.1;
        assert offers[j] == Best(init, offers);
      }
    }
  }

  /** The log of a walk: one entry per move, the `j`-th naming the first
      `j + 1` moves. */
  predicate Prefixes(ops: seq<char>, log: seq<(seq<char>, int)>) {
    |log| == |ops| && forall j :: 0 <= j < |log| ==> log[j].0 == ops[..j + 1]
  }

  /** One more move adds one more entry: the whole walk. */
  lemma PrefixesStep(ops: seq<char>, log: seq<(seq<char>, int)>, x: char, size: int)
    requires Prefixes(ops, log)
    ensures Prefixes(ops + [x], log + [(ops + [x], size)])
  {
    var ops' := ops + [x];
    var log' := log + [(ops', size)];
    forall j | 0 <= j < |log'|
      ensures log'[j].0 == ops'[..j + 1]
    {
      if j < |log| {
        assert ops'[..j + 1] == ops[..j + 1];
      } else {
        assert ops'[..j + 1] == ops';
      }
    }
  }

  /** Concatenation is associative. */
  lemma AppendAssoc<T>(a: seq<T>, b: seq<T>, c: seq<T>)
    ensures (a + b) + c == a + (b + c)
  {
  }
}

=== FILE: tiles.dfy ===
/** The tile expander: each hexadecimal tile digit becomes a 3x3 pattern
    of walls and roads, so that tile adjacency turns into ordinary
    four-neighbour walkability on the big board. */
module Tiles {
  import opened Grid

  predicate IsHexDigit(tile: char) {
    ('0' <= tile <= '9') || ('a' <= tile <= 'f')
  }

  /** The 4-bit code of a hexadecimal tile digit. */
  function HexValue(tile: char): (v: nat)
    requires IsHexDigit(tile)
    ensures v < 16
  {
    if '0' <= tile <= '9' then tile as int - '0' as int else tile as int - 'a' as int + 10
  }

  /** Bit `1` opens the left edge, `2` the top, `4` the right, `8` the bottom. */
  predicate OpensLeft(v: nat) { v % 2 == 1 }
  predicate OpensUp(v: nat) { (v / 2) % 2 == 1 }
  predicate OpensRight(v: nat) { (v / 4) % 2 == 1 }
  predicate OpensDown(v: nat) { (v / 8) % 2 == 1 }

  /** A 3x3 pattern over walls and roads only. */
  predicate IsPattern(p: seq<seq<char>>) {
    IsGrid(p, 3) && forall k, l :: 0 <= k < 3 && 0 <= l < 3 ==> p[k][l] in {Wall, Road}
  }

  /** The expansion table. Digits outside `0-9a-f` have no pattern (the
      program stops on them). */
  function Expand(tile: char): (r: Option<seq<seq<char>>>)
    ensures r.Some? <==> IsHexDigit(tile)
    ensures r.Some? ==> IsPattern(r.value)
    ensures tile == '0' ==> r.Some? && forall k, l :: 0 <= k < 3 && 0 <= l < 3 ==> r.value[k][l] == Wall
    ensures r.Some? && tile != '0' ==>
      var p, v := r.value, HexValue(tile);
      && p[1][1] == Road
      && p[0][0] == Wall && p[0][2] == Wall && p[2][0] == Wall && p[2][2] == Wall
      && (p[1][0] == Road <==> OpensLeft(v))
      && (p[0][1] == Road <==> OpensUp(v))
      && (p[1][2] == Road <==> OpensRight(v))
      && (p[2][1] == Road <==> OpensDown(v))
  {
    match tile
    case '0' => Some(["###", "###", "###"])
    case '1' => Some(["###", "..#", "###"])
    case '2' => Some(["#.#", "#.#", "###"])
    case '3' => Some(["#.#", "..#", "###"])
    case '4' => Some(["###", "#..", "###"])
    case '5' => Some(["###", "...", "###"])
    case '6' => Some(["#.#", "#..", "###"])
    case '7' => Some(["#.#", "...", "###"])
    case '8' => Some(["###", "#.#", "#.#"])
    case '9' => Some(["###", "..#", "#.#"])
    case 'a' => Some(["#.#", "#.#", "#.#"])
    case 'b' => Some(["#.#", "..#", "#.#"])
    case 'c' => Some(["###", "#..", "#.#"])
    case 'd' => Some(["###", "...", "#.#"])
    case 'e' => Some(["#.#", "#..", "#.#"])
    case 'f' => Some(["#.#", "...", "#.#"])
    case _ => None
  }

  /** The character the pattern of a valid tile puts at offset (k, l). */
  function TileCell(tile: char, k: nat, l: nat): char
    requires IsHexDigit(tile) && k < 3 && l < 3
  {
    Expand(tile).value[k][l]
  }
}

=== FILE: treesize.dfy ===
/** The connectivity evaluator: a breadth-first traversal that counts the
    tile centres connected to a start cell through road cells. */
module TreeSize {
  import opened Grid

  /** `p` is a walk from `s`: it starts at `s` and every later cell is a
      road cell one orthogonal step from its predecessor. The start itself
      may be a wall. */
  ghost predicate IsWalk(b: Board, s: Cell, p: seq<Cell>) {
    && |p| > 0
    && p[0] == s
    && forall k :: 1 <= k < |p| ==> IsRoad(b, p[k]) && Adjacent(p[k - 1], p[k])
  }

  ghost predicate Reachable(b: Board, s: Cell, c: Cell) {
    exists p :: IsWalk(b, s, p) && p[|p| - 1] == c
  }

  /** Every cell of the `size` x `size` board reachable from `s`. */
  ghost function Reach(b: Board, size: nat, s: Cell): set<Cell> {
    set c | c in Cells(size) && Reachable(b, s, c)
  }

  /** The tile centres of `v` other than `s`. */
  function CentresOf(v: set<Cell>, s: Cell): set<Cell> {
    set c | c in v && c != s && IsCentre(c)
  }

  /** The tree size from `s`: one for the start plus every other reachable
      tile centre. */
  ghost function TreeSizeFrom(b: Board, size: nat, s: Cell): nat {
    1 + |CentresOf(Reach(b, size, s), s)|
  }

  /** Every road neighbour of `c` is in `v`. */
  ghost predicate Closed(b: Board, c: Cell, v: set<Cell>) {
    forall d :: 0 <= d < 4 && IsRoad(b, Step(c, d)) ==> Step(c, d) in v
  }

  lemma WalkExtend(b: Board, s: Cell, p: seq<Cell>, c: Cell)
    requires IsWalk(b, s, p) && IsRoad(b, c) && Adjacent(p[|p| - 1], c)
    ensures IsWalk(b, s, p + [c])
  {
  }

  /** A set that holds the start and is closed under road steps holds the
      end of every walk from the start. */
  lemma {:induction false} WalkStaysInClosed(b: Board, s: Cell, p: seq<Cell>, v: set<Cell>)
    requires IsWalk(b, s, p)
    requires s in v
    requires forall c :: c in v ==> Closed(b, c, v)
    ensures p[|p| - 1] in v
  {
    if |p| > 1 {
      var q := p[..|p| - 1];
      assert IsWalk(b, s, q);
      WalkStaysInClosed(b, s, q, v);
      var a, c := q[|q| - 1], p[|p| - 1];
      assert IsRoad(b, c) && Adjacent(a, c);
      assert Closed(b, a, v);
    }
  }

  lemma ReachWithinClosed(b: Board, size: nat, s: Cell, v: set<Cell>)
    requires s in v
    requires forall c :: c in v ==> Closed(b, c, v)
    ensures Reach(b, size, s) <= v
  {
    forall c | c in Reach(b, size, s)
      ensures c in v
    {
      var p :| IsWalk(b, s, p) && p[|p| - 1] == c;
      WalkStaysInClosed(b, s, p, v);
    }
  }

  lemma CentresAdd(v: set<Cell>, s: Cell, c: Cell)
    requires c !in v && c != s
    ensures CentresOf(v + {c}, s) == if IsCentre(c) then CentresOf(v, s) + {c} else CentresOf(v, s)
    ensures |CentresOf(v + {c}, s)| == |CentresOf(v, s)| + (if IsCentre(c) then 1 else 0)
  {
    if IsCentre(c) {
      assert CentresOf(v + {c}, s) == CentresOf(v, s) + {c};
    } else {
      assert CentresOf(v + {c}, s) == CentresOf(v, s);
    }
  }

  /** One round of the traversal: look at the four neighbours of `frm`,
      mark and enqueue each unvisited road neighbour and count it when it
      is a tile centre. */
  method VisitNeighbours(b: Board, size: nat, s: Cell, frm: Cell, queue0: seq<Cell>, visited0: set<Cell>, count0: int)
    returns (queue: seq<Cell>, visited: set<Cell>, count: int)
    requires IsGrid(b, size) && InBounds(size, frm)
    requires visited0 <= Cells(size) && s in visited0 && frm in visited0
    requires forall c :: c in visited0 ==> Reachable(b, s, c)
    ensures visited0 <= visited <= Cells(size)
    ensures forall c :: c in queue0 ==> c in queue
    ensures forall c :: c in queue ==> c in queue0 || c in visited - visited0
    ensures forall c :: c in visited - visited0 ==> c in queue
    ensures visited == visited0 ==> queue == queue0
    ensures forall c :: c in visited ==> Reachable(b, s, c)
    ensures Closed(b, frm, visited)
    ensures count - |CentresOf(visited, s)| == count0 - |CentresOf(visited0, s)|
  {
    queue, visited, count := queue0, visited0, count0;
    for i := 0 to 4
      invariant visited0 <= visited <= Cells(size)
      invariant forall c :: c in queue0 ==> c in queue
      invariant forall c :: c in queue ==> c in queue0 || c in visited - visited0
      invariant forall c :: c in visited - visited0 ==> c in queue
      invariant visited == visited0 ==> queue == queue0
      invariant forall c :: c in visited ==> Reachable(b, s, c)
      invariant ClosedUpTo(b, frm, visited, i)
      invariant count - |CentresOf(visited, s)| == count0 - |CentresOf(visited0, s)|
    {
      var to := Step(frm, i);
      ghost var before := visited;
      if InBounds(size, to) {
        queue, visited, count := VisitOne(b, size, s, frm, to, queue, visited, count);
      }
      ClosedUpToStep(b, frm, before, visited, i);
    }
  }

  /** The road neighbours of `frm` in the first `i` directions are in `v`. */
  ghost predicate ClosedUpTo(b: Board, frm: Cell, v: set<Cell>, i: nat) {
    forall d :: 0 <= d < i && d < 4 && IsRoad(b, Step(frm, d)) ==> Step(frm, d) in v
  }

  lemma ClosedUpToStep(b: Board, frm: Cell, v: set<Cell>, v': set<Cell>, i: nat)
    requires i < 4 && ClosedUpTo(b, frm, v, i) && v <= v'
    requires IsRoad(b, Step(frm, i)) ==> Step(frm, i) in v'
    ensures ClosedUpTo(b, frm, v', i + 1)
  {
  }

  /** One neighbour `to` of the marked cell `frm`: an unvisited road cell is
      marked, enqueued and, when it is a tile centre, counted; anything else
      leaves the traversal as it was. */
  method VisitOne(b: Board, size: nat, s: Cell, frm: Cell, to: Cell, queue0: seq<Cell>, visited0: set<Cell>, count0: int)
    returns (queue: seq<Cell>, visited: set<Cell>, count: int)
    requires IsGrid(b, size) && InBounds(size, to) && Adjacent(frm, to)
    requires frm in visited0 && forall c :: c in visited0 ==> Reachable(b, s, c)
    requires s in visited0
    ensures IsRoad(b, to) ==> to in visited
    ensures (IsRoad(b, to) && to !in visited0)
      ==> queue == queue0 + [to] && visited == visited0 + {to} && Reachable(b, s, to)
          && count - |CentresOf(visited, s)| == count0 - |CentresOf(visited0, s)|
    ensures !(IsRoad(b, to) && to !in visited0) ==> queue == queue0 && visited == visited0 && count == count0
  {
    queue, visited, count := queue0, visited0, count0;
    if b[to.0][to.1] == Road && to !in visited {
      ghost var p :| IsWalk(b, s, p) && p[|p| - 1] == frm;
      WalkExtend(b, s, p, to);
      assert (p + [to])[|p + [to]| - 1] == to;
      CentresAdd(visited, s, to);
      if to.0 % 3 == 1 && to.1 % 3 == 1 {
        count := count + 1;
      }
      queue := queue + [to];
      visited := visited + {to};
    }
  }

  /** The invariant of the traversal: everything marked is reachable, the
      queue holds marked cells, every marked cell that has left the queue
      has all its road neighbours marked, and the count is one plus the
      marked centres other than the start. */
  ghost predicate BfsInvariant(b: Board, size: nat, s: Cell, queue: seq<Cell>, visited: set<Cell>, count: int) {
    && visited <= Cells(size) && s in visited
    && (forall c :: c in queue ==> c in visited)
    && (forall c :: c in visited ==> Reachable(b, s, c))
    && (forall c :: c in visited && c !in queue ==> Closed(b, c, visited))
    && count == 1 + |CentresOf(visited, s)|
  }

  /** Popping `frm` and visiting its neighbours keeps the invariant and
      either marks a new cell or shortens the queue. */
  lemma BfsStep(b: Board, size: nat, s: Cell, frm: Cell, rest: seq<Cell>, before: set<Cell>, count0: int,
                queue: seq<Cell>, visited: set<Cell>, count: int)
    requires BfsInvariant(b, size, s, [frm] + rest, before, count0)
    requires before <= visited <= Cells(size)
    requires forall c :: c in rest ==> c in queue
    requires forall c :: c in queue ==> c in rest || c in visited - before
    requires forall c :: c in visited - before ==> c in queue
    requires visited == before ==> queue == rest
    requires forall c :: c in visited ==> Reachable(b, s, c)
    requires Closed(b, frm, visited)
    requires count - |CentresOf(visited, s)| == count0 - |CentresOf(before, s)|
    ensures BfsInvariant(b, size, s, queue, visited, count)
    ensures |Cells(size) - visited| < |Cells(size) - before|
         || (|Cells(size) - visited| == |Cells(size) - before| && |queue| < |[frm] + rest|)
  {
    ClosedAfterStep(b, s, frm, rest, before, queue, visited);
    MeasureAfterStep(size, frm, rest, before, queue, visited);
  }

  /** After the round for `frm`, every marked cell out of the queue is
      closed: `frm` by the round, the others as before. */
  lemma ClosedAfterStep(b: Board, s: Cell, frm: Cell, rest: seq<Cell>, before: set<Cell>,
                        queue: seq<Cell>, visited: set<Cell>)
    requires forall c :: c in before && c !in [frm] + rest ==> Closed(b, c, before)
    requires before <= visited
    requires forall c :: c in rest ==> c in queue
    requires forall c :: c in visited - before ==> c in queue
    requires Closed(b, frm, visited)
    ensures forall c :: c in visited && c !in queue ==> Closed(b, c, visited)
  {
    forall c | c in visited && c !in queue
      ensures Closed(b, c, visited)
    {
      if c != frm {
        assert c in before && c !in [frm] + rest;
        assert Closed(b, c, before);
      }
    }
  }

  /** The round either marks a new cell or shortens the queue by `frm`. */
  lemma MeasureAfterStep(size: nat, frm: Cell, rest: seq<Cell>, before: set<Cell>,
                         queue: seq<Cell>, visited: set<Cell>)
    requires before <= visited <= Cells(size)
    requires visited == before ==> queue == rest
    ensures |Cells(size) - visited| < |Cells(size) - before|
         || (|Cells(size) - visited| == |Cells(size) - before| && |queue| < |[frm] + rest|)
  {
    if exists c :: c in visited && c !in before {
      var c :| c in visited && c !in before;
      assert (Cells(size) - visited) + {c} <= Cells(size) - before;
      SubsetCard((Cells(size) - visited) + {c}, Cells(size) - before);
    } else {
      assert visited == before;
    }
  }

  /** The tree size from `s`, computed breadth first. Each cell enters the
      queue at most once, when it is first marked, so the traversal ends. */
  method ComputeTreeSizeByBfs(s: Cell, n: nat, b: Board) returns (treeSize: int)
    requires IsGrid(b, 3 * n) && InBounds(3 * n, s)
    ensures treeSize == TreeSizeFrom(b, 3 * n, s)
    ensures treeSize >= 1
  {
    var size := 3 * n;
    var queue := [s];
    var visited := {s};
    treeSize := 1;
    BfsStart(b, size, s);
    while queue != []
      invariant BfsInvariant(b, size, s, queue, visited, treeSize)
      decreases |Cells(size) - visited|, |queue|
    {
      var frm := queue[0];
      var rest := queue[1..];
      assert queue == [frm] + rest;
      ghost var before, count0 := visited, treeSize;
      queue, visited, treeSize := VisitNeighbours(b, size, s, frm, rest, visited, treeSize);
      BfsStep(b, size, s, frm, rest, before, count0, queue, visited, treeSize);
    }
    BfsDone(b, size, s, visited, treeSize);
  }

  /** The traversal starts with the start marked, queued and counted. */
  lemma BfsStart(b: Board, size: nat, s: Cell)
    requires InBounds(size, s)
    ensures BfsInvariant(b, size, s, [s], {s}, 1)
  {
    assert IsWalk(b, s, [s]);
    assert CentresOf({s}, s) == {};
  }

  /** With the queue empty, the marked cells are exactly the cells
      reachable from the start, so the count is the tree size. */
  lemma BfsDone(b: Board, size: nat, s: Cell, visited: set<Cell>, count: int)
    requires BfsInvariant(b, size, s, [], visited, count)
    ensures count == TreeSizeFrom(b, size, s) && count >= 1
  {
    ReachWithinClosed(b, size, s, visited);
    assert visited == Reach(b, size, s);
  }

  /** Started at the centre of an all-wall block, nothing is reachable but
      the start, so the tree size is one. */
  lemma WalledCentreIsolated(b: Board, n: nat, t: Cell)
    requires IsGrid(b, 3 * n) && InBounds(n, t)
    requires AllWall(b, t)
    ensures Reach(b, 3 * n, Centre(t)) == {Centre(t)}
    ensures TreeSizeFrom(b, 3 * n, Centre(t)) == 1
  {
    var s := Centre(t);
    assert CharAt(b, BlockCell(t, 2, 1), Wall) && Step(s, 0) == BlockCell(t, 2, 1);
    assert CharAt(b, BlockCell(t, 1, 2), Wall) && Step(s, 1) == BlockCell(t, 1, 2);
    assert CharAt(b, BlockCell(t, 0, 1), Wall) && Step(s, 2) == BlockCell(t, 0, 1);
    assert CharAt(b, BlockCell(t, 1, 0), Wall) && Step(s, 3) == BlockCell(t, 1, 0);
    forall c | c in Reach(b, 3 * n, s)
      ensures c == s
    {
      var p :| IsWalk(b, s, p) && p[|p| - 1] == c;
      assert |p| > 1 ==> IsRoad(b, p[1]) && Adjacent(p[0], p[1]);
      assert |p| == 1;
    }
    assert IsWalk(b, s, [s]);
    assert s in Reach(b, 3 * n, s);
    assert CentresOf(Reach(b, 3 * n, s), s) == {};
  }
}
